=== FILE: README.md ===
# Daily tracker client — a Dafny model

The daily tracker is a browser client that records expenses, body weight and blood pressure in a spreadsheet backend. It reaches the backend over JSONP and draws the history as charts. This project models the client's decision logic as pure Dafny functions over immutable data, and proves what that logic promises.

The modules follow the client's source files:

- `Api` (js/api.js) builds the request query, classifies errors and settles responses. It also covers the retry loop with doubling delays, the TTL cache and cached requests with a `backup_<key>` fallback, and the index-aligned batch request.
- `Health` (js/health.js, thresholds from `Config`) holds the BMI, waist and blood-pressure tiers. It also builds the advice list and sorts it stably by priority, and guards the trend analysis.
- `Config` (js/config.js) holds the configuration object as a JS value, the threshold and validation tables, and the dotted-path `getConfig`/`setConfig`.
- `Utils` and `Storage` (js/utils.js) cover date and time formatting, the inclusive range check, the JSONP callback joining, `throttle`, `generateId`, and the JSON `localStorage` wrapper.
- `Forms` (js/forms.js) covers form-data preparation, the validation rules and field decision order, form validation, drafts and the submit outcome.
- `Tabs` (js/tabs.js) is the tab state machine: switching, the `tabChanged` event, the saved tab, shortcuts, the notification badge, and disabling and enabling tabs.
- `Charts` (js/charts.js) covers data windowing, the morning/evening split, monthly ordering, the empty-data branches, the waist series, the expense totals and the health-info class.
- `App` (js/app.js) covers start-up, dependency checking, per-tab cache invalidation, refreshing, shortcuts, the greeting, cleanup and status.
- `Legacy` (script.js) is the first single-file client: default date and time, submit query and JSONP URL, submit outcome, and the weight and parallel blood-pressure series.

The supporting modules model the JavaScript builtins the client relies on:

- `JsValue`: values, truthiness, property reads and `String(v)`.
- `Query`: ordered property lists, `Object.entries`, spread, and URI query strings.
- `Text`: digits, `padStart`, `split`/`join`, `includes`, `trim`, and the default `sort`.
- `Numbers`: `parseInt`, `parseFloat`, `Number`, `Math.round` and number display.
- `Wrappers`: `Option` and `Result`.

Time, randomness and outside calls are parameters:

- The clock is a `now` argument, and the local date and time are a `LocalDateTime` record.
- `Math.random` is a supplied sequence of draws, and the JSONP callback name is an argument.
- Backend calls are scripted sequences of outcomes.
- `encodeURIComponent` is a pair of functions `enc`/`dec` assumed to invert each other, where `enc` never emits `&` or `=`.
- The names that are properties of `window` and the present DOM elements and inputs are arguments.

Numbers are exact reals.

The normal tier is `bmi < 24` (js/health.js:40), so a BMI of exactly 24 is 過重.

## Model

| member | source | states |
|---|---|---|
| Api.Settle | js/api.js:24-43 | a request that fails always fails with exactly one of the permission, network or server messages, and one that succeeds never gives `null` or `undefined` |
| Api.ApiKeyWins | js/api.js:13-18 | the `apiKey` sent is always the configured key, even when the caller passed one; every other parameter keeps the caller's last value; no name is sent twice |
| Api.RequestQueryDecodes | js/api.js:13-20 | the request URL is the API URL, `?`, then a query that decodes back to the sent pairs as strings, with one `apiKey` pair carrying the configured key and no repeated name |
| Api.UrlQueryDecodes | js/api.js:20 | the text after the base URL and its `?` decodes back to the encoded entries |
| Api.SettleResponse | js/api.js:27-31 | a response with falsy `success` becomes a failure iff its `error` is truthy; otherwise the response itself is returned |
| Api.SettleNullResponse | js/api.js:27-42 | a `null` response fails on reading `success`, and that TypeError is reported as the server error |
| Api.ClassifyReadError | js/api.js:36-42 | the TypeError of reading a property of `null` or `undefined` is classified as the server error |
| Api.SettleRejections | js/api.js:38-39 | both `jsonp` rejections, the timeout and the script error, end as the network message |
| Api.ClassifyPermission | js/api.js:36-37 | a message holding `權限` or `API` is a permission error whatever else it holds, since that test comes first |
| Api.ClassifyNetwork | js/api.js:38-39 | with no permission keyword, a message holding `網路` or `超時` is a network error |
| Api.ClassifyApiError | js/api.js:40-42 | a message with none of the four keywords is a server error |
| Api.ClassifyIdempotent | js/api.js:36-42 | each of the three messages classifies as itself, so classifying twice changes nothing |
| Api.SaveDataSheet | js/api.js:52-57 | the `sheet` sent is the `sheet` field of the data when it has one, the argument otherwise |
| Api.FetchRequestEntries | js/api.js:63-107 | each read request sends exactly `type` with its name, then `apiKey` |
| Api.BatchRequest | js/api.js:114-124 | one entry per request with `index` equal to its position; `success` holds iff that request succeeded, with `data` set and `error` null, and the other way round on failure |
| Api.DoubledIsPow2 | js/api.js:150 | after `k` doublings the delay is the initial delay times `2^k` |
| Api.WithRetry | js/api.js:138-156 | at most `maxRetries + 1` calls, every call before the last one failed, the first success is returned, one wait of `delay·2^i` after each failure `i < maxRetries` and none after the last attempt, the last error is rethrown when all attempts fail, and `undefined` is thrown when no attempt is made |
| Api.CacheSet | js/api.js:170-173 | setting adds the key and keeps every other key |
| Api.CacheGetAfterSet | js/api.js:170-190 | after `set(key, v, ttl)` at `now`, `get` returns `v` up to `now + ttl` inclusive and `null` after; other keys read as before |
| Api.CacheGetDeletesOnlyExpired | js/api.js:180-190 | a read of an expired entry returns `null` and deletes exactly that key; any other read leaves the cache as it was |
| Api.CacheClearSpec | js/api.js:196-202 | `clear(k)` with a truthy key removes only `k` and keeps the other entries; a falsy or absent key empties the cache |
| Api.CacheCleanupSpec | js/api.js:207-214 | cleanup keeps exactly the entries that have not expired, unchanged; a `get` at the same time reads the same value before and after; a second cleanup changes nothing |
| Api.CachedHit | js/api.js:226-230 | a truthy cached value is returned without calling `apiCall`; a falsy one counts as a miss and calls it |
| Api.CachedMissFills | js/api.js:233-236 | on a miss, a successful result is returned and cached with expiry `ttl` after it arrived |
| Api.CachedNeverNull | js/api.js:224-246 | when the call cannot succeed with `null` or `undefined`, neither can the cached request: hits and backups are truthy |
| Api.CachedMissFails | js/api.js:237-245 | on a miss, a failure returns a truthy `backup_<key>` from storage and otherwise rethrows the original error; the failure is not cached |
| Health.ExactBmi | js/health.js:18-19 | the exact BMI times the height in centimetres squared is the weight times 10000 |
| Health.CalculateBmi | js/health.js:13-21 | `null` iff the weight or height is missing, zero or negative; otherwise the result is within half a tenth of the exact BMI, with the height taken in centimetres |
| Health.GetBmiCategory | js/health.js:28-29 | `null` iff the BMI is falsy |
| Health.BmiTierIntervals | js/health.js:33-61 | each tier is a half-open interval: below 18.5 過輕, up to 24 正常, up to 27 過重, from 27 肥胖 |
| Health.BmiBoundaries | js/health.js:33-61 | 18.5 is already 正常, 24 already 過重 and 27 already 肥胖 |
| Health.BmiTierMonotone | js/health.js:33-61 | a larger BMI never gets a lower tier |
| Health.GetWaistCategory | js/health.js:70-71 | `null` iff the waist is falsy or the gender is empty |
| Health.WaistThickIff | js/health.js:73-93 | the waist is 過粗 iff it exceeds 90 for a gender that upper-cases to `M` and 80 for any other gender |
| Health.WaistBoundaries | js/health.js:79 | 90 for `M` and 80 for `F` are still 正常, and a larger waist never turns normal again |
| Health.GetBpCategory | js/health.js:102-103 | `null` iff either reading is falsy |
| Health.BpTierIff | js/health.js:108-133 | 高血壓 iff systolic ≥ 140 or diastolic ≥ 90; 血壓偏高 iff below both and systolic ≥ 120 or diastolic ≥ 80; 正常 iff below 120 and 80 |
| Health.BpTierMonotone | js/health.js:108-133 | raising either reading never lowers the tier |
| Health.Insert | js/health.js:250-253 | one insertion step adds exactly one element |
| Health.SortByPriority | js/health.js:250-253 | the sort keeps the length |
| Health.InsertPermutes | js/health.js:250-253 | an insertion adds exactly the inserted element to the multiset |
| Health.SortPermutes | js/health.js:250-253 | the sort is a permutation of its input |
| Health.InsertIntoBuckets | js/health.js:250-253 | inserting the next element into the high, medium and low groups gives the groups of the longer list |
| Health.SortIsBuckets | js/health.js:250-253 | the sort equals the high items, then the medium, then the low, each group in input order, which is the stable sort of ECMA-262 (2019 edition onward) |
| Health.BucketsSorted | js/health.js:250-253 | the result is non-increasing in priority |
| Health.BucketsStable | js/health.js:250-253 | items of equal priority keep their input order |
| Health.FrontFacts | js/health.js:203-240 | at most three items are pushed before the general one, none of them low or general |
| Health.CollectedOrdered | js/health.js:200-248 | the pushed items come in the order bmi, waist, blood pressure, general |
| Health.AdviceLayout | js/health.js:200-254 | the advice is the high items, then the medium items, then the general item |
| Health.AdviceShape | js/health.js:200-254 | one to four items, the single general item last, sorted by non-increasing priority, ties in push order |
| Health.AdviceSameItems | js/health.js:250-253 | the sorted advice holds exactly the pushed items |
| Health.AdviceBmiItem | js/health.js:204-214 | a BMI item exists iff the BMI is present and not 正常, and it is high priority iff 肥胖 |
| Health.AdviceWaistItem | js/health.js:217-227 | a waist item exists iff the waist and gender are present and the waist exceeds the limit, and it is always high priority |
| Health.AdviceBpItem | js/health.js:230-240 | a blood-pressure item exists iff both readings are present and not 正常, and it is high priority iff 高血壓 |
| Health.PercentChange | js/health.js:273 | for a non-zero first weight, the change times the first weight is 100 times the difference |
| Health.TrendOfRatio | js/health.js:275-281 | a change above 2 is up and below -2 is down, each reporting the size of the change; anything else is stable |
| Health.ChangeThresholds | js/health.js:273-275 | for a positive first weight the change exceeds 2 iff the last weight is above 102 % of the first, and is below -2 iff it is under 98 % |
| Health.WeightTrendThresholds | js/health.js:268-283 | for a positive first weight the trend is up iff the last is above 102 % of the first and down iff below 98 %, reporting the absolute change |
| Health.WeightTrendFromZero | js/health.js:273-281 | a first weight of 0 makes any rise or fall infinite, and equal weights stable |
| Health.AnalyzeTrendGuard | js/health.js:263-268 | fewer than two records or missing data give `null`; a type other than `weight` gives direction stable, percentage 0 and an empty message |
| Health.AnalyzeTrendLastSeven | js/health.js:265 | records older than the last seven never change the trend |
| Config.ThresholdsOrdered | js/config.js:28-41 | BMI 18.5 < 24 < 27, the normal blood-pressure bounds lie below the high ones on both readings, and the female waist limit lies below the male |
| Config.ValidationRulesWellFormed | js/config.js:86-99 | every validation rule has `min <= max` |
| Config.ResolveIsWalk | js/config.js:148-161 | `getConfig` returns exactly the value the path reaches, falsy or not, and the default exactly when some segment cannot be followed |
| Config.WalkConcat | js/config.js:152-158 | walking a joined path walks the first part and then the rest from where it ended |
| Config.GetConfigStopsAtMissingSegment | js/config.js:152-157 | once a segment is absent or the value reached is not a truthy object, the default is returned whatever follows |
| Config.GetConfigOfSegments | js/config.js:149 | a path of dot-free segments joined with dots splits back into them |
| Config.SplitPath2 | js/config.js:149 | `a.b` splits into `a` and `b` |
| Config.GetConfigTwoSegments | js/config.js:148-161 | `getConfig('a.b', d)` is `config.a.b` when `config.a` is a truthy object owning `b`, however falsy that value is, and `d` otherwise |
| Config.DefaultFeatureLookup | js/config.js:102-120 | on the shipped configuration, a feature flag reads as its value, `false` included, and the default only for an unknown flag |
| Config.DefaultEntries | js/config.js:9 | the shipped configuration holds the feature flags and the API key string |
| Config.DefaultStringStepGivesDefault | js/config.js:153 | a path that steps into a string, such as `API_KEY.x`, gives the default |
| Config.SetPathKeepsKind | js/config.js:170-178 | a successful update leaves an object where there was an object, with the first segment's property added or replaced and every other property kept; an array stays an array addressed by an index, keeps its other elements, and grows to just past an index beyond its end with `undefined` in the skipped positions |
| Config.SetPathFailure | js/config.js:170-178 | the update fails iff some value it steps through is `null` or an array addressed by a name that is not an index, and the failure is the TypeError iff a `null` is on the way |
| Config.SetPathThenWalk | js/config.js:166-179 | after the update, walking the same path reaches the written value |
| Config.SetThenGetConfig | js/config.js:166-179 | after `setConfig(path, v)` succeeds, `getConfig(path)` gives `v` whatever the default |
| Config.SetConfigFrame | js/config.js:166-179 | at the top level only the first segment's key changes, and every other key keeps its value |
| Config.SetConfigCreatesIntermediate | js/config.js:172-173 | a missing or non-object intermediate is replaced by a new object holding only the rest of the path |
| Config.SetConfigThrowsAtNull | js/config.js:172 | a `null` intermediate makes `setConfig` throw a TypeError |
| Config.SetConfigFailsIff | js/config.js:166-179 | `setConfig` fails iff the update of the split path is blocked, and throws the TypeError iff a `null` is on the way |
| Utils.FormatDateFields | js/utils.js:64-69 | the formatted date splits on `-` into three parts that read back as the year, the one-based month and the day, month and day with exactly two digits |
| Utils.FormatDateIsIso | js/utils.js:64-69 | for a four-digit year the result is the ten-character extended calendar date `YYYY-MM-DD` of section 5.2.1.1 of ISO 8601:2004 |
| Utils.FourDigitYear | js/utils.js:65 | a year from 1000 to 9999 is written with four digits |
| Utils.FormatTimeFields | js/utils.js:76-80 | the formatted time is five characters `HH:MM` whose two parts read back as the hours and minutes |
| Utils.NumberInRangeInclusive | js/utils.js:269-272 | a number passes iff it lies in `[min, max]`, both ends included |
| Utils.ParseFloatOfWord | js/utils.js:270 | `parseFloat` of a text starting with a letter is NaN |
| Utils.NumberInRangeRejectsWords | js/utils.js:269-272 | a non-number whose string form starts with a letter never passes |
| Utils.NumberInRangeRejectsNaN | js/utils.js:271 | NaN and `undefined` never pass |
| Utils.JsonpUrl | js/utils.js:30 | the script URL is the original URL, one joining character, then `callback=` and the callback name |
| Utils.JsonpUrlJoiner | js/utils.js:30 | the joining character is `&` iff the URL already contains `?`, and `?` otherwise, so the result always contains `?` |
| Utils.ThrottleSpacing | js/utils.js:171-180 | the throttled function runs only at call times, and consecutive runs are at least `delay` apart |
| Utils.ThrottleSnoc | js/utils.js:175-178 | one more call runs iff it comes at least `delay` after the last run, or after the start when nothing has run, and then it is the only run added |
| Utils.ThrottleDecides | js/utils.js:175-178 | call `i` runs exactly when it comes at least `delay` after the last run among the calls before it |
| Utils.Pick | js/utils.js:283 | each draw in `[0, 1)` picks a character of the 62-character alphabet |
| Utils.GenerateId | js/utils.js:279-286 | the id has exactly `length` characters (none for a non-positive length), the `i`-th being the alphabet character the `i`-th draw picks |
| Storage.Set | js/utils.js:297-303 | setting adds the key and keeps the others |
| Storage.Remove | js/utils.js:325-331 | removing leaves the key absent |
| Storage.GetAfterSet | js/utils.js:297-319 | `get` after `set(k, v)` gives `v` as a JSON round trip carries it, exactly `v` when it holds no `undefined` or NaN, and the default for `undefined` |
| Storage.GetAfterRemove | js/utils.js:311-331 | `get` after `remove(k)` gives the default |
| Storage.OtherKeysUnaffected | js/utils.js:297-331 | `set` and `remove` on one key leave every other key reading as before |
| Storage.NormalizeIsClean | js/utils.js:299 | what a JSON round trip gives holds no `undefined` or NaN |
| Storage.NormalizeKeepsClean | js/utils.js:314 | a value with no `undefined` or NaN survives the JSON round trip unchanged |
| Storage.NormalizeIdempotent | js/utils.js:299 | a second JSON round trip changes nothing |
| Forms.FormEntriesSpec | js/forms.js:105 | `Object.fromEntries` repeats no name and each name reads its last value |
| Forms.FormValuesAreStrings | js/forms.js:105 | every value read from the form is a string |
| Forms.Clean | js/forms.js:130-134 | nothing blank is left and nothing is added |
| Forms.CleanMembers | js/forms.js:130-134 | an entry survives the cleanup iff it was there and its value is not `''`, `null` or `undefined` |
| Forms.CleanDistinct | js/forms.js:130-134 | the cleanup repeats no name |
| Forms.CleanLookup | js/forms.js:130-134 | after the cleanup a name reads its value when that value is not blank, and is absent otherwise |
| Forms.ConvertFrame | js/forms.js:115-117 | the truthy-guarded conversion changes only its own name and repeats no name |
| Forms.TypedFrame | js/forms.js:108-127 | the per-sheet conversions leave every other name as it reads and repeat no name |
| Forms.WeightFrame | js/forms.js:113-118 | the weight conversions leave every other name alone |
| Forms.BloodPressureFrame | js/forms.js:120-126 | the blood-pressure conversions leave every other name alone |
| Forms.PrepareKeepsOtherFields | js/forms.js:104-137 | a name no conversion touches is sent with its last value exactly when that value is not empty |
| Forms.PrepareExpenseAmount | js/forms.js:109-111 | an expense always sends `amount`: the number entered, or 0 when it is missing or unparsable |
| Forms.CleanedAmount | js/forms.js:110 | `parseFloat(x) || 0` always survives the cleanup |
| Forms.PrepareWeightWaist | js/forms.js:113-118 | a weight record sends `waist` only when it parses to a non-zero number; an unparsable waist becomes `null` and is deleted |
| Forms.CleanedWaist | js/forms.js:115-117 | what the cleanup keeps of the guarded `parseFloat(x) || null` |
| Forms.PrepareBloodPressure | js/forms.js:120-122 | a blood-pressure record always sends both readings, as the integer entered or 0 |
| Forms.BloodPressureReadings | js/forms.js:121-122 | both readings are set to `parseInt(x) || 0`, which is never blank |
| Forms.TypedBloodPressureSheet | js/forms.js:120 | the sheet `blood pressure` selects the blood-pressure conversions |
| Forms.PreparePulse | js/forms.js:123-125 | `pulse` is sent only when it parses to a non-zero integer |
| Forms.CleanedPulse | js/forms.js:123-134 | the guarded pulse conversion followed by the cleanup keeps exactly a non-zero integer pulse |
| Forms.CleanedIntOrNull | js/forms.js:124 | `parseInt(x) || null` survives the cleanup iff it is a non-zero integer |
| Forms.FalsyStringIsBlank | js/forms.js:131 | a missing or empty form value does not survive the cleanup |
| Forms.PrepareHasNoBlanks | js/forms.js:129-136 | nothing blank is ever sent |
| Forms.GetValidationRules | js/forms.js:223-231 | `null` iff the name is in none of the three tables; otherwise the expense rule, else the weight rule, else the blood-pressure rule |
| Forms.ValidationTablesDisjoint | js/forms.js:223-231 | no name is in two tables, so the search order never matters, and each rule found has `min <= max` |
| Forms.ValidateFieldOrder | js/forms.js:162-193 | on the trimmed value: required and empty fails, empty passes, a number field fails when it does not parse and when it lies outside its rule's inclusive range, and other fields pass |
| Forms.PassedNumberInRange | js/forms.js:179-193 | a number field that passes parses to a number inside its rule's range |
| Forms.PassedRequiredIsNotBlank | js/forms.js:171-174 | a required field that passes is not all whitespace |
| Forms.RequiredInputs | js/forms.js:145 | the required inputs are exactly the inputs with `required` |
| Forms.CheckAll | js/forms.js:148-152 | one verdict per input, in order, with none skipped |
| Forms.AllPass | js/forms.js:146-154 | true iff every verdict passes |
| Forms.VerdictsAllPass | js/forms.js:146-154 | all verdicts pass iff the check passes every input |
| Forms.ValidateForm | js/forms.js:144-155 | every required input is validated in order with no short-circuit, and the form is valid iff all of them pass |
| Forms.EntriesObject | js/forms.js:323 | the saved draft holds only strings |
| Forms.LoadFormData | js/forms.js:332-344 | loading keeps the set of inputs |
| Forms.ClearFormData | js/forms.js:350-352 | clearing removes the `draft_<form id>` key |
| Forms.DraftsDisabled | js/forms.js:319-336 | with `AUTO_SAVE` off, saving and loading change nothing, and the shipped configuration has it off |
| Forms.DraftRoundTrip | js/forms.js:319-344 | loading a just-saved draft restores every input whose saved text is non-empty and leaves the rest |
| Forms.ClearedDraftLoadsNothing | js/forms.js:332-352 | after clearing, loading changes nothing |
| Forms.DraftsPerForm | js/forms.js:325-351 | drafts of different forms do not interfere |
| Forms.SubmitOutcomeSpec | js/forms.js:52-95 | nothing is sent unless the form is valid; the form is reset and its draft cleared exactly when the response's `success` is truthy, with the saved notice; otherwise storage is untouched and a non-empty error is shown; the loading state always ends off; the cache is never touched, and the chart reloads are the sheet's reload exactly when the form was reset |
| Forms.ReloadCharts | js/forms.js:297-313 | a submit reloads at most one chart, and one exactly when the sheet is `expense`, `weight` or `blood pressure` |
| Forms.ReloadMatchesTabs | js/forms.js:297-313 | each sheet's reload is the loader its tab runs on a tab switch |
| Forms.SubmitReloadServesCache | js/forms.js:80 | as written, after a saved submit the chart reload reads a key that is still cached with a truthy value from the cache, without calling the server |
| Forms.SubmitFormFixed | js/forms.js:52-95 | the corrected submit differs from the shipped one only in its cache, which on a reset loses exactly the reloaded charts' keys and otherwise stays as it was |
| Forms.FixedReloadFetches | js/forms.js:80 | after a saved submit with the corrected cache, every key the reload reads is absent, so the reload calls the server and returns its success |
| Tabs.Initial | js/tabs.js:7 | the manager starts on `expenseTab` with nothing loaded and no event sent |
| Tabs.LoadFor | js/tabs.js:110-122 | a switch starts exactly one chart load for each of the three tabs and none for any other id |
| Tabs.SwitchToActiveIsNoop | js/tabs.js:45 | switching to the active tab changes nothing: no storage write, no load, no event |
| Tabs.SwitchTabEffects | js/tabs.js:44-69 | after switching to another tab it is the only active tab and is stored under `activeTab`; other stored keys are untouched; exactly one event is added; the tab's chart load is started; the tab is highlighted iff its button and content exist |
| Tabs.SwitchEventsRepeatTarget | js/tabs.js:143-147 | every `tabChanged` event has `previousTab` equal to `currentTab`, the tab switched to, because `activeTab` is reassigned before the event is built |
| Tabs.SwitchAllEndsOnLast | js/tabs.js:44-69 | after a run of switches the active tab is the last one asked for |
| Tabs.InitRestoresSavedTab | js/tabs.js:132-136 | with nothing stored, or `expenseTab` stored, the manager stays as created; a stored tab the page has is restored; a stored tab the page lacks is ignored |
| Tabs.ShortcutMap | js/tabs.js:29-36 | exactly Ctrl or Cmd with 1, 2 or 3 is a shortcut, to `expenseTab`, `weightTab` and `bpTab` in that order; any other key leaves the state alone |
| Tabs.ShowNotificationBadge | js/tabs.js:225-237 | the page keeps its buttons and contents |
| Tabs.HideNotificationBadge | js/tabs.js:243-251 | the page keeps its buttons and contents |
| Tabs.BadgeSpec | js/tabs.js:234-235 | the text is `99+` iff the count exceeds 99 and otherwise the count in decimal, and the badge is visible iff the count is positive |
| Tabs.HideAfterShow | js/tabs.js:243-251 | hiding keeps the text and makes the badge invisible |
| Tabs.Available | js/tabs.js:197-199 | a tab is available iff it is one of the three and its button is not disabled |
| Tabs.AvailableFirst | js/tabs.js:197-201 | the first available tab is the earliest one, in the order expense, weight, blood pressure, that is not disabled |
| Tabs.DisableTab | js/tabs.js:188-205 | disabling throws only on the active tab with a button, leaving the manager where it was; the tab contents and the set of buttons never change |
| Tabs.DisableMarksButton | js/tabs.js:190-193 | the button is disabled with the reason or the default title, and disabling a tab that is not active never moves the manager |
| Tabs.DisableActiveFallsBack | js/tabs.js:196-202 | disabling the active tab moves to the first enabled tab in the order expense, weight, blood pressure, never the disabled one, and stays when none is enabled |
| Tabs.DisableActiveWithMissingButtonThrows | js/tabs.js:198 | disabling the active tab when one of the three tabs has no button throws a TypeError reading `disabled`, after the tab's own button was already disabled, and the manager stays put |
| Tabs.EnableTab | js/tabs.js:211-218 | the page keeps its buttons and contents |
| Tabs.EnableAfterDisable | js/tabs.js:211-218 | enabling undoes disabling on the button, clears the title and keeps the badge |
| Charts.Window | js/charts.js:216 | the window holds `min(n, 50)` records |
| Charts.WindowKeepsLatest | js/charts.js:397 | the window is the last `min(n, 50)` records in their original order, all of them when there are at most 50 |
| Charts.FirstUnreadable | js/charts.js:218 | a TypeError is raised iff some windowed record is `null` or `undefined` |
| Charts.WaistPoint | js/charts.js:220 | a waist point is `null` iff the record's waist is falsy |
| Charts.WaistFlags | js/charts.js:234 | some waist point is drawn iff some record has a truthy waist |
| Charts.WeightChartEmptyIff | js/charts.js:210-213 | the placeholder is shown iff the data is missing or empty, and a failure happens iff a windowed record is unreadable |
| Charts.WeightChartSeries | js/charts.js:216-247 | the chart plots exactly the window, label and weight point by point in order, and has a waist series and `y1` axis iff some windowed record has a truthy waist, with `null` exactly at the records without one |
| Charts.Hours | js/charts.js:400-408 | when every hour can be read there is one per record, each the parse of that record's time |
| Charts.Select | js/charts.js:400-408 | a filter keeps, in increasing order, exactly the positions on its side |
| Charts.Points | js/charts.js:418-421 | one point per selected position |
| Charts.BpChartEmptyIff | js/charts.js:391-394 | the placeholder is shown iff the data is missing or empty |
| Charts.SelectPartition | js/charts.js:400-408 | a record is morning iff its hour is below 12, evening iff it is 12 or more, and on exactly one side iff its hour parses |
| Charts.BpChartSeries | js/charts.js:397-421 | each point of the four series is the reading of the window record at its position, the morning pair and the evening pair having one point per selected record |
| Charts.CreateCategoryChart | js/charts.js:66-72 | the placeholder iff there are no categories; otherwise labels and values are the categories' names and amounts in the object's order |
| Charts.CreateMonthlyChart | js/charts.js:127-130 | the placeholder iff there are no months |
| Charts.MonthlyOrdered | js/charts.js:124-138 | the bars are the month keys sorted ascending, each value aligned by index with its own month, each label the month's display form |
| Charts.MonthsFound | js/charts.js:125 | every month taken from the keys reads its own value |
| Charts.KeyFound | js/charts.js:125 | a name among the keys has a value |
| Charts.MonthLabelOfKey | js/charts.js:135-138 | a `YYYY-MM` key displays as `YYYY年MM月` |
| Charts.ExpenseTotalsDefaults | js/charts.js:34-40 | the monthly total is 0 when the current month is missing and the month's value otherwise; the daily total is 0 when `daily` is absent or has no entry for today; for a four-digit year the month key is the `YYYY-MM` prefix of today's date |
| Charts.LoadExpenseCharts | js/charts.js:12-27 | both error placeholders are shown iff the statistics could not be fetched |
| Charts.HealthClassEscalation | js/charts.js:333-354 | the class starts as `health-info`, takes the BMI tier's class when a BMI is computed, is `health-danger` iff the BMI class is or the waist exceeds its limit, and the waist never lowers it |
| Charts.HealthHiddenIff | js/charts.js:324-327 | the health box is hidden iff there is no weight record or the height is falsy |
| Charts.LoadWeightChart | js/charts.js:182-196 | a failed fetch of the weights or the settings shows the weight error; the empty placeholder is kept with the `length` TypeError only logged iff both fetches succeed with a `null` weight payload |
| Charts.WeightNullPayloadKeepsPlaceholder | js/charts.js:188-193 | a `null` payload draws the placeholder and then throws reading its `length`, and the error display finds no canvas, so the placeholder stays; an empty payload shows the placeholder and hides the box |
| Charts.LoadBpChart | js/charts.js:365-377 | the blood-pressure error is shown iff the fetch failed or building the chart threw |
| Charts.FirstWhere | js/charts.js:556 | the first container satisfying the test, and none when no container does |
| Charts.ShowChartError | js/charts.js:555-569 | without the canvas the page is unchanged; otherwise only the canvas's container changes, to the error placeholder |
| Charts.RetryLoaders | js/charts.js:601-612 | exactly one loader runs iff the canvas is one of the four charts |
| Charts.RetryLoadChart | js/charts.js:592-613 | the whole cache is cleared; reading `parentElement` throws and no loader runs iff the page has no canvas of that id; otherwise the chart's loader runs |
| Charts.RetryAfterErrorThrows | js/charts.js:555-613 | after the error placeholder replaced the canvas, pressing retry always throws: the cache is emptied, the placeholder stays and no chart reloads |
| Charts.RetryLoadChartFixed | js/charts.js:592-613 | the container of the chart, holding its canvas or its error placeholder, gets a fresh canvas, nothing else changes, the cache is cleared and the chart's loader runs |
| Charts.RetryFixedRestores | js/charts.js:555-613 | showing the error and then retrying gives back the page as it was, with the cache emptied and the chart's loader run |
| App.Constructed | js/app.js:7-10 | a new application is not initialized and holds no refresh timer |
| App.MissingPositions | js/app.js:51 | the positions of the undefined names: increasing, each an undefined name, and every undefined name's position among them |
| App.Missing | js/app.js:51 | the undefined names in their listed order |
| App.MissingSpec | js/app.js:51 | a name is reported missing iff it is listed and not defined |
| App.MissingIsUnfound | js/app.js:51 | the filter equals a plain left-to-right filter of the undefined names |
| App.UnfoundOfWindow | js/app.js:50-51 | over the properties of `window`, the filter keeps `CONFIG` in debug mode and `CONFIG`, `Utils`, `API` otherwise |
| App.MissingOfWindow | js/app.js:50-51 | the shipped check reports `CONFIG` missing in debug mode and `CONFIG`, `Utils`, `API` otherwise |
| App.ShippedCheckAlwaysFails | js/app.js:49-56 | as written, the dependency check fails in both modes, and start-up ends with the failure toast and no change |
| App.BindingCheckPasses | js/app.js:49-56 | checking the global bindings instead of the `window` properties finds every required name in both modes, and start-up initializes the app, starts the tab manager and loads the current tab |
| App.CheckNamesSpec | js/app.js:53-55 | the dependency check fails iff some required name is undefined, with the message naming the missing ones joined by `, ` |
| App.TabCacheKeys | js/app.js:94-98 | every cache key mapped to a tab is a non-empty name |
| Api.ClearKeysSpec | js/app.js:101-103 | clearing the listed keys removes exactly those keys and leaves every other entry unchanged |
| App.TabKeysAreLoaderKeys | js/app.js:94-103 | the keys a tab change clears are exactly the cache keys the tab's chart loader reads |
| Charts.LoadKeys | js/charts.js:14-16 | the cache keys a sequence of loads reads are non-empty strings, and for one load they are that loader's keys |
| Charts.LoaderCacheKeys | js/charts.js:185-186 | every chart loader reads at least one cache key, and none is empty |
| App.TabChangedInvalidates | js/app.js:90-104 | a tab change removes exactly the new tab's cache keys, and an unmapped tab changes nothing |
| App.RefreshCurrentTabData | js/app.js:189-204 | a refresh empties the whole cache and keeps the initialized flag and the timer |
| App.LoadersAgree | js/app.js:169-184 | the initial load, the tab manager's load and a refresh run the same loader, one exactly for the three chart tabs |
| App.SetupAutoRefresh | js/app.js:156-164 | a timer is installed iff the interval is positive, and the cache and flag are kept |
| App.ConfiguredAutoRefresh | js/app.js:157 | with the configured 30-second interval the timer is installed |
| App.RefreshOnlyWhenVisible | js/app.js:122-127 | a hidden page neither ticks nor refreshes, an uninitialized app ignores visibility, and a visible initialized app refreshes with an empty cache |
| App.HandleKeyboardShortcuts | js/app.js:139-151 | Ctrl or Cmd with `r` refreshes, with `s` saves the form, and anything else does nothing |
| App.SaveCurrentForm | js/app.js:209-224 | a form is submitted only when it exists and is the current tab's form |
| App.SaveCurrentFormSpec | js/app.js:211-223 | a submit happens iff the tab maps to a form that exists; exactly the three chart tabs map to a form, each to its own |
| App.GreetingBuckets | js/app.js:272-280 | the greeting is late night before 6, morning before 12, afternoon before 18 and evening otherwise |
| App.Cleanup | js/app.js:290-305 | cleanup clears the timer, the cache and the charts and drops the initialized flag |
| App.CleanupIdempotent | js/app.js:290-305 | cleaning up twice is cleaning up once, and a timer is cleared iff one was set |
| App.Init | js/app.js:15-44 | start-up fails iff a dependency is missing, then showing the load-failure toast and changing nothing; otherwise the app is initialized with its cache kept, the tab manager starts as `TabManager.init` does, and the loads are the ones the saved-tab switch starts followed by the current tab's loader |
| App.InitLoads | js/tabs.js:132-136 | with no saved tab start-up loads the expense charts once; with a saved weight or blood-pressure tab present on the page, that tab's chart loads twice, once from the switch and once from `loadInitialData` |
| App.RestartSpec | js/app.js:310-313 | a restart with the dependencies present leaves an initialized app with an empty cache, no charts and a timer iff the interval is positive |
| App.ConfiguredSyncIsIdle | js/app.js:247-248 | with offline mode off going online loads nothing |
| App.GetStatus | js/app.js:318-326 | the status reports the cache's size and the initialized flag |
| Legacy.PadIsTwoDigits | script.js:23-26 | `String(n).padStart(2,'0')` renders a number as the modular client's two-digit form does |
| Legacy.DefaultDateTimeInputs | script.js:31-42 | setting the defaults keeps the page's inputs, writes today's date into every date input and the time into every time input present, and leaves the others alone |
| Legacy.DefaultDateTimePadded | script.js:20-29 | the date is `YYYY-MM-DD` and the time `HH:MM`, as the modular formatter writes them, with two-digit parts that read back as the clock's values |
| Legacy.SubmitDataSpec | script.js:70-73 | the submitted data never repeats a name; `sheet`, `apiKey` and `callback` carry the sheet, the key and the word `callback` whatever the form held, and every other name the form's last value for it |
| Legacy.SubmitQueryDecodes | script.js:75 | decoding the query gives back one pair per data field, in order |
| Legacy.JsonpUrlJoinerDiffers | script.js:57 | on a URL without a query the legacy client joins with `&` where the modular one joins with `?` |
| Legacy.JoinSnoc | script.js:75 | joining one more part appends the separator and the part |
| Legacy.DecodeAppended | script.js:57 | a raw `name=value` appended after an encoded query decodes as one more pair after the encoded ones |
| Legacy.SubmitUrlHasTwoCallbacks | script.js:73-76 | a submit's URL carries the data's own `callback=callback` at the data's position and the appended callback naming the registered function as the last pair |
| Legacy.CallbackTwice | script.js:57 | any data whose `callback` field is the word `callback` sent through the JSONP helper yields two `callback` parameters |
| Legacy.ResetOnlyOnSuccess | script.js:76-88 | the form is reset and the confirmation shown iff the payload's `success` is truthy; otherwise the payload's `error` or "unknown error" follows the failure prefix, and a rejected or unreadable payload shows the network error |
| Legacy.WeightSeries | script.js:123-131 | the weight line succeeds iff every record can be read, failing with the first unreadable record's TypeError |
| Legacy.WeightSeriesAgrees | script.js:127-128 | on up to 50 readable records the legacy labels are the modular chart's, and the modular weights are `parseFloat` of the legacy raw values |
| Legacy.PrependSpec | script.js:136-144 | one more record in front of the series shifts every earlier row by one and puts the new record's row first |
| Legacy.PrependHead | script.js:137-143 | the record put in front is the first row of the series |
| Legacy.PrependRow | script.js:137-143 | a row of the shorter series stays a row, one index later, of the longer |
| Legacy.PrependShifts | script.js:137-143 | index `i > 0` of the longer series is index `i - 1` of the shorter |
| Legacy.BpSeriesOf | script.js:134-144 | the series are built iff every record's time can be read, and then hold, index by index, each record's label and readings |
| Legacy.OneSidePerRecord | script.js:139-143 | at every index exactly one of the morning and evening entries holds the record's reading and the other `null`, morning exactly when the hour parses and is below 12 |
| Text.NatToString | js/utils.js:66 | the decimal form of a number is non-empty digits without a leading zero, one digit exactly below 10 |
| Text.NatToStringRoundTrip | js/utils.js:66 | the decimal form reads back as the number |
| Text.IntToString | js/tabs.js:234 | an integer prints as its digits, with a leading `-` for a negative one, reading back as the integer |
| Text.PadStart2 | js/utils.js:66-67 | `padStart(2, "0")` keeps a string of two or more characters and otherwise left-fills with zeros to length two |
| Text.TwoDigits | js/utils.js:66-67 | a number below 100 prints as two digits reading back as itself |
| Text.SplitOn | js/config.js:149 | `split` gives at least one part and no part holds the separator |
| Text.JoinSplit | js/config.js:149 | joining the parts of a split restores the string |
| Text.SplitJoin | js/charts.js:136 | splitting a join of separator-free parts gives the parts back |
| Text.SplitTwo | js/charts.js:136 | `a-b` with separator-free halves splits into exactly `[a, b]` |
| Text.LexLessIrreflexive | js/charts.js:124 | no string sorts before itself |
| Text.LexLessTransitive | js/charts.js:124 | the default string order is transitive |
| Text.LexLessTotal | js/charts.js:124 | two different strings are ordered one way or the other |
| Text.SortAscending | js/charts.js:124 | the default `sort()` of the keys is ascending and a permutation of them |
| Text.ContainsWitness | js/api.js:36 | a string containing the word at some position `includes` it |
| Text.TrimSpec | js/forms.js:163 | `trim()` leaves a contiguous piece with only white space around it and none at its ends, empty iff the string is all white space |
| Numbers.ParseIntDigits | js/forms.js:121 | `parseInt` of digits followed by a non-digit is the digits' value, leading zeros included |
| Numbers.ParseIntRoundTrip | js/charts.js:401 | `parseInt` reads back any integer's decimal form |
| Numbers.ScanDecimal | js/forms.js:181 | a scanned decimal literal consumes a non-empty prefix of the text |
| Numbers.RoundTenth | js/health.js:20 | `Math.round(x * 10) / 10` is within half a tenth of `x` and a whole number of tenths |
| Numbers.DisplayNumber | js/forms.js:190 | a whole number prints as its integer digits |
| Query.IndexOf | js/api.js:13-18 | the first position holding the name, or none when no entry has it |
| Query.LookupDistinct | js/api.js:13-18 | with distinct names every entry is found under its own name |
| Query.SetEntrySpec | js/api.js:13-16 | assigning a property makes it read the new value, leaves every other name's value and keeps names distinct |
| Query.MergeSpec | js/api.js:13-16 | a spread keeps names distinct, and a name reads the later object's last value if it has one and the base's otherwise |
| Query.LastLookupDistinct | js/api.js:13-16 | with distinct names the last value for a name is its only one |
| Query.MergeIntoEmpty | js/api.js:13-16 | spreading entries whose names are all new appends them in order |
| Query.EncodePairs | js/api.js:16-18 | one encoded `name=value` per entry, in order |
| Query.QueryRoundTrip | js/api.js:16-18 | for an encoder whose output never holds `&` or `=` and that its decoder inverts, decoding the query of a non-empty list gives back each name and string value in order |
| JsValue.GetProp | js/api.js:27 | reading a property fails with a TypeError iff the value is `null` or `undefined` |

## Left out

- DOM and Chart.js work (element lookup, `innerHTML`, styles, chart options, tooltips, `destroy` and `resize`) is not modelled. Only the data each chart is given and the branch taken are.
- The JSONP transport (script-tag insertion, global callback registration, `onerror`, the 10-second timeout) is left out. A call is an outcome: a payload or a rejection.
- Floating point: numbers are exact reals. `Math.round`, `parseFloat` and the trend percentage are computed exactly. Number display covers positional decimals only, not the exponent form `String(x)` uses for magnitudes of 1e21 and above and for non-zero magnitudes below 1e-6.
- `parseInt`/`parseFloat` accept white space, a sign, digits and a fraction. Exponents, `Infinity` and hexadecimal prefixes are not modelled.
- The date-range check of `validateField` ("not in the future, not older than a year") depends on the clock and `Date` parsing. It is the parameter `dateCheck`.
- `getIdealWeightRange`, the BMR and TDEE formulas, `formatNumber`/`formatCurrency` locale output and the tooltip percentage are float or locale computations outside the modelled logic.
- `Date` parsing, `daysDifference`, `getMonthRange` and the environment detection in js/config.js are left out, because they depend on the platform.
- The Notification API, ISO timestamps in events, `debounce`, the auto-save and refresh intervals' scheduling, the online/offline and resize listeners, `Promise.all` ordering and cross-tab storage races are left out. They are timing and platform behaviour.
- `deepClone` walks arbitrary object graphs and prototypes and is not modelled.
- Objects are ordered lists of own properties. Inherited prototype properties are not modelled, and neither is the rule that `Object.keys` lists integer-like keys first.
- The value of `CONFIG.API_URL` and the JSONP callback name are arguments. The name is built with `Math.random` in the source.
- Tabs.InitRestoresSavedTab: a saved tab that is not a string is switched to under its string form; the source passes the stored value itself to `switchTab`.
- Charts.WeightChartSeries: chart payloads are sequences of records; a payload that is neither `null` nor an array is not modelled.
- Legacy.BpSeriesOf: the payload is a sequence of records; `data.forEach` on a non-array payload is not modelled.
- Charts.Hours: an unreadable hour (`NaN`) is an absent hour, which neither modular filter keeps; the legacy loop puts such a record in the evening series.
- Tabs.ShowNotificationBadge: the count is an integer; a fractional or `NaN` count is not modelled.
- App.MissingSpec: states membership only; the order of the missing names is stated by App.Missing and App.MissingPositions.
- Config.SetPath: an array write under a name that is not an index, under `length`, or at an index of 2^32 − 1 or more is refused as `UnmodelledArrayWrite`, not performed as a property write. Holes an out-of-range index leaves are modelled as `undefined` elements.
- Config.SetPathFailure: its "fails iff blocked" counts the refused array write under a non-index name as a failure, where JavaScript performs it as a property write (see Config.SetPath).
- Config.SetConfigFailsIff: likewise counts that refused array write as a failure of `setConfig`.
- Charts.LoadExpenseCharts: the fetched statistics are a typed record that always holds `categories` and `monthly`. A successful payload lacking `monthly` throws at js/charts.js:39, and one lacking `categories` throws at js/charts.js:66 after the cards were written; both end in the two error placeholders (js/charts.js:22-26). That path is not modelled, so the failure case is exactly a failed fetch.
- Numbers.DisplayNumber: prints every number positionally; JavaScript prints non-zero magnitudes below 1e-6 and magnitudes of 1e21 and above in exponent form (`String(1e-7)` is `1e-7`).
- Health.WeightTrend: the percentage in the trend text is printed as `toFixed(1)` prints numbers below 10^21; from 10^21 on JavaScript prints `String(x)` instead.
- Strings are sequences of code points. JavaScript's `length`, indexing, `padStart` and the default `sort()` work on UTF-16 code units, so Text.LexLess and the `length` property read by JsValue.Property differ from JavaScript for text above U+FFFF.
- Forms.LoadFormData: a draft that is a string is not modelled as an object with index keys, so `Object.keys` of it is not covered.
- Utils.ParseFloatOfWord: the modelled `parseFloat` has no `Infinity`, so a text starting with `Infinity` reads as NaN here, while JavaScript gives `Infinity` and the range check then compares it.
- The chart loaders are modelled by the data they draw, starting from a page whose canvases are present. Charts.Slot models only which container holds a canvas or a placeholder, for the error display and the retry. Once a placeholder has replaced a canvas, later loads draw nothing into it, and that is not modelled for the loaders.
- The legacy tab click handler (script.js:7-15) only toggles CSS classes and resets the default date and time, which Legacy.DefaultDateTimeInputs covers. The legacy expense charts (script.js:100-120) pass the object keys and values to Chart.js unchanged.
- `showWelcomeMessage` writes the greeting only to the console; the model returns the bucket.
- js/simple.js (a diagnostic bootstrapper) and service-worker.js (a fetch pass-through) are not part of this model.

## Findings

| source | as written | input that shows it | evidently intended | confidence | as-written member | corrected member |
|---|---|---|---|---|---|---|
| js/app.js:51 | the filter asks `typeof window[dep]`, but `CONFIG`, `Utils` and `API` are top-level `const` bindings, which are never properties of `window`; debug mode adds `Utils` and `API` to `window` but never `CONFIG` | any page load: `window.CONFIG` is `undefined`, so `missing` holds `CONFIG` and `init()` shows the load-failure toast | `typeof dep` for each name, as the diagnostic bootstrapper js/simple.js does | high, not executed | App.ShippedCheckAlwaysFails | App.BindingCheckPasses |
| js/charts.js:597 | the retry button is only drawn by `showChartError`, which has already replaced the canvas with the error placeholder, so `document.querySelector('#' + canvasId)` finds nothing and reading `parentElement` of `null` throws | press retry on any chart error, say on `weightChart` after a failed fetch | find the error placeholder's container, put a fresh canvas in it and run the chart's loader | high, not executed | Charts.RetryAfterErrorThrows | Charts.RetryFixedRestores |
| js/forms.js:80 | `saveData` goes through `request`, which never touches `API.cache`, and `reloadCharts` then reads through `requestWithCache` with a five-minute lifetime, so a key cached before the submit is served again | open the weight tab (caching `weight`), submit a weight entry within five minutes: the chart is redrawn from the cached pre-submit data, without the new entry, until the next auto-refresh clears the cache | clear the sheet's cache keys before reloading, as the `tabChanged` listener does (js/app.js:94-103) | medium, not executed | Forms.SubmitReloadServesCache | Forms.FixedReloadFetches |

=== FILE: api.dfy ===
/** `API`: the JSONP client of the Apps Script backend.

    What the transport does is a parameter: `transport(url)` is what loading
    the script at `url` ends with, either the data handed to the callback or
    one of the two rejections of `Utils.jsonp`. `apiCall` in `withRetry` and
    `requestWithCache` is a scripted outcome per attempt. `Date.now()` is an
    explicit `now`.
 */
module Api {
  import opened Wrappers
  import opened Text
  import opened JsValue
  import opened Config
  import opened Query
  import Storage
  import Utils

  // ---------------------------------------------------------------------------
  // request

  /** How loading a JSONP script ends. */
  datatype Delivery =
    | Delivered(data: Value)     // the callback ran with `data`
    | Rejected(message: string)  // `Utils.jsonp` rejected with `new Error(message)`

  const TimeoutMessage: string := "請求超時"
  const ScriptErrorMessage: string := "網路錯誤"

  /** The parameters `request` sends: the caller's, then `apiKey` assigned last. */
  function RequestEntries(params: Entries): Entries {
    SetEntry(Merge([], params), "apiKey", Str(ApiKey))
  }

  /** `${CONFIG.API_URL}?${query}`. */
  function RequestUrl(params: Entries, enc: string -> string): string {
    ApiUrl + "?" + EncodeQuery(RequestEntries(params), enc)
  }

  /** The three messages `request` throws, by substring precedence:
      a permission problem first, then a network problem, then a server error. */
  function Classify(message: string): string {
    if Contains(message, "權限") || Contains(message, "API") then PermissionErrorMessage
    else if Contains(message, "網路") || Contains(message, "超時") then NetworkErrorMessage
    else ApiErrorMessage
  }

  /** How `request` settles a delivery: a response whose `success` is falsy and whose `error` is truthy
      becomes a thrown error, and every thrown error is replaced by its classified message. */
  function Settle(d: Delivery): (r: Result<Value, string>)
    ensures r.Failure? ==> r.error in {PermissionErrorMessage, NetworkErrorMessage, ApiErrorMessage}
    ensures r.Success? ==> !r.value.Null? && !r.value.Undefined?
  {
    match d
    case Rejected(m) => Failure(Classify(m))
    case Delivered(resp) =>
      match GetProp(resp, "success")
      case Failure(typeError) => Failure(Classify(typeError))
      case Success(success) =>
        var error := Property(resp, "error");
        if !Truthy(success) && Truthy(error) then Failure(Classify(DisplayString(error)))
        else Success(resp)
  }

  /** `request(params)`, with the callback name `jsonp` draws given as `fnName`. */
  function Request(params: Entries, enc: string -> string, fnName: string, transport: string -> Delivery): Result<Value, string> {
    Settle(transport(Utils.JsonpUrl(RequestUrl(params, enc), fnName)))
  }

  /** The sent `apiKey` is always `CONFIG.API_KEY`, even if the caller passed its own; every other
      parameter is sent with the caller's value, and no name is sent twice. */
  lemma ApiKeyWins(params: Entries)
    ensures Lookup(RequestEntries(params), "apiKey") == Some(Str(ApiKey))
    ensures forall k :: k != "apiKey" ==> Lookup(RequestEntries(params), k) == LastLookup(params, k)
    ensures DistinctKeys(RequestEntries(params))
  {
    var merged := Merge([], params);
    forall k ensures Lookup(merged, k) == LastLookup(params, k) && DistinctKeys(merged) {
      MergeSpec([], params, k);
    }
    MergeSpec([], params, "apiKey");
    SetEntrySpec(merged, "apiKey", Str(ApiKey));
  }

  /** Decoding the query string of the request URL gives one `apiKey` pair, carrying `CONFIG.API_KEY`,
      and one pair per caller parameter with its `String` value. */
  lemma RequestQueryDecodes(params: Entries, enc: string -> string, dec: string -> string)
    requires UriCodec(enc, dec)
    ensures RequestUrl(params, enc)[..|ApiUrl| + 1] == ApiUrl + "?"
    ensures var pairs := DecodeQuery(RequestUrl(params, enc)[|ApiUrl| + 1..], dec);
      && pairs == StringPairs(RequestEntries(params))
      && (exists i :: 0 <= i < |pairs| && pairs[i] == ("apiKey", ApiKey))
      && (forall i, j :: 0 <= i < j < |pairs| ==> pairs[i].0 != pairs[j].0)
  {
    var e := RequestEntries(params);
    ApiKeyWins(params);
    var i := IndexOf(e, "apiKey").value;
    assert |e| >= 1;
    UrlQueryDecodes(ApiUrl, e, enc, dec);
    assert StringPairs(e)[i] == ("apiKey", ApiKey);
  }

  /** The part after the base URL and its `?` decodes to the entries. */
  lemma UrlQueryDecodes(base: string, e: Entries, enc: string -> string, dec: string -> string)
    requires UriCodec(enc, dec) && |e| >= 1
    ensures (base + "?" + EncodeQuery(e, enc))[..|base| + 1] == base + "?"
    ensures DecodeQuery((base + "?" + EncodeQuery(e, enc))[|base| + 1..], dec) == StringPairs(e)
  {
    var url := base + "?" + EncodeQuery(e, enc);
    assert url[|base| + 1..] == EncodeQuery(e, enc);
    QueryRoundTrip(e, enc, dec);
  }

  /** A response with falsy `success` and no truthy `error` is returned as a normal result; one with a
      truthy `error` is a failure. */
  lemma SettleResponse(resp: map<string, Value>)
    requires "success" in resp && !Truthy(resp["success"])
    ensures "error" in resp && Truthy(resp["error"]) ==> Settle(Delivered(Obj(resp))).Failure?
    ensures !("error" in resp && Truthy(resp["error"])) ==> Settle(Delivered(Obj(resp))) == Success(Obj(resp))
  {
  }

  /** `null` as the response fails reading `success`; the TypeError's message is classified as a server error. */
  lemma SettleNullResponse()
    ensures Settle(Delivered(Null)) == Failure(ApiErrorMessage)
  {
    ClassifyReadError(Null, "success");
  }

  /** Holds none of the first characters of the classification keywords. */
  predicate Plain(s: string) {
    '權' !in s && 'A' !in s && '網' !in s && '超' !in s
  }

  lemma PlainReadError(kind: string, key: string)
    requires Plain(kind) && Plain(key)
    ensures Plain(ReadErrorMessage(kind, key))
  {
    var p1, p2, p3 := "Cannot read properties of ", " (reading '", "')";
    ReadErrorPrefixPlain();
    ReadErrorMiddlePlain();
    assert Plain(p3);
    PlainConcat(p1, kind);
    PlainConcat(p1 + kind, p2);
    PlainConcat(p1 + kind + p2, key);
    PlainConcat(p1 + kind + p2 + key, p3);
  }

  lemma ReadErrorPrefixPlain()
    ensures Plain("Cannot read properties of ")
  {
    var a, b := "Cannot read ", "properties of ";
    assert Plain(a);
    assert Plain(b);
    assert a + b == "Cannot read properties of ";
    PlainConcat(a, b);
  }

  lemma ReadErrorMiddlePlain()
    ensures Plain(" (reading '")
  {
  }

  lemma PlainConcat(a: string, b: string)
    requires Plain(a) && Plain(b)
    ensures Plain(a + b)
  {
  }

  /** The TypeError of reading a property of `null` or `undefined` classifies as a server error. */
  lemma ClassifyReadError(v: Value, key: string)
    requires v.Null? || v.Undefined?
    requires Plain(key)
    ensures Classify(GetProp(v, key).error) == ApiErrorMessage
  {
    if v.Null? {
      PlainReadError("null", key);
      ClassifyApiError(ReadErrorMessage("null", key));
    } else {
      PlainReadError("undefined", key);
      ClassifyApiError(ReadErrorMessage("undefined", key));
    }
  }

  /** Both rejections of `jsonp` (timeout, script error) end as the network message. */
  lemma SettleRejections()
    ensures Settle(Rejected(TimeoutMessage)) == Failure(NetworkErrorMessage)
    ensures Settle(Rejected(ScriptErrorMessage)) == Failure(NetworkErrorMessage)
  {
    assert TimeoutMessage[2..4] == "超時";
    ClassifyNetwork(TimeoutMessage, "超時", 2);
    ClassifyNetwork(ScriptErrorMessage, "網路", 0);
  }

  /** A message holding `權限` or `API` is a permission error, whatever else it holds. */
  lemma ClassifyPermission(m: string, sub: string, i: nat)
    requires sub == "權限" || sub == "API"
    requires OccursAt(m, sub, i)
    ensures Classify(m) == PermissionErrorMessage
  {
    ContainsWitness(m, sub, i);
  }

  /** Without a permission keyword, `網路` or `超時` makes it a network error. */
  lemma ClassifyNetwork(m: string, sub: string, i: nat)
    requires sub == "網路" || sub == "超時"
    requires OccursAt(m, sub, i)
    requires '權' !in m && 'A' !in m
    ensures Classify(m) == NetworkErrorMessage
  {
    NotContainsWithoutHead(m, "權限");
    NotContainsWithoutHead(m, "API");
    ContainsWitness(m, sub, i);
  }

  /** Any other message is a server error. */
  lemma ClassifyApiError(m: string)
    requires Plain(m)
    ensures Classify(m) == ApiErrorMessage
  {
    NotContainsWithoutHead(m, "權限");
    NotContainsWithoutHead(m, "API");
    NotContainsWithoutHead(m, "網路");
    NotContainsWithoutHead(m, "超時");
  }

  /** Classifying a classified message changes nothing: each of the three messages classifies as itself. */
  lemma ClassifyIdempotent(m: string)
    ensures Classify(Classify(m)) == Classify(m)
  {
    assert PermissionErrorMessage[2..4] == "權限";
    ClassifyPermission(PermissionErrorMessage, "權限", 2);
    assert NetworkErrorMessage[2..4] == "網路";
    ClassifyNetwork(NetworkErrorMessage, "網路", 2);
    ClassifyApiError(ApiErrorMessage);
  }

  // ---------------------------------------------------------------------------
  // saveData and the getters

  /** `saveData(sheet, data)`: `{sheet, ...data}`, so a `sheet` field in `data` overrides the argument. */
  function SaveDataParams(sheet: string, data: Entries): Entries {
    Merge([("sheet", Str(sheet))], data)
  }

  lemma SaveDataSheet(sheet: string, data: Entries)
    ensures Lookup(SaveDataParams(sheet, data), "sheet") ==
      match LastLookup(data, "sheet") case Some(v) => Some(v) case None => Some(Str(sheet))
  {
    MergeSpec([("sheet", Str(sheet))], data, "sheet");
  }

  /** The read requests, each sent as `{type: name}`. */
  datatype Fetch = ExpenseStats | WeightData | BloodPressureData | Settings | HealthStats

  function FetchType(f: Fetch): string {
    match f
    case ExpenseStats => "expenseStats"
    case WeightData => "weight"
    case BloodPressureData => "bloodPressure"
    case Settings => "settings"
    case HealthStats => "healthStats"
  }

  function FetchParams(f: Fetch): Entries {
    [("type", Str(FetchType(f)))]
  }

  /** A read request carries exactly `type` and `apiKey`, in that order. */
  lemma FetchRequestEntries(f: Fetch)
    ensures RequestEntries(FetchParams(f)) == [("type", Str(FetchType(f))), ("apiKey", Str(ApiKey))]
  {
    MergeIntoEmpty([], FetchParams(f));
    assert [] + FetchParams(f) == FetchParams(f);
  }

  // ---------------------------------------------------------------------------
  // batchRequest

  /** One entry of `batchRequest`'s result: `{index, success, data, error}`. */
  datatype BatchItem = BatchItem(index: nat, success: bool, data: Value, error: Value)

  function BatchItemOf(i: nat, outcome: Result<Value, string>): BatchItem {
    match outcome
    case Success(v) => BatchItem(i, true, v, Null)
    case Failure(m) => BatchItem(i, false, Null, Str(m))
  }

  /** `batchRequest(requests)`, the `i`-th request settled by `Request` with callback name `fnNames[i]`. */
  function BatchRequest(requests: seq<Entries>, enc: string -> string, fnNames: seq<string>, transport: string -> Delivery): (r: seq<BatchItem>)
    requires |fnNames| == |requests|
    ensures |r| == |requests|
    ensures forall i :: 0 <= i < |r| ==>
      var outcome := Request(requests[i], enc, fnNames[i], transport);
      && r[i].index == i
      && (r[i].success <==> outcome.Success?)
      && (r[i].success ==> r[i].data == outcome.value && r[i].error == Null)
      && (!r[i].success ==> r[i].data == Null && r[i].error == Str(outcome.error))
  {
    seq(|requests|, i requires 0 <= i < |requests| => BatchItemOf(i, Request(requests[i], enc, fnNames[i], transport)))
  }

  // ---------------------------------------------------------------------------
  // withRetry

  /** How `withRetry` ends: the first successful result, or the last error thrown
      (`undefined` when no attempt was made). */
  datatype RetryOutcome = Returned(value: Value) | Threw(error: Value)

  /** `Math.pow(2, k)`. */
  function Pow2(k: nat): (r: nat)
    ensures r >= 1
  {
    if k == 0 then 1 else 2 * Pow2(k - 1)
  }

  /** The value of `delay` after `k` doublings (`delay *= 2`). */
  function Doubled(delay: int, k: nat): int {
    if k == 0 then delay else 2 * Doubled(delay, k - 1)
  }

  /** `k` doublings multiply the delay by `2^k`. */
  lemma {:induction false} DoubledIsPow2(delay: int, k: nat)
    ensures Doubled(delay, k) == delay * Pow2(k)
  {
    if k > 0 {
      DoubledIsPow2(delay, k - 1);
      assert delay * Pow2(k) == delay * (2 * Pow2(k - 1)) == 2 * (delay * Pow2(k - 1));
    }
  }

  /** `withRetry(apiCall, maxRetries, delay)`, attempt `i` ending as `attempt(i)`: what it returns or throws,
      how many times it called `apiCall`, and the waits it made in order. */
  method WithRetry(attempt: nat -> Result<Value, Value>, maxRetries: int, delay: int)
      returns (outcome: RetryOutcome, calls: nat, waits: seq<int>)
    ensures calls == 0 <==> maxRetries < 0
    ensures calls <= (if maxRetries < 0 then 0 else maxRetries + 1)
    ensures forall j :: 0 <= j < calls - 1 ==> attempt(j).Failure?
    ensures |waits| == (if calls == 0 then 0 else calls - 1)
    ensures forall j :: 0 <= j < |waits| ==> waits[j] == Doubled(delay, j)
    ensures outcome.Returned? ==> calls >= 1 && attempt(calls - 1) == Success(outcome.value)
    ensures outcome.Threw? && maxRetries >= 0 ==>
      calls == maxRetries + 1 && attempt(maxRetries) == Failure(outcome.error)
    ensures maxRetries < 0 ==> outcome == Threw(Undefined)
  {
    var lastError := Undefined;
    var d := delay;
    waits := [];
    var i := 0;
    while i <= maxRetries
      invariant 0 <= i <= (if maxRetries < 0 then 0 else maxRetries + 1)
      invariant forall j :: 0 <= j < i ==> attempt(j).Failure?
      invariant |waits| == (if i == 0 then 0 else if i <= maxRetries then i else i - 1)
      invariant forall j :: 0 <= j < |waits| ==> waits[j] == Doubled(delay, j)
      invariant d == Doubled(delay, i)
      invariant lastError == (if i == 0 then Undefined else attempt(i - 1).error)
      decreases maxRetries + 1 - i
    {
      var r := attempt(i);
      if r.Success? {
        return Returned(r.value), i + 1, waits;
      }
      lastError := r.error;
      if i < maxRetries {
        waits := waits + [d];
      }
      d := d * 2;
      i := i + 1;
    }
    return Threw(lastError), i, waits;
  }

  // ---------------------------------------------------------------------------
  // the TTL cache

  datatype CacheEntry = CacheEntry(value: Value, expiry: int)

  type Cache = map<string, CacheEntry>

  /** What `cache.get` returns, and the cache after it (an expired entry is deleted). */
  datatype CacheRead = CacheRead(value: Value, cache: Cache)

  /** `cache.set(key, value, ttl)` at time `now`. */
  function CacheSet(c: Cache, key: string, value: Value, ttl: int, now: int): (r: Cache)
    ensures r.Keys == c.Keys + {key}
  {
    c[key := CacheEntry(value, now + ttl)]
  }

  predicate Expired(e: CacheEntry, now: int) {
    now > e.expiry
  }

  /** `cache.get(key)` at time `now`: `null` for a missing key; `null` and the entry deleted once expired. */
  function CacheGet(c: Cache, key: string, now: int): CacheRead {
    if key !in c then CacheRead(Null, c)
    else if Expired(c[key], now) then CacheRead(Null, c - {key})
    else CacheRead(c[key].value, c)
  }

  /** `cache.clear(key)`: a truthy key deletes that key; a falsy or absent key empties the cache. */
  function CacheClear(c: Cache, key: Value): Cache {
    if Truthy(key) then (if key.Str? then c - {key.s} else c) else map[]
  }

  /** `cache.cleanup()` at time `now`. */
  function CacheCleanup(c: Cache, now: int): Cache {
    map k | k in c && !Expired(c[k], now) :: c[k]
  }

  /** `get` after `set(key, v, ttl)` returns `v` until `now + ttl` inclusive, then `null`;
      other keys read as before. */
  lemma CacheGetAfterSet(c: Cache, key: string, value: Value, ttl: int, now: int, later: int)
    ensures later <= now + ttl ==> CacheGet(CacheSet(c, key, value, ttl, now), key, later).value == value
    ensures later > now + ttl ==> CacheGet(CacheSet(c, key, value, ttl, now), key, later).value == Null
    ensures forall k :: k != key ==> CacheGet(CacheSet(c, key, value, ttl, now), k, later).value == CacheGet(c, k, later).value
  {
  }

  /** An expired read deletes exactly its own key. */
  lemma CacheGetDeletesOnlyExpired(c: Cache, key: string, now: int)
    ensures var r := CacheGet(c, key, now);
      && (key in c && Expired(c[key], now) ==> r.cache == c - {key} && r.value == Null)
      && (!(key in c && Expired(c[key], now)) ==> r.cache == c)
  {
  }

  /** `cleanup` removes exactly the expired entries, keeps the others unchanged, and
      is invisible to `get` at the same time. */
  lemma CacheCleanupSpec(c: Cache, now: int, key: string)
    ensures forall k :: k in CacheCleanup(c, now) <==> k in c && !Expired(c[k], now)
    ensures forall k :: k in CacheCleanup(c, now) ==> CacheCleanup(c, now)[k] == c[k]
    ensures CacheGet(CacheCleanup(c, now), key, now).value == CacheGet(c, key, now).value
    ensures CacheCleanup(CacheCleanup(c, now), now) == CacheCleanup(c, now)
  {
  }

  /** `clear('k')` removes only `k`; `clear()` (a `null` key) or any falsy key empties the cache. */
  lemma CacheClearSpec(c: Cache, key: Value)
    ensures Truthy(key) && key.Str? ==> CacheClear(c, key).Keys == c.Keys - {key.s}
    ensures Truthy(key) && key.Str? ==> forall k :: k in c && k != key.s ==> CacheClear(c, key)[k] == c[k]
    ensures !Truthy(key) ==> CacheClear(c, key) == map[]
  {
  }

  /** `keys.forEach(key => API.cache.clear(key))`. */
  function ClearKeys(c: Cache, keys: seq<string>): Cache
    decreases |keys|
  {
    if |keys| == 0 then c else ClearKeys(CacheClear(c, Str(keys[0])), keys[1..])
  }

  /** Clearing non-empty keys one by one deletes exactly those keys and keeps every other entry as it was. */
  lemma {:induction false} ClearKeysSpec(c: Cache, keys: seq<string>)
    requires forall i :: 0 <= i < |keys| ==> keys[i] != ""
    ensures var r := ClearKeys(c, keys);
      && (forall k :: k in r <==> k in c && k !in keys)
      && (forall k :: k in r ==> r[k] == c[k])
    decreases |keys|
  {
    if |keys| > 0 {
      var c1 := CacheClear(c, Str(keys[0]));
      assert Truthy(Str(keys[0]));
      assert c1 == c - {keys[0]};
      ClearKeysSpec(c1, keys[1..]);
    }
  }

  // ---------------------------------------------------------------------------
  // requestWithCache

  /** What `requestWithCache` ends with: its result (or the error it rethrows), the cache after it,
      and whether `apiCall` was called. */
  datatype CachedResult = CachedResult(result: Result<Value, Value>, cache: Cache, called: bool)

  /** `requestWithCache(key, apiCall, ttl)` at time `now`, where the call would end as `call` at time `nowAfter`;
      the storage is only read. */
  function RequestWithCache(c: Cache, storage: Storage.Store, key: string, call: Result<Value, Value>,
                            ttl: int, now: int, nowAfter: int): CachedResult
  {
    var read := CacheGet(c, key, now);
    if Truthy(read.value) then CachedResult(Success(read.value), read.cache, false)
    else match call
      case Success(v) => CachedResult(Success(v), CacheSet(read.cache, key, v, ttl, nowAfter), true)
      case Failure(e) =>
        var backup := Storage.Get(storage, "backup_" + key, Null);
        if Truthy(backup) then CachedResult(Success(backup), read.cache, true)
        else CachedResult(Failure(e), read.cache, true)
  }

  /** A truthy cached value is returned without calling `apiCall`; a falsy one counts as a miss. */
  lemma CachedHit(c: Cache, storage: Storage.Store, key: string, call: Result<Value, Value>, ttl: int, now: int, nowAfter: int)
    ensures var cached := CacheGet(c, key, now).value; var r := RequestWithCache(c, storage, key, call, ttl, now, nowAfter);
      && (Truthy(cached) ==> !r.called && r.result == Success(cached) && r.cache == c)
      && (!Truthy(cached) ==> r.called)
  {
  }

  /** On a miss, a successful result is returned and cached with the given ttl from when it arrived. */
  lemma CachedMissFills(c: Cache, storage: Storage.Store, key: string, v: Value, ttl: int, now: int, nowAfter: int)
    requires !Truthy(CacheGet(c, key, now).value)
    ensures var r := RequestWithCache(c, storage, key, Success(v), ttl, now, nowAfter);
      && r.result == Success(v)
      && key in r.cache && r.cache[key] == CacheEntry(v, nowAfter + ttl)
      && CacheGet(r.cache, key, nowAfter + ttl).value == v
  {
  }

  /** On a miss, a failure falls back to a truthy `backup_<key>` from storage, otherwise rethrows the
      original error; the cache is not filled. */
  lemma CachedMissFails(c: Cache, storage: Storage.Store, key: string, e: Value, ttl: int, now: int, nowAfter: int)
    requires !Truthy(CacheGet(c, key, now).value)
    ensures var r := RequestWithCache(c, storage, key, Failure(e), ttl, now, nowAfter);
      var backup := Storage.Get(storage, "backup_" + key, Null);
      && (Truthy(backup) ==> r.result == Success(backup))
      && (!Truthy(backup) ==> r.result == Failure(e))
      && r.cache == CacheGet(c, key, now).cache
  {
  }
  /** A call that cannot succeed with `null` or `undefined` (as `Settle` cannot) makes `requestWithCache`
      never resolve to them either: hits and backups are truthy. So a chart loader is never handed `null`. */
  lemma CachedNeverNull(c: Cache, storage: Storage.Store, key: string, call: Result<Value, Value>, ttl: int, now: int, nowAfter: int)
    requires call.Success? ==> !call.value.Null? && !call.value.Undefined?
    ensures var r := RequestWithCache(c, storage, key, call, ttl, now, nowAfter);
      r.result.Success? ==> !r.result.value.Null? && !r.result.value.Undefined?
  {
  }

}

=== FILE: app.dfy ===
/** `DailyTrackerApp`: the dependency check, the per-tab cache invalidation on
    `tabChanged`, refreshing and auto-refreshing the current tab, the keyboard
    shortcuts, the greeting, and cleanup.

    Timers are handles the environment gives out; the clock is the hour it
    reports. Chart loads are recorded as `Tabs.ChartLoad`s, in order.
 */
module App {
  import opened Wrappers
  import opened JsValue
  import opened Config
  import Api
  import Charts
  import Storage
  import Tabs

  /** `isInitialized`, `refreshTimer`, the API cache, the chart instances and the timers cleared so far. */
  datatype AppState = AppState(
    isInitialized: bool,
    refreshTimer: Option<nat>,
    cache: Api.Cache,
    charts: set<string>,
    clearedTimers: seq<nat>)

  /** `new DailyTrackerApp()` before `init`. */
  function Constructed(cache: Api.Cache): (r: AppState)
    ensures !r.isInitialized && r.refreshTimer.None?
  {
    AppState(false, None, cache, {}, [])
  }

  // ---------------------------------------------------------------------------
  // checkDependencies

  const Required: seq<string> := ["Chart", "CONFIG", "Utils", "API"]

  const MissingPrefix: string := "缺少必要的依賴: "

  /** `missing.join(', ')`. */
  function JoinComma(parts: seq<string>): string {
    if |parts| == 0 then ""
    else if |parts| == 1 then parts[0]
    else parts[0] + ", " + JoinComma(parts[1..])
  }

  /** The positions of `names` that are not defined, in increasing order. */
  function MissingPositions(names: seq<string>, defined: set<string>): (r: seq<nat>)
    ensures forall j :: 0 <= j < |r| ==> r[j] < |names| && names[r[j]] !in defined
    ensures forall j, k :: 0 <= j < k < |r| ==> r[j] < r[k]
    ensures forall i :: 0 <= i < |names| && names[i] !in defined ==> i in r
    decreases |names|
  {
    if |names| == 0 then []
    else
      var n := |names| - 1;
      var front := MissingPositions(names[..n], defined);
      assert forall j :: 0 <= j < |front| ==> names[..n][front[j]] == names[front[j]];
      front + (if names[n] !in defined then [n] else [])
  }

  /** `required.filter(dep => typeof window[dep] === 'undefined')`, with `defined` the properties of `window`. */
  function Missing(names: seq<string>, defined: set<string>): (r: seq<string>)
    ensures var p := MissingPositions(names, defined);
      |r| == |p| && forall j :: 0 <= j < |r| ==> r[j] == names[p[j]]
  {
    var p := MissingPositions(names, defined);
    seq(|p|, j requires 0 <= j < |p| => names[p[j]])
  }

  /** `checkDependencies()` with `defined` the names that are properties of `window`: the filter asks
      `typeof window[dep]`, not `typeof dep`. */
  function CheckDependencies(defined: set<string>): Result<(), string> {
    CheckNames(Required, defined)
  }

  /** The check for a list of required names. */
  function CheckNames(names: seq<string>, defined: set<string>): Result<(), string> {
    var missing := Missing(names, defined);
    if |missing| > 0 then Failure(MissingPrefix + JoinComma(missing)) else Success(())
  }

  /** The filter keeps exactly the undefined names; their order is the one `MissingPositions` fixes. */
  lemma {:induction false} MissingSpec(names: seq<string>, defined: set<string>)
    ensures forall d :: d in Missing(names, defined) <==> d in names && d !in defined
  {
    var p := MissingPositions(names, defined);
    var m := Missing(names, defined);
    forall d | d in names && d !in defined ensures d in m {
      var i :| 0 <= i < |names| && names[i] == d;
      assert i in p;
      var j :| 0 <= j < |p| && p[j] == i;
      assert m[j] == d;
    }
  }

  /** The check throws exactly when one of the required names (Chart, CONFIG, Utils and API) is missing,
      and its message lists exactly the missing ones, in the order they are required. */
  lemma CheckNamesSpec(names: seq<string>, defined: set<string>)
    ensures CheckNames(names, defined).Failure? <==> exists d :: d in names && d !in defined
    ensures CheckNames(names, defined).Failure? ==>
      CheckNames(names, defined).error == MissingPrefix + JoinComma(Missing(names, defined))
  {
    MissingSpec(names, defined);
    if exists d :: d in names && d !in defined {
      var d :| d in names && d !in defined;
      assert d in Missing(names, defined);
    }
  }

  /** The dependency names that are properties of `window` once the scripts have run. Chart.js, loaded as a
      classic script, sets `window.Chart`. The client's own `const CONFIG`, `const Utils` and `const API`
      are global bindings, which are not properties of `window`; only the debug block at the end of
      js/app.js copies `API` and `Utils` (not `CONFIG`) onto `window`. */
  function WindowProperties(debug: bool): set<string> {
    {"Chart"} + (if debug then {"App", "TabManager", "FormManager", "ChartManager", "HealthCalculator", "API", "Utils"} else {})
  }

  /** The names `typeof <name>` resolves once the scripts have run: the properties of `window` and the
      top-level `const` bindings of the client's scripts. */
  function GlobalNames(debug: bool): set<string> {
    WindowProperties(debug) + {"CONFIG", "Utils", "API", "ChartManager", "TabManager", "FormManager", "HealthCalculator", "App"}
  }

  /** A reference filter: the undefined names, in order. */
  function Unfound(names: seq<string>, defined: set<string>): seq<string> {
    if |names| == 0 then []
    else Unfound(names[..|names| - 1], defined) + (if names[|names| - 1] !in defined then [names[|names| - 1]] else [])
  }

  /** Filtering a non-empty list is filtering all but its last name, then keeping the last name when undefined. */
  lemma MissingSnoc(names: seq<string>, defined: set<string>)
    requires |names| > 0
    ensures Missing(names, defined) ==
      Missing(names[..|names| - 1], defined) + (if names[|names| - 1] !in defined then [names[|names| - 1]] else [])
  {
    var n := |names| - 1;
    var front := MissingPositions(names[..n], defined);
    var p := MissingPositions(names, defined);
    assert p == front + (if names[n] !in defined then [n] else []);
    var m, mf := Missing(names, defined), Missing(names[..n], defined);
    var tail := if names[n] !in defined then [names[n]] else [];
    forall j | 0 <= j < |mf| ensures m[j] == mf[j] {
      assert p[j] == front[j];
      assert names[..n][front[j]] == names[front[j]];
    }
    assert |m| == |mf| + |tail|;
    assert m == mf + tail;
  }

  /** `Missing` is the reference filter. */
  lemma {:induction false} MissingIsUnfound(names: seq<string>, defined: set<string>)
    ensures Missing(names, defined) == Unfound(names, defined)
    decreases |names|
  {
    if |names| > 0 {
      MissingIsUnfound(names[..|names| - 1], defined);
      MissingSnoc(names, defined);
    }
  }

  /** The reference filter over `Required` for the properties of `window`. */
  lemma UnfoundOfWindow(debug: bool)
    ensures Unfound(Required, WindowProperties(debug)) == if debug then ["CONFIG"] else ["CONFIG", "Utils", "API"]
  {
    var w := WindowProperties(debug);
    var r1, r2, r3 := ["Chart"], ["Chart", "CONFIG"], ["Chart", "CONFIG", "Utils"];
    assert Required[..3] == r3 && r3[..2] == r2 && r2[..1] == r1 && r1[..0] == [];
    assert Unfound(r1, w) == [];
    assert Unfound(r2, w) == ["CONFIG"];
    assert Unfound(r3, w) == if debug then ["CONFIG"] else ["CONFIG", "Utils"];
  }

  /** Which required names the shipped check reports missing. */
  lemma MissingOfWindow(debug: bool)
    ensures Missing(Required, WindowProperties(debug)) == if debug then ["CONFIG"] else ["CONFIG", "Utils", "API"]
  {
    UnfoundOfWindow(debug);
    MissingIsUnfound(Required, WindowProperties(debug));
  }

  /** As written, the check never passes: `CONFIG` is never a property of `window`, so `init()` always ends
      with the failure toast; outside debug mode `Utils` and `API` are reported missing too. */
  lemma ShippedCheckAlwaysFails(debug: bool, s: AppState, interval: int, handle: nat, store: Storage.Store, page: Tabs.Page)
    ensures Missing(Required, WindowProperties(debug)) == if debug then ["CONFIG"] else ["CONFIG", "Utils", "API"]
    ensures CheckDependencies(WindowProperties(debug)).Failure?
    ensures Init(s, WindowProperties(debug), interval, handle, store, page) == (s, InitFailed(InitFailedMessage))
  {
    MissingOfWindow(debug);
  }

  /** With the check asking for the names themselves (`typeof CONFIG`, as js/simple.js does), every required
      name is found in either mode, and `init()` starts and loads the current tab. */
  lemma BindingCheckPasses(debug: bool, s: AppState, interval: int, handle: nat, store: Storage.Store, page: Tabs.Page)
    ensures Missing(Required, GlobalNames(debug)) == []
    ensures CheckDependencies(GlobalNames(debug)) == Success(())
    ensures var r := Init(s, GlobalNames(debug), interval, handle, store, page);
      var tabs := Tabs.Init(store, page);
      r.1 == Started(tabs, tabs.loads + Tabs.LoadFor(tabs.activeTab)) && r.0.isInitialized
  {
    var g := GlobalNames(debug);
    assert forall i :: 0 <= i < |Required| ==> Required[i] in g;
    CheckNamesSpec(Required, g);
    MissingSpec(Required, g);
    assert forall d :: d !in Missing(Required, g);
  }

  // ---------------------------------------------------------------------------
  // tabChanged

  /** `tabCacheKeys[tab]`; an unmapped tab has none. */
  function TabCacheKeys(tab: string): (r: seq<string>)
    ensures forall i :: 0 <= i < |r| ==> r[i] != ""
  {
    if tab == Tabs.ExpenseTab then ["expenseStats"]
    else if tab == Tabs.WeightTab then ["weight", "settings"]
    else if tab == Tabs.BpTab then ["bloodPressure"]
    else []
  }

  /** The keys a tab change clears are exactly the keys the tab's loader reads. */
  lemma TabKeysAreLoaderKeys(tab: string)
    ensures TabCacheKeys(tab) == Charts.LoadKeys(Tabs.LoadFor(tab))
  {
  }

  /** The `tabChanged` listener. */
  function OnTabChanged(s: AppState, e: Tabs.TabChanged): AppState {
    s.(cache := Api.ClearKeys(s.cache, TabCacheKeys(e.currentTab)))
  }

  /** Switching tabs clears exactly the cache keys of the new tab: the expense statistics, the weight and
      settings data, or the blood-pressure data; an unmapped tab clears nothing. */
  lemma TabChangedInvalidates(s: AppState, e: Tabs.TabChanged, k: string)
    ensures var r := OnTabChanged(s, e).cache;
      && (k in r <==> k in s.cache && k !in TabCacheKeys(e.currentTab))
      && (k in r ==> r[k] == s.cache[k])
    ensures e.currentTab !in {Tabs.ExpenseTab, Tabs.WeightTab, Tabs.BpTab} ==> OnTabChanged(s, e) == s
  {
    Api.ClearKeysSpec(s.cache, TabCacheKeys(e.currentTab));
  }

  // ---------------------------------------------------------------------------
  // refreshing

  /** `refreshCurrentTabData()`: the whole cache is emptied, then the current tab's data reloads. */
  function RefreshCurrentTabData(s: AppState, currentTab: string): (r: (AppState, seq<Tabs.ChartLoad>))
    ensures r.0.cache == map[]
    ensures r.0.isInitialized == s.isInitialized && r.0.refreshTimer == s.refreshTimer
  {
    (s.(cache := Api.CacheClear(s.cache, Undefined)), Tabs.LoadFor(currentTab))
  }

  /** `loadInitialData()`: the current tab's loader, the same one a tab switch starts. */
  function LoadInitialData(currentTab: string): seq<Tabs.ChartLoad> {
    if currentTab == Tabs.ExpenseTab then [Tabs.ExpenseCharts]
    else if currentTab == Tabs.WeightTab then [Tabs.WeightChart]
    else if currentTab == Tabs.BpTab then [Tabs.BpChart]
    else []
  }

  /** The initial load, a refresh and a tab switch all start the same loader for a tab. */
  lemma LoadersAgree(s: AppState, tab: string)
    ensures LoadInitialData(tab) == Tabs.LoadFor(tab) == RefreshCurrentTabData(s, tab).1
    ensures |LoadInitialData(tab)| == 1 <==> tab in {Tabs.ExpenseTab, Tabs.WeightTab, Tabs.BpTab}
  {
  }

  /** `setupAutoRefresh()` with `DATA_REFRESH_INTERVAL = interval`: a timer only for a positive interval. */
  function SetupAutoRefresh(s: AppState, interval: int, handle: nat): (r: AppState)
    ensures r.refreshTimer == if interval > 0 then Some(handle) else s.refreshTimer
    ensures r.cache == s.cache && r.isInitialized == s.isInitialized
  {
    if interval > 0 then s.(refreshTimer := Some(handle)) else s
  }

  /** With the configured 30-second interval the timer is always created. */
  lemma ConfiguredAutoRefresh(s: AppState, handle: nat)
    ensures SetupAutoRefresh(s, DataRefreshInterval, handle).refreshTimer == Some(handle)
  {
  }

  /** One tick of the refresh timer: only a visible page refreshes. */
  function RefreshTick(s: AppState, hidden: bool, currentTab: string): (AppState, seq<Tabs.ChartLoad>) {
    if !hidden then RefreshCurrentTabData(s, currentTab) else (s, [])
  }

  /** `visibilitychange`: refresh when the page becomes visible after initialisation. */
  function OnVisibilityChange(s: AppState, hidden: bool, currentTab: string): (AppState, seq<Tabs.ChartLoad>) {
    if !hidden && s.isInitialized then RefreshCurrentTabData(s, currentTab) else (s, [])
  }

  /** A hidden page is never refreshed, and an uninitialised one is not refreshed on becoming visible. */
  lemma RefreshOnlyWhenVisible(s: AppState, hidden: bool, currentTab: string)
    ensures hidden ==> RefreshTick(s, hidden, currentTab) == (s, []) && OnVisibilityChange(s, hidden, currentTab) == (s, [])
    ensures !s.isInitialized ==> OnVisibilityChange(s, hidden, currentTab) == (s, [])
    ensures !hidden && s.isInitialized ==> OnVisibilityChange(s, hidden, currentTab).0.cache == map[]
  {
  }

  // ---------------------------------------------------------------------------
  // keyboard shortcuts and saving the current form

  datatype Shortcut = Refresh | SaveForm

  /** `handleKeyboardShortcuts(e)`: Ctrl/Cmd+R refreshes, Ctrl/Cmd+S saves. */
  function HandleKeyboardShortcuts(ctrl: bool, meta: bool, key: string): (r: seq<Shortcut>)
    ensures |r| <= 1
    ensures r == [Refresh] <==> (ctrl || meta) && key == "r"
    ensures r == [SaveForm] <==> (ctrl || meta) && key == "s"
  {
    if (ctrl || meta) && key == "r" then [Refresh]
    else if (ctrl || meta) && key == "s" then [SaveForm]
    else []
  }

  /** `formMap[tab]`. */
  function FormFor(tab: string): Option<string> {
    if tab == Tabs.ExpenseTab then Some("expenseForm")
    else if tab == Tabs.WeightTab then Some("weightForm")
    else if tab == Tabs.BpTab then Some("bpForm")
    else None
  }

  /** `saveCurrentForm()`: the form a `submit` event is dispatched to, if any; `forms` are the form ids on
      the page. */
  function SaveCurrentForm(currentTab: string, forms: set<string>): (r: Option<string>)
    ensures r.Some? ==> r.value in forms && FormFor(currentTab) == r
  {
    match FormFor(currentTab)
    case Some(f) => if f in forms then Some(f) else None
    case None => None
  }

  /** A submit is dispatched exactly when the current tab has a form and the page has it; each tab submits
      its own form. */
  lemma SaveCurrentFormSpec(currentTab: string, forms: set<string>)
    ensures SaveCurrentForm(currentTab, forms).Some? <==> FormFor(currentTab).Some? && FormFor(currentTab).value in forms
    ensures FormFor(currentTab).Some? <==> currentTab in {Tabs.ExpenseTab, Tabs.WeightTab, Tabs.BpTab}
    ensures forall a, b :: FormFor(a).Some? && FormFor(a) == FormFor(b) ==> a == b
  {
  }

  // ---------------------------------------------------------------------------
  // greeting

  datatype Greeting = LateNight | Morning | Afternoon | Evening

  /** `showWelcomeMessage()` at `hour`. */
  function GreetingAt(hour: int): Greeting {
    if hour < 6 then LateNight
    else if hour < 12 then Morning
    else if hour < 18 then Afternoon
    else Evening
  }

  function GreetingText(g: Greeting): string {
    match g
    case LateNight => "夜深了，早點休息 🌙"
    case Morning => "早安！開始記錄今天的生活 ☀️"
    case Afternoon => "午安！記得記錄您的健康數據 🌞"
    case Evening => "晚安！回顧今天的記錄 🌆"
  }

  /** The four greetings cover the hours before 6, 6 to 11, 12 to 17 and from 18 on; every hour gets
      exactly one. */
  lemma GreetingBuckets(hour: int)
    ensures GreetingAt(hour) == LateNight <==> hour < 6
    ensures GreetingAt(hour) == Morning <==> 6 <= hour < 12
    ensures GreetingAt(hour) == Afternoon <==> 12 <= hour < 18
    ensures GreetingAt(hour) == Evening <==> 18 <= hour
  {
  }

  // ---------------------------------------------------------------------------
  // lifecycle

  /** `cleanup()`: the timer is cleared and dropped, the charts destroyed, the cache emptied and the app
      marked uninitialised. */
  function Cleanup(s: AppState): (r: AppState)
    ensures r.refreshTimer.None? && r.cache == map[] && !r.isInitialized && r.charts == {}
  {
    AppState(false, None, Api.CacheClear(s.cache, Undefined), {},
      match s.refreshTimer
      case Some(t) => s.clearedTimers + [t]
      case None => s.clearedTimers)
  }

  /** Cleaning up twice is cleaning up once: the second call finds no timer to clear. */
  lemma CleanupIdempotent(s: AppState)
    ensures Cleanup(Cleanup(s)) == Cleanup(s)
    ensures |Cleanup(s).clearedTimers| == |s.clearedTimers| + (if s.refreshTimer.Some? then 1 else 0)
  {
  }

  /** How `init()` ends: the tab manager after `TabManager.init()` and every chart load started, in order, or
      the failure toast. */
  datatype InitOutcome = Started(tabs: Tabs.TabState, loads: seq<Tabs.ChartLoad>) | InitFailed(toast: string)

  const InitFailedMessage: string := "應用程式載入失敗，請重新整理頁面"

  /** `init()` on a page whose `localStorage` is `store`: the dependency check; `initializeModules`, whose
      `TabManager.init()` restores the saved tab (a switch that starts that tab's loader, before any
      `tabChanged` listener of the app is installed, so no cache key is cleared); the auto-refresh timer; and
      `loadInitialData` for the manager's current tab. A failed check shows the failure toast and leaves
      everything else as it was. */
  function Init(s: AppState, defined: set<string>, interval: int, handle: nat, store: Storage.Store, page: Tabs.Page)
    : (r: (AppState, InitOutcome))
    ensures r.1.InitFailed? <==> CheckDependencies(defined).Failure?
    ensures r.1.InitFailed? ==> r.0 == s && r.1.toast == InitFailedMessage
    ensures r.1.Started? ==>
      && r.0.isInitialized && r.0.cache == s.cache
      && r.1.tabs == Tabs.Init(store, page)
      && r.1.loads == r.1.tabs.loads + Tabs.LoadFor(r.1.tabs.activeTab)
  {
    match CheckDependencies(defined)
    case Failure(_) => (s, InitFailed(InitFailedMessage))
    case Success(_) =>
      var tabs := Tabs.Init(store, page);
      var s1 := SetupAutoRefresh(s, interval, handle);
      LoadersAgree(s, tabs.activeTab);
      (s1.(isInitialized := true), Started(tabs, tabs.loads + LoadInitialData(tabs.activeTab)))
  }

  /** Start-up loads the expense charts once when no other tab is restored; a restored weight or blood-pressure
      tab has its loader started twice, by the restoring switch and by the initial load. */
  lemma InitLoads(s: AppState, defined: set<string>, interval: int, handle: nat, store: Storage.Store, page: Tabs.Page, t: string)
    requires CheckDependencies(defined).Success?
    ensures Tabs.ActiveTabKey !in store ==> Init(s, defined, interval, handle, store, page).1.loads == [Tabs.ExpenseCharts]
    ensures Storage.Get(store, Tabs.ActiveTabKey, Str(Tabs.ExpenseTab)) == Str(t) && t in {Tabs.WeightTab, Tabs.BpTab} &&
            t in page.contents ==>
      var l := if t == Tabs.WeightTab then Tabs.WeightChart else Tabs.BpChart;
      Init(s, defined, interval, handle, store, page).1.loads == [l, l]
  {
    Tabs.InitRestoresSavedTab(store, page, t);
  }

  /** `restart()`: cleanup, then `init()`. A restart with everything loaded is initialised with a fresh
      timer and an empty cache. */
  function Restart(s: AppState, defined: set<string>, interval: int, handle: nat, store: Storage.Store, page: Tabs.Page)
    : (AppState, InitOutcome)
  {
    Init(Cleanup(s), defined, interval, handle, store, page)
  }

  lemma RestartSpec(s: AppState, defined: set<string>, interval: int, handle: nat, store: Storage.Store, page: Tabs.Page)
    requires CheckDependencies(defined).Success?
    ensures var r := Restart(s, defined, interval, handle, store, page).0;
      && r.isInitialized && r.cache == map[] && r.charts == {}
      && r.refreshTimer == (if interval > 0 then Some(handle) else None)
  {
  }

  /** `syncOfflineData()` when the browser comes back online: the initial load again, only with offline
      mode on. */
  function SyncOfflineData(offlineMode: bool, currentTab: string): seq<Tabs.ChartLoad> {
    if !offlineMode then [] else LoadInitialData(currentTab)
  }

  /** With the configured flags going online reloads nothing. */
  lemma ConfiguredSyncIsIdle(currentTab: string)
    ensures SyncOfflineData(OfflineMode, currentTab) == []
  {
  }

  /** `getStatus()`, without the online flag. */
  datatype Status = Status(initialized: bool, currentTab: string, cacheSize: nat, version: string)

  function GetStatus(s: AppState, currentTab: string): (r: Status)
    ensures r.cacheSize == |s.cache| && r.initialized == s.isInitialized
  {
    Status(s.isInitialized, currentTab, |s.cache|, "1.0.0")
  }
}

=== FILE: charts.dfy ===
/** `ChartManager`: what the expense, weight and blood-pressure charts are
    built from, the summary cards and the health box under the weight chart.

    A chart is seen through its data: labels and series, or the placeholder
    that replaces it (the empty message, or the error message when loading
    throws). Chart.js options, colours and tooltips are not modelled. A record
    from the backend is a `Value`; reading a field of a `null` record throws,
    and every throw inside a load ends in that chart's error placeholder.
 */
module Charts {
  import opened Wrappers
  import opened Text
  import opened Numbers
  import opened JsValue
  import opened Config
  import opened Query
  import Utils
  import Health
  import Api
  import Tabs

  // ---------------------------------------------------------------------------
  // windowing

  function Min(a: nat, b: nat): nat {
    if a <= b then a else b
  }

  /** `data.slice(-MAX_DATA_POINTS)`: the latest records, at most 50. */
  function Window<T>(data: seq<T>): (r: seq<T>)
    ensures |r| == Min(|data|, MaxDataPoints)
  {
    data[|data| - Min(|data|, MaxDataPoints)..]
  }

  /** The window is the tail of the data in its original order, and all of it when there are at most 50
      records. */
  lemma WindowKeepsLatest<T>(data: seq<T>)
    ensures var w := Window(data);
      && (forall i :: 0 <= i < |w| ==> w[i] == data[|data| - |w| + i])
      && (|data| <= MaxDataPoints ==> w == data)
      && (|data| > MaxDataPoints ==> |w| == 50 && w == data[|data| - 50..])
  {
  }

  /** No record in the window is `null` or `undefined`. */
  predicate Readable(rows: seq<Value>) {
    forall i :: 0 <= i < |rows| ==> !rows[i].Null? && !rows[i].Undefined?
  }

  /** The TypeError the first unreadable record raises when `field` is read from it. */
  function FirstUnreadable(rows: seq<Value>, field: string): (r: Option<string>)
    ensures r.None? <==> Readable(rows)
  {
    if |rows| == 0 then None
    else if rows[0].Null? then Some(ReadErrorMessage("null", field))
    else if rows[0].Undefined? then Some(ReadErrorMessage("undefined", field))
    else
      var rest := FirstUnreadable(rows[1..], field);
      assert Readable(rows[1..]) ==> Readable(rows) by {
        if Readable(rows[1..]) {
          forall i | 0 <= i < |rows| ensures !rows[i].Null? && !rows[i].Undefined? {
            if i > 0 { assert rows[i] == rows[1..][i - 1]; }
          }
        }
      }
      assert Readable(rows) ==> Readable(rows[1..]) by {
        if Readable(rows) {
          forall i | 0 <= i < |rows[1..]| ensures !rows[1..][i].Null? && !rows[1..][i].Undefined? {
            assert rows[1..][i] == rows[i + 1];
          }
        }
      }
      rest
  }

  /** `` `${r.date} ${r.time}` ``. */
  function Label(r: Value): string
    requires !r.Null? && !r.Undefined?
  {
    DisplayString(Property(r, "date")) + " " + DisplayString(Property(r, "time"))
  }

  // ---------------------------------------------------------------------------
  // weight chart

  const WeightEmptyMessage: string := "尚無體重記錄"
  const WeightErrorMessage: string := "載入體重資料失敗"

  /** The line chart: labels, the weight series and, when some record has a waist, the waist series on
      the right-hand `y1` axis. */
  datatype WeightChart = WeightEmpty | WeightLines(labels: seq<string>, weights: seq<Value>, waists: Option<seq<Value>>)

  /** `parseFloat(r.weight)`; `NaN` stays a point. */
  function WeightPoint(r: Value): Value
    requires !r.Null? && !r.Undefined?
  {
    NumberValue(ParseFloatOf(Property(r, "weight")))
  }

  /** `r.waist ? parseFloat(r.waist) : null`. */
  function WaistPoint(r: Value): (v: Value)
    requires !r.Null? && !r.Undefined?
    ensures v.Null? <==> !Truthy(Property(r, "waist"))
  {
    if Truthy(Property(r, "waist")) then NumberValue(ParseFloatOf(Property(r, "waist"))) else Null
  }

  /** `waists.some(w => w !== null)`. */
  predicate HasWaistData(waists: seq<Value>) {
    exists i :: 0 <= i < |waists| && !waists[i].Null?
  }

  /** The waist series, one point per record. */
  function Waists(w: seq<Value>): (r: seq<Value>)
    requires Readable(w)
    ensures |r| == |w| && forall i :: 0 <= i < |w| ==> r[i] == WaistPoint(w[i])
  {
    seq(|w|, i requires 0 <= i < |w| => WaistPoint(w[i]))
  }

  /** Some waist point is drawn exactly when some record has a truthy waist. */
  lemma WaistFlags(w: seq<Value>)
    requires Readable(w)
    ensures HasWaistData(Waists(w)) <==> exists i :: 0 <= i < |w| && Truthy(Property(w[i], "waist"))
  {
    var waists := Waists(w);
    if exists i :: 0 <= i < |w| && Truthy(Property(w[i], "waist")) {
      var i :| 0 <= i < |w| && Truthy(Property(w[i], "waist"));
      assert !waists[i].Null?;
    }
    if HasWaistData(waists) {
      var i :| 0 <= i < |waists| && !waists[i].Null?;
      assert Truthy(Property(w[i], "waist"));
    }
  }

  /** `createWeightChart(data)`; `None` is `null`. */
  function CreateWeightChart(data: Option<seq<Value>>): Result<WeightChart, string> {
    if data.None? || |data.value| == 0 then Success(WeightEmpty)
    else
      var w := Window(data.value);
      match FirstUnreadable(w, "date")
      case Some(e) => Failure(e)
      case None =>
        var waists := Waists(w);
        Success(WeightLines(
          seq(|w|, i requires 0 <= i < |w| => Label(w[i])),
          seq(|w|, i requires 0 <= i < |w| => WeightPoint(w[i])),
          if HasWaistData(waists) then Some(waists) else None))
  }

  /** The placeholder is shown exactly for missing or empty data. */
  lemma WeightChartEmptyIff(data: Option<seq<Value>>)
    ensures CreateWeightChart(data) == Success(WeightEmpty) <==> data.None? || |data.value| == 0
    ensures CreateWeightChart(data).Failure? <==>
      data.Some? && |data.value| > 0 && !Readable(Window(data.value))
  {
  }

  /** The chart plots exactly the window, point by point in order, and has a waist series exactly when
      some record in the window has a truthy waist. */
  lemma WeightChartSeries(data: seq<Value>)
    requires |data| > 0 && Readable(Window(data))
    ensures var w := Window(data);
      var c := CreateWeightChart(Some(data));
      && c.Success? && c.value.WeightLines?
      && |c.value.labels| == |w| == |c.value.weights|
      && (forall i :: 0 <= i < |w| ==> c.value.labels[i] == Label(w[i]) && c.value.weights[i] == WeightPoint(w[i]))
      && (c.value.waists.Some? <==> exists i :: 0 <= i < |w| && Truthy(Property(w[i], "waist")))
      && (c.value.waists.Some? ==>
            && |c.value.waists.value| == |w|
            && forall i :: 0 <= i < |w| ==> (c.value.waists.value[i].Null? <==> !Truthy(Property(w[i], "waist"))))
  {
    var w := Window(data);
    var waists := Waists(w);
    assert CreateWeightChart(Some(data)) == Success(WeightLines(
      seq(|w|, i requires 0 <= i < |w| => Label(w[i])),
      seq(|w|, i requires 0 <= i < |w| => WeightPoint(w[i])),
      if HasWaistData(waists) then Some(waists) else None));
    WaistFlags(w);
  }

  // ---------------------------------------------------------------------------
  // blood-pressure chart

  const BpEmptyMessage: string := "尚無血壓記錄"
  const BpErrorMessage: string := "載入血壓資料失敗"

  /** The message of calling `split` on a time that is not a string. */
  const SplitNotAFunction: string := "r.time.split is not a function"

  /** `parseInt(r.time.split(":")[0], 10)`; `None` is `NaN`. */
  function HourOf(r: Value): Result<Option<int>, string> {
    if r.Null? then Failure(ReadErrorMessage("null", "time"))
    else if r.Undefined? then Failure(ReadErrorMessage("undefined", "time"))
    else
      var t := Property(r, "time");
      if t.Str? then Success(ParseInt(SplitOn(t.s, ':')[0]))
      else if t.Null? then Failure(ReadErrorMessage("null", "split"))
      else if t.Undefined? then Failure(ReadErrorMessage("undefined", "split"))
      else Failure(SplitNotAFunction)
  }

  /** The hours of every record, or the error the first bad record raises. */
  function Hours(rows: seq<Value>): (r: Result<seq<Option<int>>, string>)
    ensures r.Success? ==> |r.value| == |rows| && Readable(rows)
    ensures r.Success? ==> forall i :: 0 <= i < |rows| ==> HourOf(rows[i]) == Success(r.value[i])
  {
    if |rows| == 0 then Success([])
    else match HourOf(rows[0])
      case Failure(e) => Failure(e)
      case Success(h) =>
        match Hours(rows[1..])
        case Failure(e) => Failure(e)
        case Success(hs) =>
          assert forall i :: 1 <= i < |rows| ==> rows[i] == rows[1..][i - 1];
          Success([h] + hs)
  }

  /** `hour < 12` (morning) or `hour >= 12` (evening); a `NaN` hour is neither. */
  predicate OnSide(h: Option<int>, morning: bool) {
    h.Some? && (if morning then h.value < 12 else h.value >= 12)
  }

  /** The positions the filter for one side keeps, in increasing order. */
  function Select(hours: seq<Option<int>>, morning: bool): (r: seq<nat>)
    ensures forall j :: 0 <= j < |r| ==> r[j] < |hours| && OnSide(hours[r[j]], morning)
    ensures forall j, k :: 0 <= j < k < |r| ==> r[j] < r[k]
    ensures forall i :: 0 <= i < |hours| && OnSide(hours[i], morning) ==> i in r
    decreases |hours|
  {
    if |hours| == 0 then []
    else
      var n := |hours| - 1;
      var front := Select(hours[..n], morning);
      assert forall j :: 0 <= j < |front| ==> hours[..n][front[j]] == hours[front[j]];
      front + (if OnSide(hours[n], morning) then [n] else [])
  }

  /** A plotted point `{x: label, y: value}`. */
  datatype Point = Point(x: string, y: Value)

  datatype BpChart = BpEmpty | BpLines(morningSys: seq<Point>, morningDia: seq<Point>, eveningSys: seq<Point>, eveningDia: seq<Point>)

  /** The points of one reading for the chosen positions. */
  function Points(w: seq<Value>, idx: seq<nat>, field: string): (r: seq<Point>)
    requires Readable(w) && forall j :: 0 <= j < |idx| ==> idx[j] < |w|
    ensures |r| == |idx|
  {
    seq(|idx|, j requires 0 <= j < |idx| => Point(Label(w[idx[j]]), Property(w[idx[j]], field)))
  }

  /** `createBPChart(data)`; `None` is `null`. */
  function CreateBpChart(data: Option<seq<Value>>): Result<BpChart, string> {
    if data.None? || |data.value| == 0 then Success(BpEmpty)
    else
      var w := Window(data.value);
      match Hours(w)
      case Failure(e) => Failure(e)
      case Success(hours) =>
        var am := Select(hours, true);
        var pm := Select(hours, false);
        Success(BpLines(Points(w, am, "systolic"), Points(w, am, "diastolic"),
                        Points(w, pm, "systolic"), Points(w, pm, "diastolic")))
  }

  /** The placeholder is shown exactly for missing or empty data. */
  lemma BpChartEmptyIff(data: Option<seq<Value>>)
    ensures CreateBpChart(data) == Success(BpEmpty) <==> data.None? || |data.value| == 0
  {
  }

  /** The morning and evening positions split the window: every record whose hour parses is on exactly
      one side, the morning side iff its hour is below 12, and a record whose hour does not parse is on
      neither; both sides keep the original order. */
  lemma {:induction false} SelectPartition(hours: seq<Option<int>>, i: nat)
    requires i < |hours|
    ensures var am := Select(hours, true);
      var pm := Select(hours, false);
      && (i in am <==> hours[i].Some? && hours[i].value < 12)
      && (i in pm <==> hours[i].Some? && hours[i].value >= 12)
      && (hours[i].Some? <==> (i in am) != (i in pm))
  {
    var am := Select(hours, true);
    var pm := Select(hours, false);
    if i in am {
      var j :| 0 <= j < |am| && am[j] == i;
      assert OnSide(hours[am[j]], true);
    }
    if i in pm {
      var j :| 0 <= j < |pm| && pm[j] == i;
      assert OnSide(hours[pm[j]], false);
    }
  }

  /** Each point of the four series is the reading of the record at its position, and the morning pair
      (likewise the evening pair) have one point per selected record. */
  lemma BpChartSeries(data: seq<Value>)
    requires |data| > 0 && Hours(Window(data)).Success?
    ensures var w := Window(data);
      var hours := Hours(w).value;
      var am := Select(hours, true);
      var pm := Select(hours, false);
      match CreateBpChart(Some(data))
      case Success(BpLines(ms, md, es, ed)) =>
        && |ms| == |md| == |am| && |es| == |ed| == |pm|
        && (forall j :: 0 <= j < |am| ==>
              ms[j] == Point(Label(w[am[j]]), Property(w[am[j]], "systolic")) &&
              md[j] == Point(Label(w[am[j]]), Property(w[am[j]], "diastolic")))
        && (forall j :: 0 <= j < |pm| ==>
              es[j] == Point(Label(w[pm[j]]), Property(w[pm[j]], "systolic")) &&
              ed[j] == Point(Label(w[pm[j]]), Property(w[pm[j]], "diastolic")))
      case _ => false
  {
  }

  // ---------------------------------------------------------------------------
  // expense charts and cards

  const CategoryEmptyMessage: string := "尚無支出記錄"
  const MonthlyEmptyMessage: string := "尚無月度資料"
  const CategoryErrorMessage: string := "載入支出統計失敗"
  const MonthlyErrorMessage: string := "載入月度統計失敗"

  /** The statistics payload: spending by category, by `YYYY-MM` month and, when present, by
      `YYYY-MM-DD` day. */
  datatype ExpenseStats = ExpenseStats(categories: Entries, monthly: Entries, daily: Option<Entries>)

  datatype CategoryChart = CategoryEmpty | Doughnut(labels: seq<string>, values: seq<Value>)

  /** `createCategoryChart(categories)`: the categories in the object's own order. */
  function CreateCategoryChart(categories: Entries): (r: CategoryChart)
    ensures r.CategoryEmpty? <==> |categories| == 0
    ensures r.Doughnut? ==>
      && |r.labels| == |r.values| == |categories|
      && forall i :: 0 <= i < |categories| ==> r.labels[i] == categories[i].0 && r.values[i] == categories[i].1
  {
    if |categories| == 0 then CategoryEmpty
    else Doughnut(KeysOf(categories), seq(|categories|, i requires 0 <= i < |categories| => categories[i].1))
  }

  /** `` `${year}年${monthNum}月` `` from `month.split('-')`; a missing part reads `undefined`. */
  function MonthLabel(month: string): string {
    var parts := SplitOn(month, '-');
    parts[0] + "年" + (if |parts| > 1 then parts[1] else "undefined") + "月"
  }

  datatype MonthlyChart = MonthlyEmpty | Bars(months: seq<string>, labels: seq<string>, values: seq<Value>)

  /** `createMonthlyChart(monthly)`: months sorted ascending, each value read by its month. */
  function CreateMonthlyChart(monthly: Entries): (r: MonthlyChart)
    ensures r.MonthlyEmpty? <==> |monthly| == 0
  {
    var months := SortAscending(KeysOf(monthly));
    if |months| == 0 then MonthlyEmpty
    else Bars(months,
      seq(|months|, i requires 0 <= i < |months| => MonthLabel(months[i])),
      seq(|months|, i requires 0 <= i < |months| => Read(monthly, months[i])))
  }

  /** The bars are the months of the payload in ascending order, each once as often as it occurs, each
      label its display form and each value the spending of that month. */
  lemma MonthlyOrdered(monthly: Entries)
    requires |monthly| > 0
    ensures var c := CreateMonthlyChart(monthly);
      && c.Bars?
      && SortedAscending(c.months)
      && multiset(c.months) == multiset(KeysOf(monthly))
      && |c.labels| == |c.values| == |c.months| == |monthly|
      && forall i :: 0 <= i < |c.months| ==>
           c.labels[i] == MonthLabel(c.months[i]) && Lookup(monthly, c.months[i]) == Some(c.values[i])
  {
    var keys := KeysOf(monthly);
    var months := SortAscending(keys);
    assert |months| == |monthly| by {
      assert |multiset(months)| == |multiset(keys)|;
    }
    var c := CreateMonthlyChart(monthly);
    assert c.months == months;
    MonthsFound(monthly, months);
  }

  /** Every month taken from the keys reads its own value. */
  lemma MonthsFound(monthly: Entries, months: seq<string>)
    requires multiset(months) == multiset(KeysOf(monthly))
    ensures forall i :: 0 <= i < |months| ==> Lookup(monthly, months[i]) == Some(Read(monthly, months[i]))
  {
    forall i | 0 <= i < |months| ensures Lookup(monthly, months[i]) == Some(Read(monthly, months[i])) {
      assert months[i] in multiset(months);
      KeyFound(monthly, months[i]);
    }
  }

  /** A name among the keys has a value. */
  lemma KeyFound(e: Entries, k: string)
    requires k in multiset(KeysOf(e))
    ensures Lookup(e, k).Some?
  {
    var keys := KeysOf(e);
    assert k in keys;
    var j :| 0 <= j < |keys| && keys[j] == k;
    assert e[j].0 == k;
  }

  /** A `YYYY-MM` key displays as `YYYY年MM月`. */
  lemma MonthLabelOfKey(year: string, month: string)
    requires '-' !in year && '-' !in month
    ensures MonthLabel(year + "-" + month) == year + "年" + month + "月"
  {
    SplitTwo(year, month, '-');
    assert year + "-" + month == year + ['-'] + month;
  }

  /** `formatDate(now).slice(0, 7)`. */
  function CurrentMonthKey(now: Utils.LocalDateTime): string {
    var f := Utils.FormatDate(now);
    f[..Min(|f|, 7)]
  }

  /** `x || 0` for a property that may be missing. */
  function OrZero(v: Option<Value>): (r: Value)
    ensures r == (if v.Some? && Truthy(v.value) then v.value else Num(0.0))
  {
    match v
    case Some(x) => if Truthy(x) then x else Num(0.0)
    case None => Num(0.0)
  }

  /** The two summary cards. */
  datatype Totals = Totals(monthlyTotal: Value, dailyTotal: Value)

  /** `updateExpenseStats(data)` at time `now`. */
  function UpdateExpenseStats(data: ExpenseStats, now: Utils.LocalDateTime): Totals {
    Totals(
      OrZero(Lookup(data.monthly, CurrentMonthKey(now))),
      match data.daily
      case Some(daily) => OrZero(Lookup(daily, Utils.FormatDate(now)))
      case None => Num(0.0))
  }

  /** The monthly card shows this month's spending, 0 when the month is missing; the daily card shows
      today's, 0 when there is no daily table or no entry for today. For a four-digit year the month key
      is the `YYYY-MM` prefix of today's date. */
  lemma ExpenseTotalsDefaults(data: ExpenseStats, now: Utils.LocalDateTime)
    ensures Lookup(data.monthly, CurrentMonthKey(now)).None? ==> UpdateExpenseStats(data, now).monthlyTotal == Num(0.0)
    ensures data.daily.None? ==> UpdateExpenseStats(data, now).dailyTotal == Num(0.0)
    ensures data.daily.Some? && Lookup(data.daily.value, Utils.FormatDate(now)).None? ==>
      UpdateExpenseStats(data, now).dailyTotal == Num(0.0)
    ensures forall v :: Lookup(data.monthly, CurrentMonthKey(now)) == Some(v) && Truthy(v) ==>
      UpdateExpenseStats(data, now).monthlyTotal == v
    ensures Utils.ValidDateTime(now) && 1000 <= now.year <= 9999 ==>
      |CurrentMonthKey(now)| == 7 && CurrentMonthKey(now) == Utils.FormatDate(now)[..7]
  {
    if Utils.ValidDateTime(now) && 1000 <= now.year <= 9999 {
      Utils.FormatDateIsIso(now);
    }
  }

  /** What the expense tab shows after `loadExpenseCharts()`: the cards and both charts, or both error
      placeholders when the statistics could not be fetched. */
  datatype ExpenseView =
    | ExpenseShown(totals: Totals, category: CategoryChart, monthly: MonthlyChart)
    | ExpenseFailed(categoryMessage: string, monthlyMessage: string)

  function LoadExpenseCharts(fetched: Result<ExpenseStats, Value>, now: Utils.LocalDateTime): (r: ExpenseView)
    ensures r.ExpenseFailed? <==> fetched.Failure?
    ensures r.ExpenseFailed? ==> r.categoryMessage == CategoryErrorMessage && r.monthlyMessage == MonthlyErrorMessage
  {
    match fetched
    case Success(data) =>
      ExpenseShown(UpdateExpenseStats(data, now), CreateCategoryChart(data.categories), CreateMonthlyChart(data.monthly))
    case Failure(_) => ExpenseFailed(CategoryErrorMessage, MonthlyErrorMessage)
  }

  // ---------------------------------------------------------------------------
  // health box

  /** A numeric argument of `calculateBMI` as the guards see it: falsy, or the number it coerces to. */
  function ReadingOf(v: Value): Health.Reading {
    if Truthy(v) then ToNumber(v) else None
  }

  /** The health box: hidden, or shown with its BMI and waist lines and its class. */
  datatype HealthInfo = HealthHidden | HealthShown(bmiText: string, waistText: string, level: Health.Level)

  /** The class attribute of a shown box. */
  function HealthClassName(l: Health.Level): string {
    "health-info " + Health.LevelClass(l)
  }

  /** The message of calling `toUpperCase` on a gender that is not a string. */
  const ToUpperCaseNotAFunction: string := "gender.toUpperCase is not a function"

  /** The level the BMI line sets: that of the BMI tier, or `health-info` when no BMI is computed. */
  function BmiLevel(bmi: Option<real>): Health.Level {
    match bmi
    case Some(b) => Health.BmiAssessment(Health.BmiTierOf(b)).level
    case None => Health.Info
  }

  function LevelRank(l: Health.Level): nat {
    match l
    case Info => 0
    case Warning => 1
    case Danger => 2
  }

  /** The waist line and whether it forces `health-danger`, or the TypeError reading the category of a
      waist that does not parse (or calling `toUpperCase` on a non-string gender) raises. */
  datatype WaistLine = NoWaistLine | WaistLineOf(text: string, thick: bool)

  function WaistInfo(latest: Value, gender: Value): Result<WaistLine, string>
    requires !latest.Null? && !latest.Undefined?
  {
    var waist := Property(latest, "waist");
    if !(Truthy(waist) && Truthy(gender)) then Success(NoWaistLine)
    else
      var w := ParseFloatOf(waist);
      if !Health.Present(w) then Failure(ReadErrorMessage("null", "category"))
      else if !gender.Str? then Failure(ToUpperCaseNotAFunction)
      else
        var tier := Health.GetWaistCategory(w, gender.s).value;
        Success(WaistLineOf(
          "<strong>腰圍：" + DisplayString(waist) + "cm</strong> (" + Health.WaistAssessment(tier, gender.s).category + ")",
          tier == Health.WaistThick))
  }

  /** `updateHealthInfo(weightData, settingsData)`. */
  function UpdateHealthInfo(weightData: seq<Value>, settings: Value): Result<HealthInfo, string> {
    if |weightData| == 0 then Success(HealthHidden)
    else if settings.Null? then Failure(ReadErrorMessage("null", "height"))
    else if settings.Undefined? then Failure(ReadErrorMessage("undefined", "height"))
    else
      var height := Property(settings, "height");
      if !Truthy(height) then Success(HealthHidden)
      else
        var latest := weightData[|weightData| - 1];
        if latest.Null? then Failure(ReadErrorMessage("null", "weight"))
        else if latest.Undefined? then Failure(ReadErrorMessage("undefined", "weight"))
        else
          var bmi := Health.CalculateBmi(ReadingOf(Property(latest, "weight")), ReadingOf(height));
          var bmiText := match bmi
            case Some(b) =>
              "<strong>最新BMI：" + DisplayNumber(b) + "</strong> (" + Health.BmiAssessment(Health.BmiTierOf(b)).category + ")"
            case None => "";
          match WaistInfo(latest, Property(settings, "gender"))
          case Failure(e) => Failure(e)
          case Success(line) =>
            var level := if line.WaistLineOf? && line.thick then Health.Danger else BmiLevel(bmi);
            Success(HealthShown(bmiText, if line.WaistLineOf? then line.text else "", level))
  }

  /** The box starts as `health-info`, takes the BMI tier's class when a BMI is computed, and is forced to
      `health-danger` by a waist above the limit; the waist never lowers the class. */
  lemma HealthClassEscalation(weightData: seq<Value>, settings: Value)
    requires UpdateHealthInfo(weightData, settings).Success?
    requires UpdateHealthInfo(weightData, settings).value.HealthShown?
    ensures var info := UpdateHealthInfo(weightData, settings).value;
      var latest := weightData[|weightData| - 1];
      var height := Property(settings, "height");
      var bmi := Health.CalculateBmi(ReadingOf(Property(latest, "weight")), ReadingOf(height));
      && LevelRank(info.level) >= LevelRank(BmiLevel(bmi))
      && (info.level == Health.Danger <==>
            BmiLevel(bmi) == Health.Danger ||
            WaistInfo(latest, Property(settings, "gender")) == Success(WaistLineOf(info.waistText, true)))
      && (bmi.None? && WaistInfo(latest, Property(settings, "gender")) == Success(NoWaistLine) ==>
            info.level == Health.Info)
  {
  }

  /** The box is hidden exactly when there is no weight record or the height is falsy. */
  lemma HealthHiddenIff(weightData: seq<Value>, settings: Value)
    requires !settings.Null? && !settings.Undefined?
    ensures UpdateHealthInfo(weightData, settings) == Success(HealthHidden) <==>
      |weightData| == 0 || !Truthy(Property(settings, "height"))
  {
  }

  /** What the weight tab shows after `loadWeightChart()`: the chart and the health box; the error placeholder
      when a fetch fails or building either throws while the canvas is still there; or the empty placeholder
      kept, with the error only logged, when the throw comes after the placeholder replaced the canvas. */
  datatype WeightView =
    | WeightShown(chart: WeightChart, info: HealthInfo)
    | WeightFailed(message: string)
    | WeightEmptyKept(thrown: string)

  function LoadWeightChart(weight: Result<Option<seq<Value>>, Value>, settings: Result<Value, Value>): (r: WeightView)
    ensures r.WeightFailed? ==> r.message == WeightErrorMessage
    ensures weight.Failure? || settings.Failure? ==> r.WeightFailed?
    ensures r.WeightEmptyKept? <==> weight.Success? && settings.Success? && weight.value.None?
    ensures r.WeightEmptyKept? ==> r.thrown == ReadErrorMessage("null", "length")
  {
    if weight.Failure? || settings.Failure? then WeightFailed(WeightErrorMessage)
    else match CreateWeightChart(weight.value)
      case Failure(_) => WeightFailed(WeightErrorMessage)
      case Success(chart) =>
        match weight.value
        case None => WeightEmptyKept(ReadErrorMessage("null", "length"))
        case Some(records) =>
          match UpdateHealthInfo(records, settings.value)
          case Failure(_) => WeightFailed(WeightErrorMessage)
          case Success(info) => WeightShown(chart, info)
  }

  /** A `null` weight payload first draws the empty placeholder, which removes the canvas; reading its `length`
      then throws, and the catch's `showChartError` finds no canvas and does nothing, so the placeholder stays.
      An empty array shows the placeholder and hides the box. */
  lemma WeightNullPayloadKeepsPlaceholder(settings: Value)
    ensures LoadWeightChart(Success(None), Success(settings)) == WeightEmptyKept(ReadErrorMessage("null", "length"))
    ensures LoadWeightChart(Success(Some([])), Success(settings)) == WeightShown(WeightEmpty, HealthHidden)
  {
  }

  /** What the blood-pressure tab shows after `loadBPChart()`. */
  datatype BpView = BpShown(chart: BpChart) | BpFailed(message: string)

  function LoadBpChart(fetched: Result<Option<seq<Value>>, Value>): (r: BpView)
    ensures r.BpFailed? <==> fetched.Failure? || CreateBpChart(fetched.value).Failure?
    ensures r.BpFailed? ==> r.message == BpErrorMessage
  {
    if fetched.Failure? then BpFailed(BpErrorMessage)
    else match CreateBpChart(fetched.value)
      case Failure(_) => BpFailed(BpErrorMessage)
      case Success(chart) => BpShown(chart)
  }

  // ---------------------------------------------------------------------------
  // cache keys

  /** The `requestWithCache` keys a loader reads: `expenseStats`, `weight` and `settings`, `bloodPressure`. */
  function LoaderCacheKeys(l: Tabs.ChartLoad): (r: seq<string>)
    ensures |r| >= 1 && forall i :: 0 <= i < |r| ==> r[i] != ""
  {
    match l
    case ExpenseCharts => ["expenseStats"]
    case WeightChart => ["weight", "settings"]
    case BpChart => ["bloodPressure"]
  }

  /** The keys a run of loads reads, in order. */
  function LoadKeys(loads: seq<Tabs.ChartLoad>): (r: seq<string>)
    ensures forall i :: 0 <= i < |r| ==> r[i] != ""
    ensures |loads| == 1 ==> r == LoaderCacheKeys(loads[0])
  {
    if |loads| == 0 then [] else LoaderCacheKeys(loads[0]) + LoadKeys(loads[1..])
  }

  // ---------------------------------------------------------------------------
  // retry

  /** What a chart container holds, the page's containers listed in document order: its canvas, the empty
      placeholder, or the error placeholder, whose retry button names the canvas it replaced. */
  datatype Slot = CanvasSlot(canvasId: string) | EmptySlot(message: string) | ErrorSlot(canvasId: string, message: string)

  /** The first container satisfying `p`: `getElementById` and `querySelector` return the first match. */
  function FirstWhere(dom: seq<Slot>, p: Slot -> bool): (r: Option<nat>)
    ensures r.Some? ==> r.value < |dom| && p(dom[r.value]) && forall k :: 0 <= k < r.value ==> !p(dom[k])
    ensures r.None? ==> forall k :: 0 <= k < |dom| ==> !p(dom[k])
  {
    if |dom| == 0 then None
    else if p(dom[0]) then Some(0)
    else match FirstWhere(dom[1..], p)
      case Some(i) => Some(i + 1)
      case None => None
  }

  /** `document.getElementById(id)` (or `querySelector('#' + id)`) for a canvas. */
  function FindCanvas(dom: seq<Slot>, id: string): Option<nat> {
    FirstWhere(dom, s => s == CanvasSlot(id))
  }

  /** Whether a container belongs to the chart `id`: it holds the canvas or the error placeholder for it. */
  predicate HoldsChart(s: Slot, id: string) {
    s == CanvasSlot(id) || (s.ErrorSlot? && s.canvasId == id)
  }

  /** The page has one container for chart `id`, and it holds the canvas. */
  predicate SingleChart(dom: seq<Slot>, id: string) {
    FindCanvas(dom, id).Some? && forall k :: 0 <= k < |dom| && k != FindCanvas(dom, id).value ==> !HoldsChart(dom[k], id)
  }

  /** `showChartError(canvasId, message)`: without the canvas nothing happens; otherwise its container's content
      becomes the error placeholder and every other container is untouched. */
  function ShowChartError(dom: seq<Slot>, id: string, message: string): (r: seq<Slot>)
    ensures |r| == |dom|
    ensures r == dom <==> FindCanvas(dom, id).None?
    ensures forall k :: 0 <= k < |dom| ==> r[k] == dom[k] || (dom[k] == CanvasSlot(id) && r[k] == ErrorSlot(id, message))
  {
    match FindCanvas(dom, id)
    case None => dom
    case Some(i) =>
      assert dom[i] != dom[i := ErrorSlot(id, message)][i];
      dom[i := ErrorSlot(id, message)]
  }

  /** The loader `retryLoadChart` runs for a canvas: the expense loader draws both expense charts. */
  function RetryLoaders(canvasId: string): (r: seq<Tabs.ChartLoad>)
    ensures |r| <= 1
    ensures |r| == 1 <==> canvasId in {"expenseCategoryChart", "expenseMonthlyChart", "weightChart", "bpChart"}
  {
    if canvasId == "expenseCategoryChart" || canvasId == "expenseMonthlyChart" then [Tabs.ExpenseCharts]
    else if canvasId == "weightChart" then [Tabs.WeightChart]
    else if canvasId == "bpChart" then [Tabs.BpChart]
    else []
  }

  /** The outcome of a retry: the cache and page after it, the loaders it ran, and the error it threw. */
  datatype Retry = Retry(cache: Api.Cache, dom: seq<Slot>, loads: seq<Tabs.ChartLoad>, thrown: Option<string>)

  const ParentOfNullMessage: string := ReadErrorMessage("null", "parentElement")

  /** `retryLoadChart(canvasId)` as written: the whole cache is cleared; then `querySelector('#' + canvasId)`
      looks for the canvas, and reading `parentElement` of `null` throws before any loader runs. A found canvas
      is replaced by a fresh one of the same id and the chart's loader runs. */
  function RetryLoadChart(cache: Api.Cache, dom: seq<Slot>, canvasId: string): (r: Retry)
    ensures r.cache == map[]
    ensures r.thrown.Some? <==> FindCanvas(dom, canvasId).None?
    ensures r.thrown.Some? ==> r.thrown.value == ParentOfNullMessage && r.loads == [] && r.dom == dom
    ensures r.thrown.None? ==> r.loads == RetryLoaders(canvasId) && r.dom == dom
  {
    var cleared := Api.CacheClear(cache, Undefined);
    match FindCanvas(dom, canvasId)
    case None => Retry(cleared, dom, [], Some(ParentOfNullMessage))
    case Some(i) => Retry(cleared, dom[i := CanvasSlot(canvasId)], RetryLoaders(canvasId), None)
  }

  /** The retry button only exists once `showChartError` has replaced the canvas, so pressing it always throws:
      the cache is emptied, the error placeholder stays and no chart is reloaded. */
  lemma RetryAfterErrorThrows(cache: Api.Cache, dom: seq<Slot>, id: string, message: string)
    requires SingleChart(dom, id)
    ensures var shown := ShowChartError(dom, id, message);
      var r := RetryLoadChart(cache, shown, id);
      && shown != dom
      && r == Retry(map[], shown, [], Some(ParentOfNullMessage))
  {
    var shown := ShowChartError(dom, id, message);
    var i := FindCanvas(dom, id).value;
    forall k | 0 <= k < |shown| ensures shown[k] != CanvasSlot(id) {
      if k != i {
        assert !HoldsChart(dom[k], id);
      }
    }
  }

  /** `retryLoadChart` as evidently intended: the container of chart `canvasId`, holding the canvas or its error
      placeholder, gets a fresh canvas and the chart's loader runs; with no such container the loader still runs. */
  function RetryLoadChartFixed(cache: Api.Cache, dom: seq<Slot>, canvasId: string): (r: Retry)
    ensures r.cache == map[] && r.thrown.None? && r.loads == RetryLoaders(canvasId)
    ensures |r.dom| == |dom|
    ensures forall k :: 0 <= k < |dom| ==> r.dom[k] == dom[k] || (HoldsChart(dom[k], canvasId) && r.dom[k] == CanvasSlot(canvasId))
  {
    var cleared := Api.CacheClear(cache, Undefined);
    match FirstWhere(dom, s => HoldsChart(s, canvasId))
    case None => Retry(cleared, dom, RetryLoaders(canvasId), None)
    case Some(i) => Retry(cleared, dom[i := CanvasSlot(canvasId)], RetryLoaders(canvasId), None)
  }

  /** With the intended retry, showing the error and pressing retry gives back the page as it was, with the
      cache emptied and the chart's loader run. */
  lemma RetryFixedRestores(cache: Api.Cache, dom: seq<Slot>, id: string, message: string)
    requires SingleChart(dom, id)
    ensures var r := RetryLoadChartFixed(cache, ShowChartError(dom, id, message), id);
      r == Retry(map[], dom, RetryLoaders(id), None)
  {
    var shown := ShowChartError(dom, id, message);
    var i := FindCanvas(dom, id).value;
    assert shown == dom[i := ErrorSlot(id, message)];
    var found := FirstWhere(shown, s => HoldsChart(s, id));
    assert HoldsChart(shown[i], id);
    forall k | 0 <= k < i ensures !HoldsChart(shown[k], id) {
      assert !HoldsChart(dom[k], id);
    }
    assert found == Some(i);
    assert shown[i := CanvasSlot(id)] == dom;
  }
}

=== FILE: config.dfy ===
/** The client's configuration object `CONFIG` and the dotted-path helpers
    `getConfig` / `setConfig` that read and update it.

    The typed constants below are the single definition of every setting; the
    configuration object `DefaultConfig` is assembled from them, so code that
    reads `CONFIG.X.Y` directly and code that calls `getConfig("X.Y")` see the
    same numbers.
 */
module Config {
  import opened Wrappers
  import opened Text
  import opened JsValue

  // ---------------------------------------------------------------------------
  // API

  const ApiUrl: string := "https://script.google.com/macros/s/AKfycbzHLRV-Ymx3PppIf05WLVr3xl9PvYLjiB4FXXVYnmMYrRxquWdZQHUaduUJpBUtCiORpw/exec"
  const ApiKey: string := "1qazxsw23edc"

  // ---------------------------------------------------------------------------
  // HEALTH_STANDARDS

  const BmiUnderweight: real := 18.5
  const BmiNormal: real := 24.0
  const BmiOverweight: real := 27.0

  const WaistMale: real := 90.0
  const WaistFemale: real := 80.0

  const BpNormalSystolic: real := 120.0
  const BpNormalDiastolic: real := 80.0
  const BpHighSystolic: real := 140.0
  const BpHighDiastolic: real := 90.0

  // ---------------------------------------------------------------------------
  // UI

  const AnimationDuration: int := 300
  const ValidationDelay: int := 500
  const ChartUpdateInterval: int := 1000
  const DataRefreshInterval: int := 30000
  const MaxDataPoints: nat := 50

  // ---------------------------------------------------------------------------
  // messages

  const NetworkErrorMessage: string := "❌ 網路連線錯誤，請檢查網路狀態"
  const ApiErrorMessage: string := "❌ 伺服器錯誤，請稍後再試"
  const ValidationErrorMessage: string := "❌ 資料格式錯誤，請檢查輸入內容"
  const PermissionErrorMessage: string := "❌ 權限不足，請檢查 API 金鑰"
  const UnknownErrorMessage: string := "❌ 未知錯誤，請聯繫管理員"

  const DataSavedMessage: string := "✅ 資料已成功儲存"
  const DataUpdatedMessage: string := "✅ 資料已更新"
  const DataDeletedMessage: string := "✅ 資料已刪除"

  // ---------------------------------------------------------------------------
  // VALIDATION_RULES

  /** An inclusive numeric range a form field must fall in. */
  datatype Rule = Rule(min: real, max: real)

  const ExpenseRules: map<string, Rule> := map["amount" := Rule(0.0, 1000000.0)]

  const WeightRules: map<string, Rule> := map[
    "weight" := Rule(20.0, 300.0),
    "waist" := Rule(30.0, 200.0)
  ]

  const BloodPressureRules: map<string, Rule> := map[
    "systolic" := Rule(50.0, 250.0),
    "diastolic" := Rule(30.0, 150.0),
    "pulse" := Rule(30.0, 200.0)
  ]

  // ---------------------------------------------------------------------------
  // FEATURES and DEBUG

  const AutoSave: bool := false
  const OfflineMode: bool := false
  const DataExport: bool := true
  const DarkMode: bool := false
  const Notifications: bool := false
  const AutoBackup: bool := false

  const FeatureFlags: map<string, bool> := map[
    "AUTO_SAVE" := AutoSave,
    "OFFLINE_MODE" := OfflineMode,
    "DATA_EXPORT" := DataExport,
    "DARK_MODE" := DarkMode,
    "NOTIFICATIONS" := Notifications,
    "AUTO_BACKUP" := AutoBackup
  ]

  /** `CONFIG.FEATURES`: every flag as a boolean property. */
  const FeaturesValue: Value := Obj(map f | f in FeatureFlags :: Bool(FeatureFlags[f]))

  const DebugEnabled: bool := false
  const LogApiRequests: bool := false
  const UseMockData: bool := false

  // ---------------------------------------------------------------------------
  // the configuration object

  function RulesValue(t: map<string, Rule>): Value {
    Obj(map k | k in t :: Obj(map["min" := Num(t[k].min), "max" := Num(t[k].max)]))
  }

  const DefaultConfig: map<string, Value> := map[
    "API_URL" := Str(ApiUrl),
    "API_KEY" := Str(ApiKey),
    "CHART_COLORS" := Obj(map[
      "expense" := Arr([Str("#FF6384"), Str("#36A2EB"), Str("#FFCE56"), Str("#4BC0C0"),
                        Str("#9966FF"), Str("#FF9F40"), Str("#C7C7C7"), Str("#64B5F6")]),
      "weight" := Str("#4caf50"),
      "waist" := Str("#ff9800"),
      "bloodPressure" := Obj(map[
        "morningSystolic" := Str("#f44336"),
        "morningDiastolic" := Str("#ff9800"),
        "eveningSystolic" := Str("#3f51b5"),
        "eveningDiastolic" := Str("#009688")
      ])
    ]),
    "HEALTH_STANDARDS" := Obj(map[
      "BMI" := Obj(map[
        "underweight" := Num(BmiUnderweight),
        "normal" := Num(BmiNormal),
        "overweight" := Num(BmiOverweight)
      ]),
      "WAIST" := Obj(map["male" := Num(WaistMale), "female" := Num(WaistFemale)]),
      "BLOOD_PRESSURE" := Obj(map[
        "normal" := Obj(map["systolic" := Num(BpNormalSystolic), "diastolic" := Num(BpNormalDiastolic)]),
        "high" := Obj(map["systolic" := Num(BpHighSystolic), "diastolic" := Num(BpHighDiastolic)])
      ])
    ]),
    "UI" := Obj(map[
      "ANIMATION_DURATION" := Num(AnimationDuration as real),
      "VALIDATION_DELAY" := Num(ValidationDelay as real),
      "CHART_UPDATE_INTERVAL" := Num(ChartUpdateInterval as real),
      "DATA_REFRESH_INTERVAL" := Num(DataRefreshInterval as real),
      "MAX_DATA_POINTS" := Num(MaxDataPoints as real)
    ]),
    "DATE_FORMATS" := Obj(map[
      "display" := Str("YYYY-MM-DD"),
      "api" := Str("YYYY-MM-DD"),
      "chart" := Str("MM/DD")
    ]),
    "ERROR_MESSAGES" := Obj(map[
      "NETWORK_ERROR" := Str(NetworkErrorMessage),
      "API_ERROR" := Str(ApiErrorMessage),
      "VALIDATION_ERROR" := Str(ValidationErrorMessage),
      "PERMISSION_ERROR" := Str(PermissionErrorMessage),
      "UNKNOWN_ERROR" := Str(UnknownErrorMessage)
    ]),
    "SUCCESS_MESSAGES" := Obj(map[
      "DATA_SAVED" := Str(DataSavedMessage),
      "DATA_UPDATED" := Str(DataUpdatedMessage),
      "DATA_DELETED" := Str(DataDeletedMessage)
    ]),
    "VALIDATION_RULES" := Obj(map[
      "expense" := RulesValue(ExpenseRules),
      "weight" := RulesValue(WeightRules),
      "bloodPressure" := RulesValue(BloodPressureRules)
    ]),
    "FEATURES" := FeaturesValue,
    "DEBUG" := Obj(map[
      "ENABLED" := Bool(DebugEnabled),
      "LOG_API_REQUESTS" := Bool(LogApiRequests),
      "USE_MOCK_DATA" := Bool(UseMockData)
    ])
  ]

  // ---------------------------------------------------------------------------
  // invariants of the constants

  /** The health thresholds are ordered as the classifiers assume. */
  lemma ThresholdsOrdered()
    ensures BmiUnderweight < BmiNormal < BmiOverweight
    ensures BpNormalSystolic < BpHighSystolic && BpNormalDiastolic < BpHighDiastolic
    ensures WaistFemale < WaistMale
  {
  }

  predicate RulesWellFormed(t: map<string, Rule>) {
    forall k :: k in t ==> t[k].min <= t[k].max
  }

  /** Every validation range is non-empty. */
  lemma ValidationRulesWellFormed()
    ensures RulesWellFormed(ExpenseRules) && RulesWellFormed(WeightRules) && RulesWellFormed(BloodPressureRules)
  {
  }

  // ---------------------------------------------------------------------------
  // getConfig

  /** Whether the walk may step from `cur` into `key`: `cur && typeof cur === 'object' && key in cur`. */
  predicate CanStep(cur: Value, key: string) {
    Truthy(cur) && IsObjectType(cur) && HasOwn(cur, key)
  }

  /** The value a dotted path reaches, or `None` at the first segment that cannot be followed. */
  function Walk(cur: Value, keys: seq<string>): Option<Value>
    decreases |keys|
  {
    if |keys| == 0 then Some(cur)
    else if CanStep(cur, keys[0]) then Walk(Property(cur, keys[0]), keys[1..])
    else None
  }

  /** The loop of `getConfig`, returning `default` as soon as a segment cannot be followed. */
  function Resolve(cur: Value, keys: seq<string>, default: Value): Value
    decreases |keys|
  {
    if |keys| == 0 then cur
    else if CanStep(cur, keys[0]) then Resolve(Property(cur, keys[0]), keys[1..], default)
    else default
  }

  /** `getConfig(path, defaultValue)` on the configuration `config`. */
  function GetConfig(config: map<string, Value>, path: string, default: Value): Value {
    Resolve(Obj(config), SplitOn(path, '.'), default)
  }

  /** `getConfig` yields exactly the value the path reaches, even a falsy one, and the default only when
      some segment cannot be followed. */
  lemma {:induction false} ResolveIsWalk(cur: Value, keys: seq<string>, default: Value)
    ensures Resolve(cur, keys, default) == match Walk(cur, keys) case Some(v) => v case None => default
    decreases |keys|
  {
    if |keys| > 0 && CanStep(cur, keys[0]) {
      ResolveIsWalk(Property(cur, keys[0]), keys[1..], default);
    }
  }

  /** Walking a concatenated path walks the first part, then the rest from where it ended. */
  lemma {:induction false} WalkConcat(cur: Value, p: seq<string>, q: seq<string>)
    ensures Walk(cur, p + q) == match Walk(cur, p) case Some(x) => Walk(x, q) case None => None
    decreases |p|
  {
    if |p| == 0 {
      assert p + q == q;
    } else {
      assert (p + q)[0] == p[0];
      assert (p + q)[1..] == p[1..] + q;
      if CanStep(cur, p[0]) {
        WalkConcat(Property(cur, p[0]), p[1..], q);
      }
    }
  }

  /** As soon as segment `i` cannot be followed from the value the first `i` segments reach,
      `getConfig` returns the default, whatever the remaining segments are. */
  lemma GetConfigStopsAtMissingSegment(config: map<string, Value>, path: string, i: nat, default: Value)
    requires i < |SplitOn(path, '.')|
    requires var keys := SplitOn(path, '.');
      match Walk(Obj(config), keys[..i]) case Some(x) => !CanStep(x, keys[i]) case None => false
    ensures GetConfig(config, path, default) == default
  {
    var keys := SplitOn(path, '.');
    assert keys == keys[..i] + keys[i..];
    WalkConcat(Obj(config), keys[..i], keys[i..]);
    ResolveIsWalk(Obj(config), keys, default);
  }

  /** A path spelled as separator-free segments joined with dots is split back into those segments. */
  lemma GetConfigOfSegments(config: map<string, Value>, keys: seq<string>, default: Value)
    requires |keys| >= 1 && forall i :: 0 <= i < |keys| ==> '.' !in keys[i]
    ensures GetConfig(config, JoinWith(keys, '.'), default) == Resolve(Obj(config), keys, default)
  {
    SplitJoin(keys, '.');
  }

  /** A two-segment path `a.b` splits into its segments. */
  lemma SplitPath2(a: string, b: string)
    requires '.' !in a && '.' !in b
    ensures SplitOn(a + "." + b, '.') == [a, b]
  {
    SplitTwo(a, b, '.');
  }

  /** `getConfig('a.b', d)` on any configuration: `config.a.b` when `config.a` is a (truthy) object owning `b`,
      even when that value is falsy, and `d` otherwise. */
  lemma GetConfigTwoSegments(config: map<string, Value>, a: string, b: string, default: Value)
    requires '.' !in a && '.' !in b
    ensures GetConfig(config, a + "." + b, default) ==
      if a in config && CanStep(config[a], b) then Property(config[a], b) else default
  {
    SplitPath2(a, b);
    assert [a, b][1..] == [b];
    if a in config {
      assert Resolve(Obj(config), [a, b], default) == Resolve(config[a], [b], default);
    }
  }

  /** `getConfig('FEATURES.<flag>', d)` on the shipped configuration is the flag's value, `false` included,
      and `d` only for a flag that does not exist. */
  lemma DefaultFeatureLookup(flag: string, default: Value)
    requires '.' !in flag
    ensures GetConfig(DefaultConfig, "FEATURES." + flag, default) ==
      if flag in FeatureFlags then Bool(FeatureFlags[flag]) else default
  {
    assert "FEATURES." + flag == "FEATURES" + "." + flag;
    DefaultEntries();
    GetConfigTwoSegments(DefaultConfig, "FEATURES", flag, default);
  }

  /** The two top-level entries the lookups below go through. */
  lemma DefaultEntries()
    ensures "FEATURES" in DefaultConfig && DefaultConfig["FEATURES"] == FeaturesValue
    ensures "API_KEY" in DefaultConfig && DefaultConfig["API_KEY"] == Str(ApiKey)
  {
  }

  /** `getConfig('API_KEY.<k>', d)` never steps into the key string: the result is `d`. */
  lemma DefaultStringStepGivesDefault(k: string, default: Value)
    requires '.' !in k
    ensures GetConfig(DefaultConfig, "API_KEY." + k, default) == default
  {
    assert "API_KEY." + k == "API_KEY" + "." + k;
    DefaultEntries();
    GetConfigTwoSegments(DefaultConfig, "API_KEY", k, default);
  }

  // ---------------------------------------------------------------------------
  // setConfig

  /** Why `setConfig` did not complete: a TypeError the source throws, or a write into an array under a
      name that is not an array index, which the model does not represent. */
  datatype SetError = TypeError(message: string) | UnmodelledArrayWrite

  /** The largest array index, 2^32 - 2. */
  const MaxArrayIndex: nat := 4294967294

  /** A property name that addresses an array element. */
  predicate ArrayIndexKey(key: string) {
    IsIndexKey(key) && DigitsValue(key) <= MaxArrayIndex
  }

  /** `cur[key] = val` on an object-typed value. An element written past the end of an array grows it, the
      skipped positions reading `undefined`. */
  function Put(cur: Value, key: string, val: Value): Result<Value, SetError>
    requires IsObjectType(cur)
  {
    match cur
    case Null => Failure(TypeError("Cannot set properties of null (setting '" + key + "')"))
    case Obj(f) => Success(Obj(f[key := val]))
    case Arr(items) =>
      if !ArrayIndexKey(key) then Failure(UnmodelledArrayWrite)
      else
        var n := DigitsValue(key);
        if n < |items| then Success(Arr(items[n := val]))
        else Success(Arr(items + seq(n - |items|, _ => Undefined) + [val]))
  }

  /** The value the loop of `setConfig` steps into under `key`: the existing object-typed property, or a
      fresh `{}` in place of a missing or non-object one. */
  function Child(cur: Value, key: string): (c: Value)
    ensures IsObjectType(c)
  {
    if HasOwn(cur, key) && IsObjectType(Property(cur, key)) then Property(cur, key) else Obj(map[])
  }

  /** The loop of `setConfig` from `cur` down: a missing or non-object intermediate becomes `{}`,
      and the last segment receives `val`. */
  function SetPath(cur: Value, keys: seq<string>, val: Value): Result<Value, SetError>
    requires IsObjectType(cur) && |keys| >= 1
    decreases |keys|
  {
    if |keys| == 1 then Put(cur, keys[0], val)
    else if cur.Null? then Failure(TypeError("Cannot use 'in' operator to search for '" + keys[0] + "' in null"))
    else
      match SetPath(Child(cur, keys[0]), keys[1..], val)
      case Failure(e) => Failure(e)
      case Success(c) => Put(cur, keys[0], c)
  }

  /** Some value the update steps through is `null`, or an array addressed by a name that is not an
      index. */
  predicate Blocked(cur: Value, keys: seq<string>)
    requires IsObjectType(cur) && |keys| >= 1
    decreases |keys|
  {
    || cur.Null?
    || (cur.Arr? && !ArrayIndexKey(keys[0]))
    || (|keys| > 1 && Blocked(Child(cur, keys[0]), keys[1..]))
  }

  /** Some value the update steps through is `null`. */
  predicate NullOnPath(cur: Value, keys: seq<string>)
    requires IsObjectType(cur) && |keys| >= 1
    decreases |keys|
  {
    cur.Null? || (|keys| > 1 && NullOnPath(Child(cur, keys[0]), keys[1..]))
  }

  /** The update fails exactly when it is blocked, and the failure is the TypeError exactly when a `null`
      is on the way. */
  lemma {:induction false} SetPathFailure(cur: Value, keys: seq<string>, val: Value)
    requires IsObjectType(cur) && |keys| >= 1
    ensures SetPath(cur, keys, val).Failure? <==> Blocked(cur, keys)
    ensures NullOnPath(cur, keys) ==> SetPath(cur, keys, val).Failure?
    ensures SetPath(cur, keys, val).Failure? ==> (SetPath(cur, keys, val).error.TypeError? <==> NullOnPath(cur, keys))
    decreases |keys|
  {
    if |keys| > 1 && !cur.Null? {
      SetPathFailure(Child(cur, keys[0]), keys[1..], val);
    }
  }

  /** `setConfig(path, value)`: the updated configuration, or the error it throws (leaving it unchanged). */
  function SetConfig(config: map<string, Value>, path: string, val: Value): Result<map<string, Value>, SetError> {
    match SetPath(Obj(config), SplitOn(path, '.'), val)
    case Success(Obj(f)) => Success(f)
    case Success(_) => Failure(UnmodelledArrayWrite)
    case Failure(e) => Failure(e)
  }

  /** A successful `SetPath` leaves a value of the same kind behind and changes only the first segment's
      entry: an object gains or updates that property; an array is addressed by an index, and grows to
      just past it when the index is beyond its end, the skipped positions reading `undefined`. */
  lemma SetPathKeepsKind(cur: Value, keys: seq<string>, val: Value)
    requires IsObjectType(cur) && |keys| >= 1
    ensures SetPath(cur, keys, val).Success? ==>
      var r := SetPath(cur, keys, val).value;
      && (cur.Obj? <==> r.Obj?)
      && (cur.Obj? ==>
            && r.fields.Keys == cur.fields.Keys + {keys[0]}
            && forall k :: k in cur.fields && k != keys[0] ==> r.fields[k] == cur.fields[k])
      && (cur.Arr? ==>
            && r.Arr? && ArrayIndexKey(keys[0])
            && var n := DigitsValue(keys[0]);
               && |r.items| == (if n < |cur.items| then |cur.items| else n + 1)
               && (forall i :: 0 <= i < |cur.items| && i != n ==> r.items[i] == cur.items[i])
               && (forall i :: |cur.items| <= i < n ==> r.items[i] == Undefined))
  {
  }

  /** After a successful `SetPath`, walking the same path reaches the written value. */
  lemma {:induction false} SetPathThenWalk(cur: Value, keys: seq<string>, val: Value)
    requires IsObjectType(cur) && |keys| >= 1
    requires SetPath(cur, keys, val).Success?
    ensures Walk(SetPath(cur, keys, val).value, keys) == Some(val)
    decreases |keys|
  {
    var r := SetPath(cur, keys, val).value;
    if |keys| == 1 {
      assert Property(r, keys[0]) == val;
    } else {
      var key := keys[0];
      var child := Child(cur, key);
      SetPathThenWalk(child, keys[1..], val);
      var c := SetPath(child, keys[1..], val).value;
      assert Property(r, key) == c;
    }
  }

  /** After `setConfig(path, v)` succeeds, `getConfig(path)` gives `v`, whatever the default. */
  lemma SetThenGetConfig(config: map<string, Value>, path: string, val: Value, default: Value)
    requires SetConfig(config, path, val).Success?
    ensures GetConfig(SetConfig(config, path, val).value, path, default) == val
  {
    var keys := SplitOn(path, '.');
    SetPathThenWalk(Obj(config), keys, val);
    ResolveIsWalk(Obj(SetConfig(config, path, val).value), keys, default);
  }

  /** `setConfig` touches only the first segment of the path at the top level: every other key keeps its value. */
  lemma SetConfigFrame(config: map<string, Value>, path: string, val: Value)
    requires SetConfig(config, path, val).Success?
    ensures var r := SetConfig(config, path, val).value; var head := SplitOn(path, '.')[0];
      && r.Keys == config.Keys + {head}
      && forall k :: k in config && k != head ==> r[k] == config[k]
  {
  }

  /** A missing or non-object intermediate is replaced by a fresh object holding only the rest of the path. */
  lemma SetConfigCreatesIntermediate(config: map<string, Value>, a: string, b: string, val: Value)
    requires '.' !in a && '.' !in b
    requires a !in config || !IsObjectType(config[a])
    ensures SetConfig(config, a + "." + b, val) == Success(config[a := Obj(map[b := val])])
  {
    SplitPath2(a, b);
    assert [a, b][1..] == [b];
    assert SetPath(Obj(map[]), [b], val) == Success(Obj(map[b := val]));
  }

  /** A `null` intermediate makes `setConfig` throw a TypeError. */
  lemma SetConfigThrowsAtNull(config: map<string, Value>, a: string, b: string, val: Value)
    requires '.' !in a && '.' !in b
    requires a in config && config[a].Null?
    ensures SetConfig(config, a + "." + b, val).Failure?
    ensures SetConfig(config, a + "." + b, val).error.TypeError?
  {
    SplitPath2(a, b);
    assert [a, b][1..] == [b];
    assert SetPath(Null, [b], val).Failure?;
  }

  /** `setConfig` fails only when the update is blocked by a `null` or by a non-index name on an array, and
      throws the TypeError exactly when a `null` is on the way. */
  lemma SetConfigFailsIff(config: map<string, Value>, path: string, val: Value)
    ensures var keys := SplitOn(path, '.');
      && (SetConfig(config, path, val).Failure? <==> Blocked(Obj(config), keys))
      && (SetConfig(config, path, val).Failure? ==>
            (SetConfig(config, path, val).error.TypeError? <==> NullOnPath(Obj(config), keys)))
  {
    var keys := SplitOn(path, '.');
    SetPathFailure(Obj(config), keys, val);
    SetPathKeepsKind(Obj(config), keys, val);
  }
}

=== FILE: forms.dfy ===
/** `FormManager`: turning a submitted form into the record sent to the
    backend, field and form validation, drafts in storage and the outcome of a
    submission.

    A form is seen through what the code reads from it: the `FormData` entries
    (name/value strings in document order), the inputs with their name, type,
    value and `required` flag, and the input values by name. The date check
    depends on the clock and is a parameter.
 */
module Forms {
  import opened Wrappers
  import opened Text
  import opened Numbers
  import opened JsValue
  import opened Config
  import opened Query
  import Storage
  import Utils
  import Tabs
  import Charts
  import Api

  // ---------------------------------------------------------------------------
  // prepareFormData

  /** `Object.fromEntries(formData.entries())`: every value a string, a repeated name keeps its first
      position and its last value. */
  function FormEntries(pairs: seq<(string, string)>): Entries {
    Merge([], StrEntries(pairs))
  }

  function StrEntries(pairs: seq<(string, string)>): (r: Entries)
    ensures |r| == |pairs| && forall i :: 0 <= i < |r| ==> r[i] == (pairs[i].0, Str(pairs[i].1))
  {
    seq(|pairs|, i requires 0 <= i < |pairs| => (pairs[i].0, Str(pairs[i].1)))
  }

  /** `parseFloat(x) || 0`. */
  function FloatOrZero(x: Value): Value {
    match ParseFloatOf(x)
    case Some(n) => if n != 0.0 then Num(n) else Num(0.0)
    case None => Num(0.0)
  }

  /** `parseFloat(x) || null`. */
  function FloatOrNull(x: Value): Value {
    match ParseFloatOf(x)
    case Some(n) => if n != 0.0 then Num(n) else Null
    case None => Null
  }

  /** `parseInt(x) || 0`. */
  function IntOrZero(x: Value): Value {
    match ParseIntOf(x)
    case Some(n) => if n != 0 then Num(n as real) else Num(0.0)
    case None => Num(0.0)
  }

  /** `parseInt(x) || null`. */
  function IntOrNull(x: Value): Value {
    match ParseIntOf(x)
    case Some(n) => if n != 0 then Num(n as real) else Null
    case None => Null
  }

  /** `if (data[k]) data[k] = convert(data[k])`. */
  function ConvertIfTruthy(data: Entries, k: string, float: bool): Entries {
    if Truthy(Read(data, k)) then
      SetEntry(data, k, if float then FloatOrNull(Read(data, k)) else IntOrNull(Read(data, k)))
    else data
  }

  /** The per-sheet conversions of the `switch (sheetName)`. */
  function Typed(data: Entries, sheet: string): Entries {
    if sheet == "expense" then TypedExpense(data)
    else if sheet == "weight" then TypedWeight(data)
    else if sheet == "blood pressure" then TypedBloodPressure(data)
    else data
  }

  function TypedExpense(data: Entries): Entries {
    SetEntry(data, "amount", FloatOrZero(Read(data, "amount")))
  }

  function TypedWeight(data: Entries): Entries {
    ConvertIfTruthy(SetEntry(data, "weight", FloatOrZero(Read(data, "weight"))), "waist", true)
  }

  function TypedBloodPressure(data: Entries): Entries {
    var d := SetEntry(data, "systolic", IntOrZero(Read(data, "systolic")));
    ConvertIfTruthy(SetEntry(d, "diastolic", IntOrZero(Read(d, "diastolic"))), "pulse", false)
  }

  /** `''`, `null` and `undefined`, the values the cleanup deletes. */
  predicate IsBlank(v: Value) {
    v == Str("") || v.Null? || v.Undefined?
  }

  /** Deleting every property whose value is blank. */
  function Clean(e: Entries): (r: Entries)
    ensures forall i :: 0 <= i < |r| ==> !IsBlank(r[i].1)
    ensures |r| <= |e|
  {
    if |e| == 0 then []
    else (if IsBlank(e[0].1) then [] else [e[0]]) + Clean(e[1..])
  }

  /** `prepareFormData(formData, sheetName)`. */
  function PrepareFormData(pairs: seq<(string, string)>, sheet: string): Entries {
    Clean(Typed(FormEntries(pairs), sheet))
  }

  /** What a lookup finds after the cleanup. */
  function CleanedLookup(v: Option<Value>): Option<Value> {
    match v
    case Some(x) => if IsBlank(x) then None else Some(x)
    case None => None
  }

  lemma {:induction false} CleanMembers(e: Entries)
    ensures forall p :: p in Clean(e) <==> p in e && !IsBlank(p.1)
    decreases |e|
  {
    if |e| > 0 {
      CleanMembers(e[1..]);
      assert e == [e[0]] + e[1..];
    }
  }

  /** Cleanup never repeats a name. */
  lemma {:induction false} CleanDistinct(e: Entries)
    requires DistinctKeys(e)
    ensures DistinctKeys(Clean(e))
    decreases |e|
  {
    if |e| > 0 {
      var tail := e[1..];
      assert DistinctKeys(tail);
      CleanDistinct(tail);
      CleanMembers(tail);
      var rest := Clean(tail);
      if IsBlank(e[0].1) {
        assert Clean(e) == rest;
      } else {
        var r := [e[0]] + rest;
        assert Clean(e) == r;
        forall j | 0 <= j < |rest| ensures e[0].0 != rest[j].0 {
          assert rest[j] in tail;
          var m :| 0 <= m < |tail| && tail[m] == rest[j];
          assert e[m + 1] == rest[j];
        }
        forall i, j | 0 <= i < j < |r| ensures r[i].0 != r[j].0 {
          assert r[j] == rest[j - 1];
          if i > 0 {
            assert r[i] == rest[i - 1];
          }
        }
      }
    }
  }

  /** Cleanup keeps every name with a non-blank value with that value and drops the rest. */
  lemma {:induction false} CleanLookup(e: Entries, k: string)
    requires DistinctKeys(e)
    ensures Lookup(Clean(e), k) == CleanedLookup(Lookup(e, k))
    decreases |e|
  {
    if |e| > 0 {
      var tail := e[1..];
      assert DistinctKeys(tail);
      CleanLookup(tail, k);
      var rest := Clean(tail);
      assert e == [e[0]] + tail;
      LookupCons(e[0], tail, k);
      if e[0].0 == k {
        assert Lookup(tail, k) == None by {
          forall j | 0 <= j < |tail| ensures tail[j].0 != k {
            assert tail[j] == e[j + 1];
          }
        }
      }
      if IsBlank(e[0].1) {
        assert Clean(e) == rest;
      } else {
        assert Clean(e) == [e[0]] + rest;
        LookupCons(e[0], rest, k);
      }
    }
  }

  /** The entries of the form repeat no name, and each name reads its last value. */
  lemma FormEntriesSpec(pairs: seq<(string, string)>, k: string)
    ensures DistinctKeys(FormEntries(pairs))
    ensures Lookup(FormEntries(pairs), k) == LastLookup(StrEntries(pairs), k)
  {
    MergeSpec([], StrEntries(pairs), k);
  }

  /** The names the conversions touch. */
  predicate TypedName(k: string) {
    k in {"amount", "weight", "waist", "systolic", "diastolic", "pulse"}
  }

  /** `SetEntry` twice, and the conditional conversion, keep names distinct and leave other names alone. */
  lemma ConvertFrame(e: Entries, k: string, float: bool, other: string)
    requires DistinctKeys(e)
    ensures DistinctKeys(ConvertIfTruthy(e, k, float))
    ensures other != k ==> Lookup(ConvertIfTruthy(e, k, float), other) == Lookup(e, other)
    ensures Lookup(ConvertIfTruthy(e, k, float), k) ==
      if Truthy(Read(e, k)) then Some(if float then FloatOrNull(Read(e, k)) else IntOrNull(Read(e, k))) else Lookup(e, k)
  {
    if Truthy(Read(e, k)) {
      SetEntrySpec(e, k, if float then FloatOrNull(Read(e, k)) else IntOrNull(Read(e, k)));
    }
  }

  /** The conversions leave every other name as it reads and repeat no name. */
  lemma TypedFrame(e: Entries, sheet: string, k: string)
    requires DistinctKeys(e)
    ensures DistinctKeys(Typed(e, sheet))
    ensures !TypedName(k) ==> Lookup(Typed(e, sheet), k) == Lookup(e, k)
  {
    if sheet == "expense" {
      SetEntrySpec(e, "amount", FloatOrZero(Read(e, "amount")));
    } else if sheet == "weight" {
      WeightFrame(e, k);
    } else if sheet == "blood pressure" {
      BloodPressureFrame(e, k);
    }
  }

  lemma WeightFrame(e: Entries, k: string)
    requires DistinctKeys(e)
    ensures DistinctKeys(TypedWeight(e))
    ensures !TypedName(k) ==> Lookup(TypedWeight(e), k) == Lookup(e, k)
  {
    var d := SetEntry(e, "weight", FloatOrZero(Read(e, "weight")));
    SetEntrySpec(e, "weight", FloatOrZero(Read(e, "weight")));
    ConvertFrame(d, "waist", true, k);
  }

  lemma BloodPressureFrame(e: Entries, k: string)
    requires DistinctKeys(e)
    ensures DistinctKeys(TypedBloodPressure(e))
    ensures !TypedName(k) ==> Lookup(TypedBloodPressure(e), k) == Lookup(e, k)
  {
    var d := SetEntry(e, "systolic", IntOrZero(Read(e, "systolic")));
    SetEntrySpec(e, "systolic", IntOrZero(Read(e, "systolic")));
    var d2 := SetEntry(d, "diastolic", IntOrZero(Read(d, "diastolic")));
    SetEntrySpec(d, "diastolic", IntOrZero(Read(d, "diastolic")));
    ConvertFrame(d2, "pulse", false, k);
  }

  /** A name no conversion touches survives exactly when its last value is not empty. */
  lemma PrepareKeepsOtherFields(pairs: seq<(string, string)>, sheet: string, k: string)
    requires !TypedName(k)
    ensures Lookup(PrepareFormData(pairs, sheet), k) ==
      match LastLookup(StrEntries(pairs), k) case Some(v) => (if v == Str("") then None else Some(v)) case None => None
  {
    var e := FormEntries(pairs);
    FormEntriesSpec(pairs, k);
    LastLookupIsStr(StrEntries(pairs), k);
    var t := Typed(e, sheet);
    TypedFrame(e, sheet, k);
    CleanLookup(t, k);
    assert PrepareFormData(pairs, sheet) == Clean(t);
  }

  /** For an expense the amount is always sent: the number entered, or 0 when it is missing or unparsable. */
  lemma PrepareExpenseAmount(pairs: seq<(string, string)>)
    ensures var amount := Read(FormEntries(pairs), "amount");
      Lookup(PrepareFormData(pairs, "expense"), "amount") ==
        Some(match ParseFloatOf(amount) case Some(n) => Num(n) case None => Num(0.0))
  {
    var e := FormEntries(pairs);
    FormEntriesSpec(pairs, "amount");
    var v := FloatOrZero(Read(e, "amount"));
    var t := SetEntry(e, "amount", v);
    assert Typed(e, "expense") == t;
    assert PrepareFormData(pairs, "expense") == Clean(t);
    SetEntryReadsNew(e, "amount", v);
    SetEntryKeys(e, "amount", v);
    CleanLookup(t, "amount");
    CleanedAmount(Read(e, "amount"));
  }

  /** `parseFloat(x) || 0` always survives the cleanup. */
  lemma CleanedAmount(x: Value)
    ensures CleanedLookup(Some(FloatOrZero(x))) == Some(match ParseFloatOf(x) case Some(n) => Num(n) case None => Num(0.0))
  {
    assert !IsBlank(FloatOrZero(x));
  }

  /** For a weight record the waist is sent only when it parses to a non-zero number; an unparsable waist
      becomes `null` and is then deleted. */
  lemma PrepareWeightWaist(pairs: seq<(string, string)>)
    ensures var waist := Read(FormEntries(pairs), "waist");
      Lookup(PrepareFormData(pairs, "weight"), "waist") ==
        if Truthy(waist) && ParseFloatOf(waist).Some? && ParseFloatOf(waist).value != 0.0
        then Some(Num(ParseFloatOf(waist).value)) else None
  {
    var e := FormEntries(pairs);
    FormEntriesSpec(pairs, "waist");
    FormValuesAreStrings(pairs, "waist");
    var v := FloatOrZero(Read(e, "weight"));
    var d := SetEntry(e, "weight", v);
    SetEntryFrame(e, "weight", v, "waist");
    SetEntryKeys(e, "weight", v);
    assert Read(d, "waist") == Read(e, "waist");
    ConvertFrame(d, "waist", true, "waist");
    var t := TypedWeight(e);
    assert Typed(e, "weight") == t;
    assert PrepareFormData(pairs, "weight") == Clean(t);
    CleanLookup(t, "waist");
    CleanedWaist(Lookup(e, "waist"));
  }

  /** What the cleanup leaves of a form's waist after the truthy-guarded `parseFloat(x) || null`. */
  lemma CleanedWaist(l: Option<Value>)
    requires l.Some? ==> l.value.Str?
    ensures var w := match l case Some(x) => x case None => Undefined;
      CleanedLookup(if Truthy(w) then Some(FloatOrNull(w)) else l) ==
        if Truthy(w) && ParseFloatOf(w).Some? && ParseFloatOf(w).value != 0.0
        then Some(Num(ParseFloatOf(w).value)) else None
  {
  }

  /** Every value of the form entries is a string. */
  lemma FormValuesAreStrings(pairs: seq<(string, string)>, k: string)
    ensures Lookup(FormEntries(pairs), k).Some? ==> Lookup(FormEntries(pairs), k).value.Str?
  {
    FormEntriesSpec(pairs, k);
    LastLookupIsStr(StrEntries(pairs), k);
  }

  lemma {:induction false} LastLookupIsStr(e: Entries, k: string)
    requires forall i :: 0 <= i < |e| ==> e[i].1.Str?
    ensures LastLookup(e, k).Some? ==> LastLookup(e, k).value.Str?
    decreases |e|
  {
    if |e| > 0 {
      LastLookupIsStr(e[1..], k);
    }
  }

  /** For a blood-pressure record both readings are always sent, as the integer entered or 0 when it is
      missing or unparsable. */
  lemma PrepareBloodPressure(pairs: seq<(string, string)>)
    ensures var e := FormEntries(pairs);
      var r := PrepareFormData(pairs, "blood pressure");
      && Lookup(r, "systolic") == Some(IntOrZero(Read(e, "systolic")))
      && Lookup(r, "diastolic") == Some(IntOrZero(Read(e, "diastolic")))
  {
    var e := FormEntries(pairs);
    FormEntriesSpec(pairs, "pulse");
    var t := TypedBloodPressure(e);
    TypedBloodPressureSheet(e);
    BloodPressureReadings(e);
    CleanLookup(t, "systolic");
    CleanLookup(t, "diastolic");
  }

  /** The pulse is sent only when it parses to a non-zero integer. */
  lemma PreparePulse(pairs: seq<(string, string)>)
    ensures var pulse := Read(FormEntries(pairs), "pulse");
      Lookup(PrepareFormData(pairs, "blood pressure"), "pulse") ==
        if Truthy(pulse) && ParseIntOf(pulse).Some? && ParseIntOf(pulse).value != 0
        then Some(Num(ParseIntOf(pulse).value as real)) else None
  {
    var e := FormEntries(pairs);
    FormEntriesSpec(pairs, "pulse");
    FormValuesAreStrings(pairs, "pulse");
    TypedBloodPressureSheet(e);
    CleanedPulse(e);
  }

  lemma CleanedPulse(e: Entries)
    requires DistinctKeys(e)
    requires Lookup(e, "pulse").Some? ==> Lookup(e, "pulse").value.Str?
    ensures var pulse := Read(e, "pulse");
      Lookup(Clean(TypedBloodPressure(e)), "pulse") ==
        if Truthy(pulse) && ParseIntOf(pulse).Some? && ParseIntOf(pulse).value != 0
        then Some(Num(ParseIntOf(pulse).value as real)) else None
  {
    var t := TypedBloodPressure(e);
    BloodPressureReadings(e);
    CleanLookup(t, "pulse");
    var pulse := Read(e, "pulse");
    if Truthy(pulse) {
      CleanedIntOrNull(pulse);
    } else {
      FalsyStringIsBlank(Lookup(e, "pulse"));
    }
  }

  /** A missing or empty form value does not survive the cleanup. */
  lemma FalsyStringIsBlank(v: Option<Value>)
    requires v.Some? ==> v.value.Str?
    requires !Truthy(match v case Some(x) => x case None => Undefined)
    ensures CleanedLookup(v) == None
  {
  }

  /** An integer conversion survives the cleanup exactly when it is a non-zero integer. */
  lemma CleanedIntOrNull(x: Value)
    ensures CleanedLookup(Some(IntOrNull(x))) ==
      if ParseIntOf(x).Some? && ParseIntOf(x).value != 0 then Some(Num(ParseIntOf(x).value as real)) else None
  {
    match ParseIntOf(x)
    case Some(n) =>
    case None =>
  }

  lemma TypedBloodPressureSheet(e: Entries)
    ensures Typed(e, "blood pressure") == TypedBloodPressure(e)
  {
    assert |"blood pressure"| == 14 && |"expense"| == 7 && |"weight"| == 6;
  }

  lemma BloodPressureReadings(e: Entries)
    requires DistinctKeys(e)
    ensures var t := TypedBloodPressure(e);
      && DistinctKeys(t)
      && Lookup(t, "systolic") == Some(IntOrZero(Read(e, "systolic")))
      && Lookup(t, "diastolic") == Some(IntOrZero(Read(e, "diastolic")))
      && Lookup(t, "pulse") == if Truthy(Read(e, "pulse")) then Some(IntOrNull(Read(e, "pulse"))) else Lookup(e, "pulse")
  {
    var sys := IntOrZero(Read(e, "systolic"));
    var d := SetEntry(e, "systolic", sys);
    SetEntryReadsNew(e, "systolic", sys);
    SetEntryFrame(e, "systolic", sys, "diastolic");
    SetEntryFrame(e, "systolic", sys, "pulse");
    SetEntryKeys(e, "systolic", sys);
    var dia := IntOrZero(Read(d, "diastolic"));
    var d2 := SetEntry(d, "diastolic", dia);
    SetEntryReadsNew(d, "diastolic", dia);
    SetEntryFrame(d, "diastolic", dia, "systolic");
    SetEntryFrame(d, "diastolic", dia, "pulse");
    SetEntryKeys(d, "diastolic", dia);
    ConvertFrame(d2, "pulse", false, "systolic");
    ConvertFrame(d2, "pulse", false, "diastolic");
  }

  /** Nothing blank is ever sent. */
  lemma PrepareHasNoBlanks(pairs: seq<(string, string)>, sheet: string)
    ensures forall i :: 0 <= i < |PrepareFormData(pairs, sheet)| ==> !IsBlank(PrepareFormData(pairs, sheet)[i].1)
  {
  }

  // ---------------------------------------------------------------------------
  // validation

  /** `getValidationRules(fieldName)`: the expense table first, then weight, then blood pressure. */
  function GetValidationRules(name: string): (r: Option<Rule>)
    ensures r.None? <==> name !in ExpenseRules && name !in WeightRules && name !in BloodPressureRules
    ensures r.Some? ==> r.value == (if name in ExpenseRules then ExpenseRules[name]
                                    else if name in WeightRules then WeightRules[name]
                                    else BloodPressureRules[name])
  {
    if name in ExpenseRules then Some(ExpenseRules[name])
    else if name in WeightRules then Some(WeightRules[name])
    else if name in BloodPressureRules then Some(BloodPressureRules[name])
    else None
  }

  /** No field name is in two tables, so the search order never matters, and every rule found is well formed. */
  lemma ValidationTablesDisjoint(name: string)
    ensures !(name in ExpenseRules && name in WeightRules)
    ensures !(name in ExpenseRules && name in BloodPressureRules)
    ensures !(name in WeightRules && name in BloodPressureRules)
    ensures GetValidationRules(name).Some? ==> GetValidationRules(name).value.min <= GetValidationRules(name).value.max
  {
    ValidationRulesWellFormed();
  }

  datatype InputType = NumberInput | DateInput | OtherInput

  datatype Input = Input(name: string, kind: InputType, value: string, required: bool)

  /** The outcome of validating one field: it passes, or carries the error message shown under it. */
  datatype Verdict = Pass | Fail(message: string)

  const RequiredMessage: string := "此欄位為必填"
  const InvalidNumberMessage: string := "請輸入有效的數字"

  function RangeMessage(r: Rule): string {
    "數值應在 " + DisplayNumber(r.min) + " 到 " + DisplayNumber(r.max) + " 之間"
  }

  /** `validateField(input)`; `dateCheck` stands for the comparison against today for date fields. */
  function ValidateField(input: Input, dateCheck: string -> Verdict): Verdict {
    var value := Trim(input.value);
    if input.required && value == "" then Fail(RequiredMessage)
    else if value == "" then Pass
    else if input.kind == NumberInput then
      match ParseFloat(value)
      case None => Fail(InvalidNumberMessage)
      case Some(n) =>
        match GetValidationRules(input.name)
        case Some(r) => if !Utils.IsNumberInRange(Num(n), r.min, r.max) then Fail(RangeMessage(r)) else Pass
        case None => Pass
    else if input.kind == DateInput then dateCheck(value)
    else Pass
  }

  /** The decision order: a required blank field fails, any other blank field passes; a number field fails
      when it does not parse and when it lies outside its rule's inclusive range, and passes otherwise. */
  lemma ValidateFieldOrder(input: Input, dateCheck: string -> Verdict)
    ensures var t := Trim(input.value);
      && (t == "" ==> ValidateField(input, dateCheck) == if input.required then Fail(RequiredMessage) else Pass)
      && (t != "" && input.kind == NumberInput && ParseFloat(t).None? ==> ValidateField(input, dateCheck) == Fail(InvalidNumberMessage))
      && (t != "" && input.kind == NumberInput && ParseFloat(t).Some? ==>
            var n := ParseFloat(t).value;
            ValidateField(input, dateCheck) ==
              match GetValidationRules(input.name)
              case Some(r) => if r.min <= n <= r.max then Pass else Fail(RangeMessage(r))
              case None => Pass)
      && (t != "" && input.kind == OtherInput ==> ValidateField(input, dateCheck) == Pass)
  {
    var t := Trim(input.value);
    if t != "" && input.kind == NumberInput && ParseFloat(t).Some? {
      match GetValidationRules(input.name)
      case Some(r) => Utils.NumberInRangeInclusive(ParseFloat(t).value, r.min, r.max);
      case None =>
    }
  }

  /** A number field that passes holds a number, and that number lies inside its rule's range. */
  lemma PassedNumberInRange(input: Input, dateCheck: string -> Verdict)
    requires input.kind == NumberInput && Trim(input.value) != ""
    requires ValidateField(input, dateCheck) == Pass
    ensures ParseFloat(Trim(input.value)).Some?
    ensures var n := ParseFloat(Trim(input.value)).value;
      GetValidationRules(input.name).Some? ==> GetValidationRules(input.name).value.min <= n <= GetValidationRules(input.name).value.max
  {
    ValidateFieldOrder(input, dateCheck);
  }

  /** A required field that passes is not blank. */
  lemma PassedRequiredIsNotBlank(input: Input, dateCheck: string -> Verdict)
    requires input.required && ValidateField(input, dateCheck) == Pass
    ensures !AllSpace(input.value)
  {
    TrimSpec(input.value);
  }

  /** The required inputs, in document order: `input[required], select[required]`. */
  function RequiredInputs(inputs: seq<Input>): (r: seq<Input>)
    ensures forall x :: x in r <==> x in inputs && x.required
  {
    if |inputs| == 0 then []
    else
      assert inputs == [inputs[0]] + inputs[1..];
      (if inputs[0].required then [inputs[0]] else []) + RequiredInputs(inputs[1..])
  }

  /** Every required input passes. */
  predicate FormValid(inputs: seq<Input>, dateCheck: string -> Verdict) {
    forall x :: x in inputs && x.required ==> ValidateField(x, dateCheck) == Pass
  }

  /** Whether every verdict is a pass; all of them are looked at. */
  method AllPass(verdicts: seq<Verdict>) returns (ok: bool)
    ensures ok <==> forall i :: 0 <= i < |verdicts| ==> verdicts[i] == Pass
  {
    ok := true;
    var j := 0;
    while j < |verdicts|
      invariant 0 <= j <= |verdicts|
      invariant ok <==> forall i :: 0 <= i < j ==> verdicts[i] == Pass
    {
      if verdicts[j] != Pass {
        ok := false;
      }
      j := j + 1;
    }
  }

  /** Runs `check` on every input in order and collects the verdicts. */
  method CheckAll(req: seq<Input>, check: Input -> Verdict) returns (verdicts: seq<Verdict>)
    ensures |verdicts| == |req| && forall j :: 0 <= j < |req| ==> verdicts[j] == check(req[j])
  {
    verdicts := [];
    var j := 0;
    while j < |req|
      invariant 0 <= j <= |req| && |verdicts| == j
      invariant forall i :: 0 <= i < j ==> verdicts[i] == check(req[i])
    {
      verdicts := verdicts + [check(req[j])];
      j := j + 1;
    }
  }

  /** `validateForm(form)`: every required input is validated, one verdict each in order, with no
      short-circuit; the form is valid iff all of them pass. */
  method ValidateForm(inputs: seq<Input>, dateCheck: string -> Verdict) returns (isValid: bool, verdicts: seq<Verdict>)
    ensures var req := RequiredInputs(inputs);
      |verdicts| == |req| && forall j :: 0 <= j < |req| ==> verdicts[j] == ValidateField(req[j], dateCheck)
    ensures isValid <==> FormValid(inputs, dateCheck)
  {
    var req := RequiredInputs(inputs);
    var check := x => ValidateField(x, dateCheck);
    verdicts := CheckAll(req, check);
    isValid := AllPass(verdicts);
    VerdictsAllPass(req, verdicts, check);
    assert (forall x :: x in req ==> check(x) == Pass) <==> FormValid(inputs, dateCheck);
  }

  /** The verdicts of `check` on `req` all pass exactly when `check` passes every member of `req`. */
  lemma VerdictsAllPass(req: seq<Input>, verdicts: seq<Verdict>, check: Input -> Verdict)
    requires |verdicts| == |req| && forall j :: 0 <= j < |req| ==> verdicts[j] == check(req[j])
    ensures (forall i :: 0 <= i < |verdicts| ==> verdicts[i] == Pass) <==> forall x :: x in req ==> check(x) == Pass
  {
    if forall i :: 0 <= i < |verdicts| ==> verdicts[i] == Pass {
      forall x | x in req ensures check(x) == Pass {
        var i :| 0 <= i < |req| && req[i] == x;
        assert verdicts[i] == Pass;
      }
    } else {
      var i :| 0 <= i < |verdicts| && verdicts[i] != Pass;
      assert req[i] in req;
    }
  }

  // ---------------------------------------------------------------------------
  // drafts

  const DraftPrefix: string := "draft_"

  function DraftKey(formId: string): string {
    DraftPrefix + formId
  }

  /** `Object.fromEntries(formData.entries())` as a stored object: the last value of each name. */
  function EntriesObject(pairs: seq<(string, string)>): (r: map<string, Value>)
    ensures forall k :: k in r ==> r[k].Str?
    decreases |pairs|
  {
    if |pairs| == 0 then map[]
    else
      var n := |pairs| - 1;
      EntriesObject(pairs[..n])[pairs[n].0 := Str(pairs[n].1)]
  }

  /** `saveFormData(form)`: nothing when `AUTO_SAVE` is off. */
  function SaveFormData(store: Storage.Store, autoSave: bool, formId: string, pairs: seq<(string, string)>): Storage.Store {
    if !autoSave then store
    else Storage.Set(store, DraftKey(formId), Obj(EntriesObject(pairs)))
  }

  /** `loadFormData(form)` over the input values by name: only inputs whose saved value is truthy change. */
  function LoadFormData(store: Storage.Store, autoSave: bool, formId: string, fields: map<string, string>): (r: map<string, string>)
    ensures r.Keys == fields.Keys
  {
    if !autoSave then fields
    else
      var saved := Storage.Get(store, DraftKey(formId), Null);
      if !Truthy(saved) then fields
      else match saved
        case Obj(f) => map k | k in fields :: if k in f && Truthy(f[k]) then DisplayString(f[k]) else fields[k]
        case _ => fields
  }

  /** `clearFormData(form)`. */
  function ClearFormData(store: Storage.Store, formId: string): (r: Storage.Store)
    ensures DraftKey(formId) !in r
  {
    Storage.Remove(store, DraftKey(formId))
  }

  /** With `AUTO_SAVE` off, saving and loading change nothing; the shipped configuration has it off. */
  lemma DraftsDisabled(store: Storage.Store, formId: string, pairs: seq<(string, string)>, fields: map<string, string>)
    ensures SaveFormData(store, false, formId, pairs) == store
    ensures LoadFormData(store, false, formId, fields) == fields
    ensures AutoSave == false
  {
  }

  /** Loading a just-saved draft restores every input whose saved text is non-empty and leaves the rest. */
  lemma DraftRoundTrip(store: Storage.Store, formId: string, pairs: seq<(string, string)>, fields: map<string, string>)
    ensures var saved := EntriesObject(pairs);
      LoadFormData(SaveFormData(store, true, formId, pairs), true, formId, fields) ==
        map k | k in fields :: if k in saved && saved[k] != Str("") then saved[k].s else fields[k]
  {
    var saved := EntriesObject(pairs);
    assert Storage.JsonClean(Obj(saved));
    Storage.GetAfterSet(store, DraftKey(formId), Obj(saved), Null);
  }

  /** After clearing, loading changes nothing. */
  lemma ClearedDraftLoadsNothing(store: Storage.Store, autoSave: bool, formId: string, fields: map<string, string>)
    ensures LoadFormData(ClearFormData(store, formId), autoSave, formId, fields) == fields
  {
  }

  /** Drafts of different forms do not interfere. */
  lemma DraftsPerForm(store: Storage.Store, a: string, b: string, pairs: seq<(string, string)>, fields: map<string, string>)
    requires a != b
    ensures LoadFormData(SaveFormData(store, true, a, pairs), true, b, fields) == LoadFormData(store, true, b, fields)
    ensures LoadFormData(ClearFormData(store, a), true, b, fields) == LoadFormData(store, true, b, fields)
  {
    assert DraftKey(a)[|DraftPrefix|..] == a;
    assert DraftKey(b)[|DraftPrefix|..] == b;
    Storage.OtherKeysUnaffected(store, DraftKey(a), DraftKey(b), Obj(EntriesObject(pairs)), Null);
  }

  // ---------------------------------------------------------------------------
  // submitForm

  /** The notice shown after a submission. */
  datatype Toast = SavedToast(text: string) | ErrorToast(text: string)

  /** What a submission leaves behind: the request sent (if any), the notice, whether the form was reset,
      the storage, the API cache, the chart loads `reloadCharts` started, and the loading state at the end. */
  datatype SubmitOutcome = SubmitOutcome(sent: Option<Entries>, toast: Toast, reset: bool, store: Storage.Store,
                                         cache: Api.Cache, loads: seq<Tabs.ChartLoad>, loading: bool)

  /** `reloadCharts(sheetName)`: the loader of the sheet's chart; the loaders' own errors are swallowed. */
  function ReloadCharts(sheet: string): (r: seq<Tabs.ChartLoad>)
    ensures |r| <= 1
    ensures |r| == 1 <==> sheet in {"expense", "weight", "blood pressure"}
  {
    if sheet == "expense" then [Tabs.ExpenseCharts]
    else if sheet == "weight" then [Tabs.WeightChart]
    else if sheet == "blood pressure" then [Tabs.BpChart]
    else []
  }

  /** Each sheet reloads the chart its tab loads. */
  lemma ReloadMatchesTabs()
    ensures ReloadCharts("expense") == Tabs.LoadFor(Tabs.ExpenseTab)
    ensures ReloadCharts("weight") == Tabs.LoadFor(Tabs.WeightTab)
    ensures ReloadCharts("blood pressure") == Tabs.LoadFor(Tabs.BpTab)
  {
  }

  const ValidationFailedMessage: string := "表單驗證失敗"
  const SubmitFailedMessage: string := "提交失敗"

  /** `error.message || CONFIG.ERROR_MESSAGES.UNKNOWN_ERROR`. */
  function ErrorText(message: string): string {
    if message == "" then UnknownErrorMessage else message
  }

  /** `submitForm(form, sheetName)`; `send` is `API.saveData`, resolving to the response or rejecting with
      an error message. `saveData` goes through `request`, so the API cache is left as it was. */
  function SubmitForm(inputs: seq<Input>, pairs: seq<(string, string)>, sheet: string, formId: string,
                      store: Storage.Store, cache: Api.Cache, send: Entries -> Result<Value, string>,
                      dateCheck: string -> Verdict): SubmitOutcome {
    if !FormValid(inputs, dateCheck) then
      SubmitOutcome(None, ErrorToast(ErrorText(ValidationFailedMessage)), false, store, cache, [], false)
    else
      var request := Api.SaveDataParams(sheet, PrepareFormData(pairs, sheet));
      match send(request)
      case Failure(m) => SubmitOutcome(Some(request), ErrorToast(ErrorText(m)), false, store, cache, [], false)
      case Success(response) =>
        match GetProp(response, "success")
        case Failure(m) => SubmitOutcome(Some(request), ErrorToast(ErrorText(m)), false, store, cache, [], false)
        case Success(ok) =>
          if Truthy(ok) then
            SubmitOutcome(Some(request), SavedToast(DataSavedMessage), true, ClearFormData(store, formId), cache,
                          ReloadCharts(sheet), false)
          else
            var err := Property(response, "error");
            var message := if Truthy(err) then DisplayString(err) else SubmitFailedMessage;
            SubmitOutcome(Some(request), ErrorToast(ErrorText(message)), false, store, cache, [], false)
  }

  /** Nothing is sent unless the form is valid; the form is reset, its draft cleared and the sheet's charts
      reloaded exactly when the response has a truthy `success`, and storage is otherwise untouched; the API
      cache is never touched; loading always ends. */
  lemma SubmitOutcomeSpec(inputs: seq<Input>, pairs: seq<(string, string)>, sheet: string, formId: string,
                          store: Storage.Store, cache: Api.Cache, send: Entries -> Result<Value, string>,
                          dateCheck: string -> Verdict)
    ensures var o := SubmitForm(inputs, pairs, sheet, formId, store, cache, send, dateCheck);
      var request := Api.SaveDataParams(sheet, PrepareFormData(pairs, sheet));
      && !o.loading
      && o.cache == cache
      && (o.sent.Some? <==> FormValid(inputs, dateCheck))
      && (o.sent.Some? ==> o.sent.value == request)
      && (o.reset <==> FormValid(inputs, dateCheck) && send(request).Success? &&
                       !send(request).value.Null? && !send(request).value.Undefined? &&
                       Truthy(Property(send(request).value, "success")))
      && (o.reset ==> o.store == ClearFormData(store, formId) && o.toast == SavedToast(DataSavedMessage))
      && (!o.reset ==> o.store == store && o.toast.ErrorToast? && o.toast.text != "")
      && o.loads == (if o.reset then ReloadCharts(sheet) else [])
  {
  }

  /** As written, the reload after a successful save reads through `requestWithCache`: a key the reloaded
      chart reads that still holds a truthy, unexpired value is served from the cache without calling the
      API, so the chart is drawn from the data cached before the save. */
  lemma SubmitReloadServesCache(inputs: seq<Input>, pairs: seq<(string, string)>, sheet: string, formId: string,
                                store: Storage.Store, cache: Api.Cache, send: Entries -> Result<Value, string>,
                                dateCheck: string -> Verdict,
                                key: string, call: Result<Value, Value>, ttl: int, now: int, nowAfter: int)
    requires SubmitForm(inputs, pairs, sheet, formId, store, cache, send, dateCheck).reset
    requires key in Charts.LoadKeys(ReloadCharts(sheet))
    requires Truthy(Api.CacheGet(cache, key, now).value)
    ensures var o := SubmitForm(inputs, pairs, sheet, formId, store, cache, send, dateCheck);
      var read := Api.RequestWithCache(o.cache, o.store, key, call, ttl, now, nowAfter);
      && |o.loads| == 1
      && read == Api.CachedResult(Success(Api.CacheGet(cache, key, now).value), cache, false)
  {
    SubmitOutcomeSpec(inputs, pairs, sheet, formId, store, cache, send, dateCheck);
  }

  /** `submitForm` as evidently intended: after a successful save, the cache keys the reload reads are cleared
      before the reload, as the `tabChanged` listener clears a tab's keys. Everything else is as written. */
  function SubmitFormFixed(inputs: seq<Input>, pairs: seq<(string, string)>, sheet: string, formId: string,
                           store: Storage.Store, cache: Api.Cache, send: Entries -> Result<Value, string>,
                           dateCheck: string -> Verdict): (r: SubmitOutcome)
    ensures var o := SubmitForm(inputs, pairs, sheet, formId, store, cache, send, dateCheck);
      && r.(cache := cache) == o
      && (!r.reset ==> r.cache == cache)
      && (r.reset ==> forall k :: (k in r.cache <==> k in cache && k !in Charts.LoadKeys(r.loads)))
      && (forall k :: k in r.cache ==> k in cache && r.cache[k] == cache[k])
  {
    var o := SubmitForm(inputs, pairs, sheet, formId, store, cache, send, dateCheck);
    SubmitOutcomeSpec(inputs, pairs, sheet, formId, store, cache, send, dateCheck);
    Api.ClearKeysSpec(cache, Charts.LoadKeys(o.loads));
    if o.reset then o.(cache := Api.ClearKeys(cache, Charts.LoadKeys(o.loads))) else o
  }

  /** With the intended submit, the reload's read of any key the reloaded chart uses misses the cache and calls
      the API, whatever the cache held before, so a successful fetch draws the saved data. */
  lemma FixedReloadFetches(inputs: seq<Input>, pairs: seq<(string, string)>, sheet: string, formId: string,
                           store: Storage.Store, cache: Api.Cache, send: Entries -> Result<Value, string>,
                           dateCheck: string -> Verdict,
                           key: string, call: Result<Value, Value>, ttl: int, now: int, nowAfter: int)
    requires SubmitFormFixed(inputs, pairs, sheet, formId, store, cache, send, dateCheck).reset
    requires key in Charts.LoadKeys(ReloadCharts(sheet))
    ensures var o := SubmitFormFixed(inputs, pairs, sheet, formId, store, cache, send, dateCheck);
      var read := Api.RequestWithCache(o.cache, o.store, key, call, ttl, now, nowAfter);
      && |o.loads| == 1 && key !in o.cache
      && read.called
      && (call.Success? ==> read.result == call)
  {
    SubmitOutcomeSpec(inputs, pairs, sheet, formId, store, cache, send, dateCheck);
  }
}

=== FILE: health.dfy ===
/** `HealthCalculator`: BMI, waist and blood-pressure classification against
    `CONFIG.HEALTH_STANDARDS`, the prioritised advice list and the weight trend.

    A numeric argument is a `Reading`: `None` stands for `null`, `undefined`
    or `NaN`; like those, the number `0` is falsy and fails every guard.
    Numbers are exact reals.
 */
module Health {
  import opened Wrappers
  import opened Text
  import opened Numbers
  import opened JsValue
  import opened Config

  type Reading = Option<real>

  /** The reading is truthy: present and not zero. */
  predicate Present(x: Reading) {
    x.Some? && x.value != 0.0
  }

  /** The CSS class of a result: `health-info`, `health-warning` or `health-danger`. */
  datatype Level = Info | Warning | Danger

  function LevelClass(l: Level): string {
    match l
    case Info => "health-info"
    case Warning => "health-warning"
    case Danger => "health-danger"
  }

  /** A classification result `{category, class, description, color}`. */
  datatype Assessment = Assessment(category: string, level: Level, description: string, color: string)

  // ---------------------------------------------------------------------------
  // BMI

  /** `weight / (height/100)^2` for a weight in kilograms and a height in centimetres. */
  function ExactBmi(weightKg: real, heightCm: real): (r: real)
    requires heightCm > 0.0
    ensures r * heightCm * heightCm == weightKg * 10000.0
  {
    var m := heightCm / 100.0;
    assert m > 0.0;
    assert m * m > 0.0;
    var r := weightKg / (m * m);
    assert r * (m * m) == weightKg;
    assert heightCm * heightCm == 10000.0 * (m * m);
    r
  }

  /** `calculateBMI(weight, height)`: `null` unless both are positive, otherwise the BMI rounded to one decimal. */
  function CalculateBmi(weight: Reading, height: Reading): (r: Option<real>)
    ensures r.None? <==> !Present(weight) || !Present(height) || weight.value <= 0.0 || height.value <= 0.0
    ensures r.Some? ==>
      height.value > 0.0 &&
      ExactBmi(weight.value, height.value) - 1.0 / 20.0 < r.value <= ExactBmi(weight.value, height.value) + 1.0 / 20.0
  {
    if !Present(weight) || !Present(height) || weight.value <= 0.0 || height.value <= 0.0 then None
    else Some(RoundTenth(ExactBmi(weight.value, height.value)))
  }

  datatype BmiTier = Underweight | Normal | Overweight | Obese

  function BmiRank(t: BmiTier): nat {
    match t
    case Underweight => 0
    case Normal => 1
    case Overweight => 2
    case Obese => 3
  }

  /** The chain of strict comparisons against 18.5, 24 and 27. */
  function BmiTierOf(bmi: real): BmiTier {
    if bmi < BmiUnderweight then Underweight
    else if bmi < BmiNormal then Normal
    else if bmi < BmiOverweight then Overweight
    else Obese
  }

  /** `getBMICategory(bmi)`: `null` for a falsy BMI. */
  function GetBmiCategory(bmi: Reading): (r: Option<BmiTier>)
    ensures r.None? <==> !Present(bmi)
  {
    if !Present(bmi) then None else Some(BmiTierOf(bmi.value))
  }

  function BmiAssessment(t: BmiTier): Assessment {
    match t
    case Underweight => Assessment("過輕", Warning, "BMI 過低，建議增加營養攝取", "#ffc107")
    case Normal => Assessment("正常", Info, "BMI 在正常範圍內，請保持", "#4caf50")
    case Overweight => Assessment("過重", Warning, "BMI 偏高，建議控制飲食和增加運動", "#ff9800")
    case Obese => Assessment("肥胖", Danger, "BMI 過高，建議諮詢醫師制定減重計畫", "#f44336")
  }

  /** Each tier covers a half-open interval; the lower bound belongs to the higher tier. */
  lemma BmiTierIntervals(bmi: real)
    ensures BmiTierOf(bmi) == Underweight <==> bmi < 18.5
    ensures BmiTierOf(bmi) == Normal <==> 18.5 <= bmi < 24.0
    ensures BmiTierOf(bmi) == Overweight <==> 24.0 <= bmi < 27.0
    ensures BmiTierOf(bmi) == Obese <==> 27.0 <= bmi
  {
  }

  /** 18.5 is already normal, 24 already overweight and 27 already obese. */
  lemma BmiBoundaries()
    ensures BmiTierOf(18.4) == Underweight && BmiTierOf(18.5) == Normal
    ensures BmiTierOf(23.9) == Normal && BmiTierOf(24.0) == Overweight
    ensures BmiTierOf(26.9) == Overweight && BmiTierOf(27.0) == Obese
  {
  }

  /** A larger BMI never gets a lower tier. */
  lemma BmiTierMonotone(a: real, b: real)
    requires a <= b
    ensures BmiRank(BmiTierOf(a)) <= BmiRank(BmiTierOf(b))
  {
  }

  // ---------------------------------------------------------------------------
  // waist

  datatype WaistTier = WaistNormal | WaistThick

  /** `gender.toUpperCase() === 'M'`. */
  predicate IsMale(gender: string) {
    gender == "M" || gender == "m"
  }

  function WaistLimit(gender: string): real {
    if IsMale(gender) then WaistMale else WaistFemale
  }

  /** `getWaistCategory(waist, gender)`: `null` for a falsy waist or gender. */
  function GetWaistCategory(waist: Reading, gender: string): (r: Option<WaistTier>)
    ensures r.None? <==> !Present(waist) || gender == ""
  {
    if !Present(waist) || gender == "" then None
    else if waist.value > WaistLimit(gender) then Some(WaistThick)
    else Some(WaistNormal)
  }

  function WaistAssessment(t: WaistTier, gender: string): Assessment {
    var genderText := if IsMale(gender) then "男性" else "女性";
    match t
    case WaistThick =>
      Assessment("過粗", Danger,
        "腰圍超過" + genderText + "標準（" + DisplayNumber(WaistLimit(gender)) + "cm），有代謝症候群風險", "#f44336")
    case WaistNormal =>
      Assessment("正常", Info, "腰圍在" + genderText + "正常範圍內", "#4caf50")
  }

  /** The waist is too large exactly when it exceeds 90 for `M`/`m` and 80 for any other gender. */
  lemma WaistThickIff(waist: real, gender: string)
    requires waist != 0.0 && gender != ""
    ensures GetWaistCategory(Some(waist), gender) == Some(WaistThick) <==>
      (if gender == "M" || gender == "m" then waist > 90.0 else waist > 80.0)
  {
  }

  /** 90 for a man and 80 for a woman are still normal; a larger waist never turns normal again. */
  lemma WaistBoundaries(a: real, b: real, gender: string)
    requires 0.0 < a <= b && gender != ""
    ensures GetWaistCategory(Some(90.0), "M") == Some(WaistNormal)
    ensures GetWaistCategory(Some(80.0), "F") == Some(WaistNormal)
    ensures GetWaistCategory(Some(a), gender) == Some(WaistThick) ==> GetWaistCategory(Some(b), gender) == Some(WaistThick)
  {
  }

  // ---------------------------------------------------------------------------
  // blood pressure

  datatype BpTier = BpNormal | Elevated | Hypertension

  function BpRank(t: BpTier): nat {
    match t
    case BpNormal => 0
    case Elevated => 1
    case Hypertension => 2
  }

  function BpTierOf(systolic: real, diastolic: real): BpTier {
    if systolic >= BpHighSystolic || diastolic >= BpHighDiastolic then Hypertension
    else if systolic >= BpNormalSystolic || diastolic >= BpNormalDiastolic then Elevated
    else BpNormal
  }

  /** `getBloodPressureCategory(systolic, diastolic)`: `null` when either reading is falsy. */
  function GetBpCategory(systolic: Reading, diastolic: Reading): (r: Option<BpTier>)
    ensures r.None? <==> !Present(systolic) || !Present(diastolic)
  {
    if !Present(systolic) || !Present(diastolic) then None
    else Some(BpTierOf(systolic.value, diastolic.value))
  }

  function BpAssessment(t: BpTier): Assessment {
    match t
    case Hypertension => Assessment("高血壓", Danger, "血壓偏高，建議諮詢醫師", "#f44336")
    case Elevated => Assessment("血壓偏高", Warning, "血壓略高於正常值，建議注意飲食和運動", "#ff9800")
    case BpNormal => Assessment("正常", Info, "血壓在正常範圍內", "#4caf50")
  }

  /** Either reading at the high threshold is hypertension; below both high thresholds, either reading at the
      normal threshold is elevated; otherwise normal. */
  lemma BpTierIff(s: real, d: real)
    ensures BpTierOf(s, d) == Hypertension <==> s >= 140.0 || d >= 90.0
    ensures BpTierOf(s, d) == Elevated <==> s < 140.0 && d < 90.0 && (s >= 120.0 || d >= 80.0)
    ensures BpTierOf(s, d) == BpNormal <==> s < 120.0 && d < 80.0
  {
  }

  /** Raising either reading never lowers the tier. */
  lemma BpTierMonotone(s1: real, d1: real, s2: real, d2: real)
    requires s1 <= s2 && d1 <= d2
    ensures BpRank(BpTierOf(s1, d1)) <= BpRank(BpTierOf(s2, d2))
  {
  }

  // ---------------------------------------------------------------------------
  // generateHealthAdvice

  datatype Priority = High | Medium | Low

  /** `priorityOrder = { high: 3, medium: 2, low: 1 }`. */
  function Rank(p: Priority): nat {
    match p
    case High => 3
    case Medium => 2
    case Low => 1
  }

  datatype AdviceKind = BmiAdvice | WaistAdvice | BpAdvice | GeneralAdvice

  /** The order in which the items are pushed. */
  function KindOrder(k: AdviceKind): nat {
    match k
    case BmiAdvice => 0
    case WaistAdvice => 1
    case BpAdvice => 2
    case GeneralAdvice => 3
  }

  datatype Advice = Advice(kind: AdviceKind, title: string, message: string, priority: Priority)

  /** The fields of `healthData` the advice reads; an absent gender is the empty string. */
  datatype HealthData = HealthData(bmi: Reading, waist: Reading, gender: string, systolic: Reading, diastolic: Reading)

  const GeneralItem: Advice := Advice(GeneralAdvice, "一般建議", "定期記錄健康數據，保持均衡飲食和適度運動", Low)

  function BmiItems(data: HealthData): seq<Advice> {
    match GetBmiCategory(data.bmi)
    case Some(t) =>
      if t != Normal then [Advice(BmiAdvice, "BMI 建議", BmiAssessment(t).description, if t == Obese then High else Medium)]
      else []
    case None => []
  }

  function WaistItems(data: HealthData): seq<Advice> {
    match GetWaistCategory(data.waist, data.gender)
    case Some(t) =>
      if t != WaistNormal then [Advice(WaistAdvice, "腰圍建議", WaistAssessment(t, data.gender).description, High)]
      else []
    case None => []
  }

  function BpItems(data: HealthData): seq<Advice> {
    match GetBpCategory(data.systolic, data.diastolic)
    case Some(t) =>
      if t != BpNormal then [Advice(BpAdvice, "血壓建議", BpAssessment(t).description, if t == Hypertension then High else Medium)]
      else []
    case None => []
  }

  /** The list before sorting, in push order. */
  function Collected(data: HealthData): seq<Advice> {
    BmiItems(data) + WaistItems(data) + BpItems(data) + [GeneralItem]
  }

  /** Inserting one more element the way a stable sort does: after every element of equal or higher priority. */
  function Insert(x: Advice, s: seq<Advice>): (r: seq<Advice>)
    ensures |r| == |s| + 1
  {
    if |s| == 0 then [x]
    else if Rank(x.priority) > Rank(s[0].priority) then [x] + s
    else [s[0]] + Insert(x, s[1..])
  }

  /** `advice.sort((a, b) => priorityOrder[b.priority] - priorityOrder[a.priority])` as an insertion sort. */
  function SortByPriority(xs: seq<Advice>): (r: seq<Advice>)
    ensures |r| == |xs|
  {
    if |xs| == 0 then []
    else Insert(xs[|xs| - 1], SortByPriority(xs[..|xs| - 1]))
  }

  lemma {:induction false} InsertPermutes(x: Advice, s: seq<Advice>)
    ensures multiset(Insert(x, s)) == multiset(s) + multiset{x}
    decreases |s|
  {
    if |s| > 0 && Rank(x.priority) <= Rank(s[0].priority) {
      InsertPermutes(x, s[1..]);
      assert s == [s[0]] + s[1..];
    }
  }

  /** The sort only rearranges. */
  lemma {:induction false} SortPermutes(xs: seq<Advice>)
    ensures multiset(SortByPriority(xs)) == multiset(xs)
    decreases |xs|
  {
    if |xs| > 0 {
      var front, x := xs[..|xs| - 1], xs[|xs| - 1];
      SortPermutes(front);
      InsertPermutes(x, SortByPriority(front));
      assert SortByPriority(xs) == Insert(x, SortByPriority(front));
      assert xs == front + [x];
      assert multiset(xs) == multiset(front) + multiset{x};
    }
  }

  /** `generateHealthAdvice(healthData)`. */
  function GenerateHealthAdvice(data: HealthData): seq<Advice> {
    SortByPriority(Collected(data))
  }

  /** The elements of the given priority, in their original order. */
  function WithPriority(xs: seq<Advice>, p: Priority): (r: seq<Advice>)
    ensures |r| <= |xs| && forall i :: 0 <= i < |r| ==> r[i].priority == p
  {
    if |xs| == 0 then []
    else (if xs[0].priority == p then [xs[0]] else []) + WithPriority(xs[1..], p)
  }

  /** A stable sort by priority, stated without sorting: the high items, then the medium, then the low,
      each group in its original order. */
  function Buckets(xs: seq<Advice>): seq<Advice> {
    WithPriority(xs, High) + (WithPriority(xs, Medium) + WithPriority(xs, Low))
  }

  lemma {:induction false} WithPrioritySnoc(xs: seq<Advice>, x: Advice, p: Priority)
    ensures WithPriority(xs + [x], p) == WithPriority(xs, p) + (if x.priority == p then [x] else [])
    decreases |xs|
  {
    if |xs| == 0 {
      assert xs + [x] == [x];
    } else {
      assert (xs + [x])[1..] == xs[1..] + [x];
      WithPrioritySnoc(xs[1..], x, p);
    }
  }

  lemma {:induction false} WithPrioritySubset(xs: seq<Advice>, p: Priority)
    ensures forall y :: y in WithPriority(xs, p) ==> y in xs
    decreases |xs|
  {
    if |xs| > 0 {
      WithPrioritySubset(xs[1..], p);
      assert xs == [xs[0]] + xs[1..];
    }
  }

  lemma {:induction false} WithPriorityNone(xs: seq<Advice>, p: Priority)
    requires forall i :: 0 <= i < |xs| ==> xs[i].priority != p
    ensures WithPriority(xs, p) == []
    decreases |xs|
  {
    if |xs| > 0 {
      WithPriorityNone(xs[1..], p);
    }
  }

  predicate RankAtLeast(a: seq<Advice>, k: nat) {
    forall i :: 0 <= i < |a| ==> Rank(a[i].priority) >= k
  }

  predicate RankBelow(a: seq<Advice>, k: nat) {
    forall i :: 0 <= i < |a| ==> Rank(a[i].priority) < k
  }

  /** Inserting between a prefix of at-least-equal and a suffix of strictly lower priority. */
  lemma {:induction false} InsertBetween(x: Advice, a: seq<Advice>, b: seq<Advice>)
    requires RankAtLeast(a, Rank(x.priority)) && RankBelow(b, Rank(x.priority))
    ensures Insert(x, a + b) == a + ([x] + b)
    decreases |a|
  {
    if |a| == 0 {
      assert a + b == b;
    } else {
      assert (a + b)[0] == a[0];
      assert (a + b)[1..] == a[1..] + b;
      InsertBetween(x, a[1..], b);
      assert a == [a[0]] + a[1..];
    }
  }

  lemma RankConcat(a: seq<Advice>, b: seq<Advice>, k: nat)
    ensures RankAtLeast(a, k) && RankAtLeast(b, k) ==> RankAtLeast(a + b, k)
    ensures RankBelow(a, k) && RankBelow(b, k) ==> RankBelow(a + b, k)
  {
    if RankAtLeast(a, k) && RankAtLeast(b, k) {
      forall i | 0 <= i < |a + b| ensures Rank((a + b)[i].priority) >= k {
        if i < |a| { assert (a + b)[i] == a[i]; } else { assert (a + b)[i] == b[i - |a|]; }
      }
    }
    if RankBelow(a, k) && RankBelow(b, k) {
      forall i | 0 <= i < |a + b| ensures Rank((a + b)[i].priority) < k {
        if i < |a| { assert (a + b)[i] == a[i]; } else { assert (a + b)[i] == b[i - |a|]; }
      }
    }
  }

  lemma Assoc(a: seq<Advice>, b: seq<Advice>, c: seq<Advice>)
    ensures a + (b + c) == (a + b) + c
  {
  }

  /** One insertion step keeps the bucket form. */
  lemma InsertIntoBuckets(ys: seq<Advice>, x: Advice)
    ensures Insert(x, Buckets(ys)) == Buckets(ys + [x])
  {
    var h, m, l := WithPriority(ys, High), WithPriority(ys, Medium), WithPriority(ys, Low);
    WithPrioritySnoc(ys, x, High);
    WithPrioritySnoc(ys, x, Medium);
    WithPrioritySnoc(ys, x, Low);
    assert Grouped(h, m, l);
    InsertGrouped(h, m, l, x);
  }

  /** `x` lands at the end of its own group. */
  lemma InsertGrouped(h: seq<Advice>, m: seq<Advice>, l: seq<Advice>, x: Advice)
    requires Grouped(h, m, l)
    ensures Insert(x, h + (m + l)) ==
      (h + (if x.priority == High then [x] else [])) +
      ((m + (if x.priority == Medium then [x] else [])) + (l + (if x.priority == Low then [x] else [])))
  {
    assert h + [] == h && m + [] == m && l + [] == l;
    match x.priority
    case High => InsertHigh(h, m, l, x);
    case Medium => InsertMedium(h, m, l, x);
    case Low => InsertLow(h, m, l, x);
  }

  /** The three groups: every element of `h` is high, of `m` medium, of `l` low. */
  predicate Grouped(h: seq<Advice>, m: seq<Advice>, l: seq<Advice>) {
    && (forall i :: 0 <= i < |h| ==> h[i].priority == High)
    && (forall i :: 0 <= i < |m| ==> m[i].priority == Medium)
    && (forall i :: 0 <= i < |l| ==> l[i].priority == Low)
  }

  lemma InsertHigh(h: seq<Advice>, m: seq<Advice>, l: seq<Advice>, x: Advice)
    requires Grouped(h, m, l) && x.priority == High
    ensures Insert(x, h + (m + l)) == (h + [x]) + (m + l)
  {
    assert RankAtLeast(h, 3) && RankBelow(m, 3) && RankBelow(l, 3);
    RankConcat(m, l, 3);
    InsertBetween(x, h, m + l);
    Assoc(h, [x], m + l);
  }

  lemma InsertMedium(h: seq<Advice>, m: seq<Advice>, l: seq<Advice>, x: Advice)
    requires Grouped(h, m, l) && x.priority == Medium
    ensures Insert(x, h + (m + l)) == h + ((m + [x]) + l)
  {
    assert RankAtLeast(h, 2) && RankAtLeast(m, 2) && RankBelow(l, 2);
    RankConcat(h, m, 2);
    Assoc(h, m, l);
    InsertBetween(x, h + m, l);
    Assoc(h, m, [x] + l);
    Assoc(m, [x], l);
  }

  lemma InsertLow(h: seq<Advice>, m: seq<Advice>, l: seq<Advice>, x: Advice)
    requires Grouped(h, m, l) && x.priority == Low
    ensures Insert(x, h + (m + l)) == h + (m + (l + [x]))
  {
    assert RankAtLeast(h, 1) && RankAtLeast(m, 1) && RankAtLeast(l, 1);
    RankConcat(m, l, 1);
    RankConcat(h, m + l, 1);
    var a := h + (m + l);
    assert a + [] == a;
    InsertBetween(x, a, []);
    Assoc(h, m + l, [x]);
    Assoc(m, l, [x]);
  }

  /** The insertion sort is the bucket concatenation, so it is the stable sort `Array.prototype.sort`
      performs (ECMA-262, 2019 edition onward). */
  lemma {:induction false} SortIsBuckets(xs: seq<Advice>)
    ensures SortByPriority(xs) == Buckets(xs)
    decreases |xs|
  {
    if |xs| > 0 {
      var ys := xs[..|xs| - 1];
      assert xs == ys + [xs[|xs| - 1]];
      SortIsBuckets(ys);
      InsertIntoBuckets(ys, xs[|xs| - 1]);
    }
  }

  /** Where each position of the bucket concatenation comes from. */
  lemma BucketPositions(xs: seq<Advice>)
    ensures var h, m, l := WithPriority(xs, High), WithPriority(xs, Medium), WithPriority(xs, Low);
      var r := Buckets(xs);
      && |r| == |h| + |m| + |l|
      && (forall i :: 0 <= i < |h| ==> r[i] == h[i])
      && (forall i :: |h| <= i < |h| + |m| ==> r[i] == m[i - |h|])
      && (forall i :: |h| + |m| <= i < |r| ==> r[i] == l[i - |h| - |m|])
  {
  }

  /** Bucket order is non-increasing in priority. */
  lemma BucketsSorted(xs: seq<Advice>)
    ensures forall i, j :: 0 <= i < j < |Buckets(xs)| ==> Rank(Buckets(xs)[i].priority) >= Rank(Buckets(xs)[j].priority)
  {
    BucketPositions(xs);
  }

  /** Ordered by push order. */
  predicate KindsIncreasing(xs: seq<Advice>) {
    forall i, j :: 0 <= i < j < |xs| ==> KindOrder(xs[i].kind) < KindOrder(xs[j].kind)
  }

  /** Selecting a subsequence keeps an increasing order. */
  lemma {:induction false} WithPriorityKeepsOrder(xs: seq<Advice>, p: Priority)
    requires KindsIncreasing(xs)
    ensures KindsIncreasing(WithPriority(xs, p))
    decreases |xs|
  {
    if |xs| > 0 {
      assert KindsIncreasing(xs[1..]);
      WithPriorityKeepsOrder(xs[1..], p);
      var rest := WithPriority(xs[1..], p);
      WithPrioritySubset(xs[1..], p);
      forall y | y in rest ensures KindOrder(y.kind) > KindOrder(xs[0].kind) {
        var k :| 0 <= k < |xs[1..]| && xs[1..][k] == y;
        assert xs[k + 1] == y;
      }
    }
  }

  /** Equal priorities keep their relative order in the bucket concatenation. */
  lemma BucketsStable(xs: seq<Advice>)
    requires KindsIncreasing(xs)
    ensures forall i, j :: 0 <= i < j < |Buckets(xs)| && Buckets(xs)[i].priority == Buckets(xs)[j].priority ==>
      KindOrder(Buckets(xs)[i].kind) < KindOrder(Buckets(xs)[j].kind)
  {
    BucketPositions(xs);
    WithPriorityKeepsOrder(xs, High);
    WithPriorityKeepsOrder(xs, Medium);
    WithPriorityKeepsOrder(xs, Low);
  }

  /** The items pushed before the general one. */
  function Front(data: HealthData): seq<Advice> {
    BmiItems(data) + WaistItems(data) + BpItems(data)
  }

  /** No item before the general one is low or general. */
  lemma FrontFacts(data: HealthData)
    ensures |Front(data)| <= 3
    ensures forall i :: 0 <= i < |Front(data)| ==> Front(data)[i].priority != Low && Front(data)[i].kind != GeneralAdvice
  {
    var b, w, p := BmiItems(data), WaistItems(data), BpItems(data);
    var f := Front(data);
    forall i | 0 <= i < |f| ensures f[i].priority != Low && f[i].kind != GeneralAdvice {
      if i < |b| { assert f[i] == b[i]; }
      else if i < |b| + |w| { assert f[i] == w[i - |b|]; }
      else { assert f[i] == p[i - |b| - |w|]; }
    }
  }

  /** The pushed items come in push order. */
  lemma CollectedOrdered(data: HealthData)
    ensures KindsIncreasing(Collected(data))
  {
    var b, w, p := BmiItems(data), WaistItems(data), BpItems(data);
    var c := Collected(data);
    forall i | 0 <= i < |c|
      ensures KindOrder(c[i].kind) == if i < |b| then 0 else if i < |b| + |w| then 1 else if i < |b| + |w| + |p| then 2 else 3
    {
      if i < |b| { assert c[i] == b[i]; }
      else if i < |b| + |w| { assert c[i] == w[i - |b|]; }
      else if i < |b| + |w| + |p| { assert c[i] == p[i - |b| - |w|]; }
      else { assert c[i] == GeneralItem; }
    }
  }

  /** The sorted list is the high items, then the medium ones, then the general item. */
  lemma AdviceLayout(data: HealthData)
    ensures GenerateHealthAdvice(data) == WithPriority(Front(data), High) + (WithPriority(Front(data), Medium) + [GeneralItem])
  {
    var f := Front(data);
    var c := Collected(data);
    assert c == f + [GeneralItem];
    FrontFacts(data);
    SortIsBuckets(c);
    var h, m := WithPriority(f, High), WithPriority(f, Medium);
    WithPrioritySnoc(f, GeneralItem, High);
    assert WithPriority(c, High) == h + [] == h;
    WithPrioritySnoc(f, GeneralItem, Medium);
    assert WithPriority(c, Medium) == m + [] == m;
    WithPrioritySnoc(f, GeneralItem, Low);
    WithPriorityNone(f, Low);
    assert WithPriority(c, Low) == [] + [GeneralItem] == [GeneralItem];
  }

  /** The advice list is sorted by priority, ends with the single general item, and has one to four items;
      items of equal priority keep the push order bmi, waist, blood pressure, general. */
  lemma AdviceShape(data: HealthData)
    ensures var r := GenerateHealthAdvice(data);
      && 1 <= |r| <= 4
      && r[|r| - 1] == GeneralItem
      && (forall i :: 0 <= i < |r| - 1 ==> r[i].kind != GeneralAdvice)
      && (forall i, j :: 0 <= i < j < |r| ==> Rank(r[i].priority) >= Rank(r[j].priority))
      && (forall i, j :: 0 <= i < j < |r| && r[i].priority == r[j].priority ==> KindOrder(r[i].kind) < KindOrder(r[j].kind))
  {
    var f := Front(data);
    var c := Collected(data);
    var r := GenerateHealthAdvice(data);
    FrontFacts(data);
    CollectedOrdered(data);
    AdviceLayout(data);
    SortIsBuckets(c);
    BucketsSorted(c);
    BucketsStable(c);
    var h, m := WithPriority(f, High), WithPriority(f, Medium);
    WithPrioritySubset(f, High);
    WithPrioritySubset(f, Medium);
    assert r == h + (m + [GeneralItem]);
    assert |r| == |c| == |f| + 1;
    forall i | 0 <= i < |r| - 1 ensures r[i].kind != GeneralAdvice {
      if i < |h| {
        assert r[i] == h[i];
        assert r[i] in f;
      } else {
        assert r[i] == m[i - |h|];
        assert r[i] in f;
      }
    }
  }

  /** The sorted list holds exactly the pushed items. */
  lemma AdviceSameItems(data: HealthData)
    ensures forall x :: x in GenerateHealthAdvice(data) <==> x in Collected(data)
  {
    var r, c := GenerateHealthAdvice(data), Collected(data);
    SortPermutes(c);
    forall x ensures x in r <==> x in c {
      assert x in r <==> x in multiset(r);
      assert x in c <==> x in multiset(c);
    }
  }

  /** A BMI item is present iff the BMI is present and not normal; it is high priority iff obese. */
  lemma AdviceBmiItem(data: HealthData)
    ensures var r := GenerateHealthAdvice(data);
      && ((exists i :: 0 <= i < |r| && r[i].kind == BmiAdvice) <==> Present(data.bmi) && BmiTierOf(data.bmi.value) != Normal)
      && (forall i :: 0 <= i < |r| && r[i].kind == BmiAdvice ==>
            (r[i].priority == High <==> BmiTierOf(data.bmi.value) == Obese))
  {
    var r, b := GenerateHealthAdvice(data), BmiItems(data);
    AdviceSameItems(data);
    assert Collected(data) == b + WaistItems(data) + BpItems(data) + [GeneralItem];
    if |b| > 0 {
      assert b[0] in r;
    }
    forall i | 0 <= i < |r| && r[i].kind == BmiAdvice ensures r[i] in b {
      assert r[i] in r;
    }
  }

  /** A waist item is present iff the waist is present, a gender is given and the waist exceeds the limit;
      it is always high priority. */
  lemma AdviceWaistItem(data: HealthData)
    ensures var r := GenerateHealthAdvice(data);
      && ((exists i :: 0 <= i < |r| && r[i].kind == WaistAdvice) <==>
            Present(data.waist) && data.gender != "" && data.waist.value > WaistLimit(data.gender))
      && (forall i :: 0 <= i < |r| && r[i].kind == WaistAdvice ==> r[i].priority == High)
  {
    var r, w := GenerateHealthAdvice(data), WaistItems(data);
    AdviceSameItems(data);
    assert Collected(data) == BmiItems(data) + w + BpItems(data) + [GeneralItem];
    if |w| > 0 {
      assert w[0] in r;
    }
    forall i | 0 <= i < |r| && r[i].kind == WaistAdvice ensures r[i] in w {
      assert r[i] in r;
    }
  }

  /** A blood-pressure item is present iff both readings are present and not normal; it is high priority
      iff hypertension. */
  lemma AdviceBpItem(data: HealthData)
    ensures var r := GenerateHealthAdvice(data);
      && ((exists i :: 0 <= i < |r| && r[i].kind == BpAdvice) <==>
            Present(data.systolic) && Present(data.diastolic) && BpTierOf(data.systolic.value, data.diastolic.value) != BpNormal)
      && (forall i :: 0 <= i < |r| && r[i].kind == BpAdvice ==>
            (r[i].priority == High <==> BpTierOf(data.systolic.value, data.diastolic.value) == Hypertension))
  {
    var r, p := GenerateHealthAdvice(data), BpItems(data);
    AdviceSameItems(data);
    assert Collected(data) == BmiItems(data) + WaistItems(data) + p + [GeneralItem];
    if |p| > 0 {
      assert p[0] in r;
    }
    forall i | 0 <= i < |r| && r[i].kind == BpAdvice ensures r[i] in p {
      assert r[i] in r;
    }
  }

  // ---------------------------------------------------------------------------
  // analyzeTrend

  datatype Direction = Stable | Up | Down

  /** A percentage: finite, or `Infinity` when the first weight is 0. */
  datatype Percent = Finite(p: real) | Infinite

  datatype Trend = Trend(direction: Direction, percentage: Percent, message: string)

  const StableTrend: Trend := Trend(Stable, Finite(0.0), "")

  /** `x.toFixed(1)` for a non-negative number: the nearest tenth, the larger on a tie. From 10^21 on,
      JavaScript prints `String(x)` instead, which is not modelled. */
  function ToFixedOne(x: real): string
    requires x >= 0.0
  {
    var n := (x * 10.0 + 0.5).Floor;
    NatToString(n / 10) + "." + [DigitChar(n % 10)]
  }

  /** `((last - first) / first) * 100` in floating point: infinite or `NaN` when `first` is 0. */
  datatype Change = Ratio(value: real) | PlusInfinity | MinusInfinity | NotANumber

  function PercentChange(first: real, last: real): (r: Change)
    ensures first != 0.0 ==> r.Ratio? && r.value * first == (last - first) * 100.0
  {
    if first == 0.0 then
      if last > first then PlusInfinity else if last < first then MinusInfinity else NotANumber
    else
      var q := (last - first) / first;
      assert q * first == last - first;
      Ratio(q * 100.0)
  }

  /** The trend a change gives: up or down with its size when `Math.abs(change) > 2`, stable otherwise. */
  function TrendOf(c: Change): Trend {
    match c
    case PlusInfinity => Trend(Up, Infinite, "體重上升 Infinity%")
    case MinusInfinity => Trend(Down, Infinite, "體重下降 Infinity%")
    case NotANumber => StableTrend
    case Ratio(x) =>
      if x > 2.0 then Trend(Up, Finite(x), "體重上升 " + ToFixedOne(x) + "%")
      else if x < -2.0 then Trend(Down, Finite(-x), "體重下降 " + ToFixedOne(-x) + "%")
      else StableTrend
  }

  /** The trend between the first and the last parsed weight. */
  function WeightTrend(first: real, last: real): Trend {
    TrendOf(PercentChange(first, last))
  }

  lemma MulCompare(a: real, b: real, k: real)
    requires k > 0.0
    ensures a > b <==> a * k > b * k
    ensures a < b <==> a * k < b * k
  {
    if a > b {
      assert (a - b) * k > 0.0;
    }
    if a < b {
      assert (b - a) * k > 0.0;
    }
    if a == b {
      assert a * k == b * k;
    }
  }

  /** For a positive first weight the trend rises above 102 %, falls below 98 %, and is stable in between;
      a rise or fall reports the size of the relative change, whose value `ChangeThresholds` pins down. */
  lemma WeightTrendThresholds(first: real, last: real)
    requires first > 0.0
    ensures WeightTrend(first, last).direction == Up <==> last > first * 1.02
    ensures WeightTrend(first, last).direction == Down <==> last < first * 0.98
    ensures var x := PercentChange(first, last).value;
      WeightTrend(first, last).direction != Stable ==> WeightTrend(first, last).percentage == Finite(if x < 0.0 then -x else x)
  {
    ChangeThresholds(first, last);
    TrendOfRatio(PercentChange(first, last).value);
  }

  /** A finite change gives a rise above 2, a fall below -2, and the size of the change as percentage. */
  lemma TrendOfRatio(x: real)
    ensures TrendOf(Ratio(x)).direction == Up <==> x > 2.0
    ensures TrendOf(Ratio(x)).direction == Down <==> x < -2.0
    ensures TrendOf(Ratio(x)).direction == Up ==> TrendOf(Ratio(x)).percentage == Finite(x)
    ensures TrendOf(Ratio(x)).direction == Down ==> TrendOf(Ratio(x)).percentage == Finite(-x)
  {
  }

  /** The relative change exceeds 2 % exactly above 102 % of the first weight and falls below -2 % exactly
      below 98 % of it. */
  lemma ChangeThresholds(first: real, last: real)
    requires first > 0.0
    ensures var x := PercentChange(first, last).value;
      && (x > 2.0 <==> last > first * 1.02)
      && (x < -2.0 <==> last < first * 0.98)
      && x * first == (last - first) * 100.0
      && (-x) * first == (first - last) * 100.0
  {
    var x := PercentChange(first, last).value;
    var y := x * first;
    assert y == (last - first) * 100.0;
    var hi := 2.0 * first;
    var lo := (-2.0) * first;
    ScaledCompare(x, 2.0, first, y, hi);
    ScaledCompare(x, -2.0, first, y, lo);
    ScaledThresholds(first, last, y, hi, lo);
    assert (-x) * first == -y;
  }

  /** Comparing with `b` is comparing the scaled values. */
  lemma ScaledCompare(a: real, b: real, k: real, ak: real, bk: real)
    requires k > 0.0 && ak == a * k && bk == b * k
    ensures a > b <==> ak > bk
    ensures a < b <==> ak < bk
  {
    MulCompare(a, b, k);
  }

  lemma ScaledThresholds(first: real, last: real, y: real, hi: real, lo: real)
    requires y == (last - first) * 100.0 && hi == 2.0 * first && lo == (-2.0) * first
    ensures y > hi <==> last > first * 1.02
    ensures y < lo <==> last < first * 0.98
  {
  }

  /** A first weight of 0 makes any rise or fall infinite, and equal weights stable. */
  lemma WeightTrendFromZero(last: real)
    ensures WeightTrend(0.0, last).direction == (if last > 0.0 then Up else if last < 0.0 then Down else Stable)
    ensures last != 0.0 ==> WeightTrend(0.0, last).percentage == Infinite
  {
  }

  /** The parsed weights of the records, skipping `NaN`; reading `weight` of `null` or `undefined` throws. */
  function ParsedWeights(records: seq<Value>): Result<seq<real>, string>
    decreases |records|
  {
    if |records| == 0 then Success([])
    else
      var w :- GetProp(records[0], "weight");
      var rest :- ParsedWeights(records[1..]);
      match ParseFloatOf(w)
      case Some(x) => Success([x] + rest)
      case None => Success(rest)
  }

  /** `data.slice(-7)`: the last seven records, or all of them when there are fewer. */
  function LastSeven(records: seq<Value>): (r: seq<Value>)
    ensures |r| == (if |records| < 7 then |records| else 7)
    ensures r == records[|records| - |r|..]
  {
    records[|records| - (if |records| < 7 then |records| else 7)..]
  }

  /** `analyzeTrend(data, type)`: `null` for missing data or fewer than two records, otherwise the trend of
      the last seven records. */
  function AnalyzeTrend(data: Option<seq<Value>>, kind: string): Result<Option<Trend>, string> {
    if data.None? || |data.value| < 2 then Success(None)
    else TrendOfRecords(LastSeven(data.value), kind)
  }

  /** The weight trend of the records, or a stable trend for any other type. */
  function TrendOfRecords(recent: seq<Value>, kind: string): Result<Option<Trend>, string> {
    if kind != "weight" then Success(Some(StableTrend))
    else
      var weights :- ParsedWeights(recent);
      if |weights| >= 2 then Success(Some(WeightTrend(weights[0], weights[|weights| - 1])))
      else Success(Some(StableTrend))
  }

  /** Fewer than two records give `null`; any other type than `weight` gives direction stable,
      percentage 0 and an empty message, whatever the records hold. */
  lemma AnalyzeTrendGuard(data: Option<seq<Value>>, kind: string)
    ensures data.None? || |data.value| < 2 ==> AnalyzeTrend(data, kind) == Success(None)
    ensures data.Some? && |data.value| >= 2 && kind != "weight" ==>
      AnalyzeTrend(data, kind) == Success(Some(Trend(Stable, Finite(0.0), "")))
  {
  }

  /** Only the last seven records matter: older ones do not change the trend. */
  lemma AnalyzeTrendLastSeven(older: seq<Value>, recent: seq<Value>, kind: string)
    requires |recent| == 7
    ensures AnalyzeTrend(Some(older + recent), kind) == AnalyzeTrend(Some(recent), kind)
  {
    var all := older + recent;
    assert LastSeven(all) == all[|older|..] == recent;
    assert LastSeven(recent) == recent[0..] == recent;
  }
}

=== FILE: jsvalue.dfy ===
/** The JavaScript values that flow through the client: JSON payloads from the
    backend, configuration entries, cache and storage contents. Numbers are
    exact reals; `NaN` is its own case. Objects are maps from own property
    names to values (inherited prototype properties are not part of the model).
 */
module JsValue {
  import opened Wrappers
  import opened Text
  import Numbers

  datatype Value =
    | Undefined
    | Null
    | Bool(b: bool)
    | Num(n: real)
    | NaN
    | Str(s: string)
    | Obj(fields: map<string, Value>)
    | Arr(items: seq<Value>)

  /** ToBoolean: `false`, `0`, `NaN`, `""`, `null` and `undefined` are falsy; every object is truthy. */
  predicate Truthy(v: Value) {
    match v
    case Undefined => false
    case Null => false
    case Bool(b) => b
    case Num(n) => n != 0.0
    case NaN => false
    case Str(s) => s != ""
    case Obj(_) => true
    case Arr(_) => true
  }

  /** `typeof v === 'object'`, which holds for `null` too. */
  predicate IsObjectType(v: Value) {
    v.Null? || v.Obj? || v.Arr?
  }

  /** A canonical array index: decimal digits without a leading zero. */
  predicate IsIndexKey(key: string) {
    |key| > 0 && AllDigits(key) && (|key| == 1 || key[0] != '0')
  }

  /** `key in v` for an object or array: an own property name. */
  predicate HasOwn(v: Value, key: string) {
    match v
    case Obj(f) => key in f
    case Arr(items) => key == "length" || (IsIndexKey(key) && DigitsValue(key) < |items|)
    case _ => false
  }

  /** `v[key]` for a value that is neither `null` nor `undefined`. */
  function Property(v: Value, key: string): Value
    requires !v.Null? && !v.Undefined?
  {
    match v
    case Obj(f) => if key in f then f[key] else Undefined
    case Arr(items) =>
      if key == "length" then Num(|items| as real)
      else if IsIndexKey(key) && DigitsValue(key) < |items| then items[DigitsValue(key)]
      else Undefined
    case Str(s) =>
      if key == "length" then Num(|s| as real)
      else if IsIndexKey(key) && DigitsValue(key) < |s| then Str([s[DigitsValue(key)]])
      else Undefined
    case _ => Undefined
  }

  /** The message of the TypeError thrown when reading `key` of `kind` (`null` or `undefined`). */
  function ReadErrorMessage(kind: string, key: string): string {
    "Cannot read properties of " + kind + " (reading '" + key + "')"
  }

  /** `v[key]`: reading a property of `null` or `undefined` throws a TypeError. */
  function GetProp(v: Value, key: string): (r: Result<Value, string>)
    ensures r.Failure? <==> v.Null? || v.Undefined?
  {
    if v.Null? then Failure(ReadErrorMessage("null", key))
    else if v.Undefined? then Failure(ReadErrorMessage("undefined", key))
    else Success(Property(v, key))
  }

  /** `String(v)`. Array elements that are `null` or `undefined` print as empty. */
  function DisplayString(v: Value): string {
    match v
    case Undefined => "undefined"
    case Null => "null"
    case Bool(b) => if b then "true" else "false"
    case Num(n) => Numbers.DisplayNumber(n)
    case NaN => "NaN"
    case Str(s) => s
    case Obj(_) => "[object Object]"
    case Arr(items) =>
      JoinWith(seq(|items|, i requires 0 <= i < |items| =>
        if items[i].Null? || items[i].Undefined? then "" else DisplayString(items[i])), ',')
  }

  /** `Number(v)`; `None` is `NaN`. */
  function ToNumber(v: Value): Option<real> {
    match v
    case Undefined => None
    case Null => Some(0.0)
    case Bool(b) => Some(if b then 1.0 else 0.0)
    case Num(n) => Some(n)
    case NaN => None
    case Str(s) => Numbers.StringToNumber(s)
    case Obj(_) => None
    case Arr(_) => Numbers.StringToNumber(DisplayString(v))
  }

  /** `parseFloat(v)`, which reads `String(v)`; a finite number reads back as itself. */
  function ParseFloatOf(v: Value): Option<real> {
    match v
    case Num(n) => Some(n)
    case _ => Numbers.ParseFloat(DisplayString(v))
  }

  /** `parseInt(v, 10)`, which reads `String(v)`. */
  function ParseIntOf(v: Value): Option<int> {
    Numbers.ParseInt(DisplayString(v))
  }

  /** A number result where `None` is `NaN`, as a value. */
  function NumberValue(x: Option<real>): Value {
    match x
    case Some(n) => Num(n)
    case None => NaN
  }
}

=== FILE: legacy.dfy ===
/** `Legacy`: the first, single-file client: the default date and time of the entry forms, the submit
    query and the JSONP URL it travels in, what the page does with the answer, and the series of its
    weight and blood-pressure charts. The page's inputs, the callback name drawn from `Math.random` and
    the network's answer are parameters.
 */
module Legacy {
  import opened Wrappers
  import opened Text
  import opened JsValue
  import opened Query
  import Utils
  import Forms
  import Charts

  const ApiKey: string := "1qazxsw23edc"
  /** The value the submit data gives its own `callback` field. */
  const CallbackValue: string := "callback"

  // ---------------------------------------------------------------------------
  // default date and time

  /** An input of one of the entry forms, by form id and input name. */
  datatype Field = Field(form: string, name: string)

  const DateFields: set<Field> := {Field("expenseForm", "date"), Field("weightForm", "date"), Field("bpForm", "date")}
  const TimeFields: set<Field> := {Field("weightForm", "time"), Field("bpForm", "time")}

  /** `${yyyy}-${mm}-${dd}`, month and day through `padStart(2,'0')`. */
  function DateString(d: Utils.LocalDateTime): string {
    IntToString(d.year) + "-" + PadStart2(NatToString(d.month + 1)) + "-" + PadStart2(NatToString(d.day))
  }

  /** `${hh}:${min}`. */
  function TimeString(d: Utils.LocalDateTime): string {
    PadStart2(NatToString(d.hours)) + ":" + PadStart2(NatToString(d.minutes))
  }

  /** `setDefaultDateTime()`: `inputs` holds the inputs the page has and their values; each date and time
      input among them gets today's value, and an input the page lacks is skipped. */
  function SetDefaultDateTime(inputs: map<Field, string>, now: Utils.LocalDateTime): map<Field, string> {
    map f | f in inputs :: if f in DateFields then DateString(now) else if f in TimeFields then TimeString(now) else inputs[f]
  }

  /** `String(n).padStart(2,'0')` is the same rendering the modular client's formatter uses. */
  lemma PadIsTwoDigits(n: nat)
    ensures PadStart2(NatToString(n)) == TwoDigits(n)
  {
    assert TwoDigits(n) == PadStart2(NatToString(n));
  }

  /** After the defaults are set the page has the same inputs; every date input holds today's date,
      every time input the current time, and every other input is left alone. */
  lemma DefaultDateTimeInputs(inputs: map<Field, string>, now: Utils.LocalDateTime, f: Field)
    requires f in inputs
    ensures SetDefaultDateTime(inputs, now).Keys == inputs.Keys
    ensures f in DateFields ==> SetDefaultDateTime(inputs, now)[f] == DateString(now)
    ensures f in TimeFields ==> SetDefaultDateTime(inputs, now)[f] == TimeString(now)
    ensures f !in DateFields && f !in TimeFields ==> SetDefaultDateTime(inputs, now)[f] == inputs[f]
  {
    assert DateFields !! TimeFields;
  }

  /** The date holds the year, a two-digit month and a two-digit day that read back as today's; the time
      is `HH:MM` read back as the current hour and minute. Both equal the modular client's
      `formatDate`/`formatTime`. */
  lemma DefaultDateTimePadded(now: Utils.LocalDateTime)
    requires Utils.ValidDateTime(now) && now.year >= 0
    ensures DateString(now) == Utils.FormatDate(now) && TimeString(now) == Utils.FormatTime(now)
    ensures var parts := SplitOn(DateString(now), '-');
      && |parts| == 3
      && AllDigits(parts[0]) && DigitsValue(parts[0]) == now.year
      && |parts[1]| == 2 && AllDigits(parts[1]) && DigitsValue(parts[1]) == now.month + 1
      && |parts[2]| == 2 && AllDigits(parts[2]) && DigitsValue(parts[2]) == now.day
    ensures var t := TimeString(now);
      && |t| == 5 && t[2] == ':'
      && AllDigits(t[..2]) && DigitsValue(t[..2]) == now.hours
      && AllDigits(t[3..]) && DigitsValue(t[3..]) == now.minutes
  {
    PadIsTwoDigits(now.month + 1);
    PadIsTwoDigits(now.day);
    PadIsTwoDigits(now.hours);
    PadIsTwoDigits(now.minutes);
    NatToStringRoundTrip(now.year);
    Utils.FormatDateFields(now);
    Utils.FormatTimeFields(now);
  }

  // ---------------------------------------------------------------------------
  // the submit query

  /** The object `handleForm` sends: the form's fields as `Object.fromEntries` reads them, then `sheet`,
      `apiKey` and `callback` assigned onto it. */
  function SubmitData(pairs: seq<(string, string)>, sheet: string): Entries {
    SetEntry(SetEntry(SetEntry(Forms.FormEntries(pairs), "sheet", Str(sheet)), "apiKey", Str(ApiKey)), "callback", Str(CallbackValue))
  }

  /** Every key and value URI-encoded, the pairs joined with `&`. */
  function SubmitQuery(pairs: seq<(string, string)>, sheet: string, enc: string -> string): string {
    EncodeQuery(SubmitData(pairs, sheet), enc)
  }

  predicate Reserved(k: string) {
    k == "sheet" || k == "apiKey" || k == "callback"
  }

  /** The data never repeats a name; `sheet`, `apiKey` and `callback` carry the sheet, the key and the
      word `callback` whatever the form held under those names, and every other name carries the last
      value the form gave it. */
  lemma SubmitDataSpec(pairs: seq<(string, string)>, sheet: string, k: string)
    ensures var d := SubmitData(pairs, sheet);
      && DistinctKeys(d)
      && Lookup(d, "sheet") == Some(Str(sheet))
      && Lookup(d, "apiKey") == Some(Str(ApiKey))
      && Lookup(d, "callback") == Some(Str(CallbackValue))
      && (!Reserved(k) ==> Lookup(d, k) == LastLookup(Forms.StrEntries(pairs), k))
  {
    var e0 := Forms.FormEntries(pairs);
    Forms.FormEntriesSpec(pairs, k);
    var e1 := SetEntry(e0, "sheet", Str(sheet));
    var e2 := SetEntry(e1, "apiKey", Str(ApiKey));
    SetEntryKeys(e0, "sheet", Str(sheet));
    SetEntryKeys(e1, "apiKey", Str(ApiKey));
    SetEntryKeys(e2, "callback", Str(CallbackValue));
    SetEntryReadsNew(e0, "sheet", Str(sheet));
    SetEntryFrame(e1, "apiKey", Str(ApiKey), "sheet");
    SetEntryFrame(e2, "callback", Str(CallbackValue), "sheet");
    SetEntryReadsNew(e1, "apiKey", Str(ApiKey));
    SetEntryFrame(e2, "callback", Str(CallbackValue), "apiKey");
    SetEntryReadsNew(e2, "callback", Str(CallbackValue));
    if !Reserved(k) {
      SetEntryFrame(e0, "sheet", Str(sheet), k);
      SetEntryFrame(e1, "apiKey", Str(ApiKey), k);
      SetEntryFrame(e2, "callback", Str(CallbackValue), k);
    }
  }

  /** Decoding the query gives back one pair per field of the data, in order, each name once. */
  lemma SubmitQueryDecodes(pairs: seq<(string, string)>, sheet: string, enc: string -> string, dec: string -> string)
    requires UriCodec(enc, dec)
    ensures var q := DecodeQuery(SubmitQuery(pairs, sheet, enc), dec);
      && q == StringPairs(SubmitData(pairs, sheet))
      && forall i, j :: 0 <= i < j < |q| ==> q[i].0 != q[j].0
  {
    var d := SubmitData(pairs, sheet);
    SubmitDataSpec(pairs, sheet, "sheet");
    assert |d| >= 1;
    QueryRoundTrip(d, enc, dec);
  }

  // ---------------------------------------------------------------------------
  // the JSONP URL

  /** The legacy `jsonp(url)`: `&callback=<name>` is appended whatever `url` holds. */
  function JsonpUrl(url: string, fnName: string): (r: string)
    ensures r == url + "&" + Utils.CallbackParameter + fnName
  {
    url + "&" + Utils.CallbackParameter + fnName
  }

  /** The script URL of a submit: the API URL, `?`, the query, and the appended callback. */
  function SubmitUrl(apiUrl: string, pairs: seq<(string, string)>, sheet: string, enc: string -> string, fnName: string): string {
    JsonpUrl(apiUrl + "?" + SubmitQuery(pairs, sheet, enc), fnName)
  }

  /** On a URL without a query the legacy URL starts its parameters with `&` where the modular client's
      `jsonp` starts them with `?`. */
  lemma JsonpUrlJoinerDiffers(url: string, fnName: string)
    requires !Contains(url, "?")
    ensures JsonpUrl(url, fnName)[|url|] == '&'
    ensures Utils.JsonpUrl(url, fnName)[|url|] == '?'
    ensures JsonpUrl(url, fnName) != Utils.JsonpUrl(url, fnName)
  {
    Utils.JsonpUrlJoiner(url, fnName);
  }

  /** `parts.join(sep)` with one more part appended. */
  lemma {:induction false} JoinSnoc(parts: seq<string>, x: string, sep: char)
    requires |parts| >= 1
    ensures JoinWith(parts + [x], sep) == JoinWith(parts, sep) + [sep] + x
    decreases |parts|
  {
    if |parts| == 1 {
      assert (parts + [x])[1..] == [x];
    } else {
      assert (parts + [x])[1..] == parts[1..] + [x];
      JoinSnoc(parts[1..], x, sep);
    }
  }

  /** A raw `a=b` appended to an encoded query decodes as one more pair after the encoded ones. */
  lemma DecodeAppended(e: Entries, enc: string -> string, dec: string -> string, a: string, b: string)
    requires UriCodec(enc, dec) && |e| >= 1
    requires '&' !in a && '=' !in a && '&' !in b && '=' !in b
    ensures DecodeQuery(EncodeQuery(e, enc) + "&" + a + "=" + b, dec) == StringPairs(e) + [(dec(a), dec(b))]
  {
    var pairs := EncodePairs(e, enc);
    var last := a + "=" + b;
    JoinSnoc(pairs, last, '&');
    assert EncodeQuery(e, enc) + "&" + a + "=" + b == JoinWith(pairs + [last], '&');
    forall i | 0 <= i < |pairs + [last]| ensures '&' !in (pairs + [last])[i] {
      if i < |pairs| {
        assert (pairs + [last])[i] == enc(e[i].0) + "=" + enc(DisplayString(e[i].1));
      }
    }
    SplitJoin(pairs + [last], '&');
    forall i | 0 <= i < |pairs| ensures DecodePair(pairs[i], dec) == StringPairs(e)[i] {
      var x := enc(e[i].0);
      var y := enc(DisplayString(e[i].1));
      assert pairs[i] == x + ['='] + y;
      SplitTwo(x, y, '=');
    }
    assert last == a + ['='] + b;
    SplitTwo(a, b, '=');
  }

  /** The request carries two `callback` parameters: the data's own `callback=callback`, at the data's
      position for it, and the appended one naming the registered function, as the last pair. Every other
      pair is a field of the data. */
  lemma SubmitUrlHasTwoCallbacks(apiUrl: string, pairs: seq<(string, string)>, sheet: string,
                                 enc: string -> string, dec: string -> string, fnName: string)
    requires UriCodec(enc, dec) && enc(CallbackValue) == CallbackValue
    requires '&' !in fnName && '=' !in fnName
    ensures var url := SubmitUrl(apiUrl, pairs, sheet, enc, fnName);
      var d := SubmitData(pairs, sheet);
      var q := DecodeQuery(url[|apiUrl| + 1..], dec);
      && url[..|apiUrl| + 1] == apiUrl + "?"
      && |q| == |d| + 1
      && q[..|d|] == StringPairs(d)
      && q[|d|] == (CallbackValue, dec(fnName))
      && IndexOf(d, "callback").Some?
      && q[IndexOf(d, "callback").value] == (CallbackValue, CallbackValue)
  {
    SubmitDataSpec(pairs, sheet, "callback");
    CallbackTwice(apiUrl, SubmitData(pairs, sheet), enc, dec, fnName);
  }

  /** The same for any data whose `callback` field holds the word `callback`. */
  lemma CallbackTwice(apiUrl: string, d: Entries, enc: string -> string, dec: string -> string, fnName: string)
    requires UriCodec(enc, dec) && enc(CallbackValue) == CallbackValue
    requires '&' !in fnName && '=' !in fnName
    requires Lookup(d, "callback") == Some(Str(CallbackValue))
    ensures var url := JsonpUrl(apiUrl + "?" + EncodeQuery(d, enc), fnName);
      var q := DecodeQuery(url[|apiUrl| + 1..], dec);
      && url[..|apiUrl| + 1] == apiUrl + "?"
      && |q| == |d| + 1
      && q[..|d|] == StringPairs(d)
      && q[|d|] == (CallbackValue, dec(fnName))
      && IndexOf(d, "callback").Some?
      && q[IndexOf(d, "callback").value] == (CallbackValue, CallbackValue)
  {
    var query := EncodeQuery(d, enc);
    var url := JsonpUrl(apiUrl + "?" + query, fnName);
    assert url == apiUrl + "?" + (query + "&" + CallbackValue + "=" + fnName);
    assert url[|apiUrl| + 1..] == query + "&" + CallbackValue + "=" + fnName;
    assert dec(CallbackValue) == CallbackValue by {
      assert dec(enc(CallbackValue)) == CallbackValue;
    }
    var i := IndexOf(d, "callback").value;
    assert d[i] == ("callback", Str(CallbackValue));
    DecodeAppended(d, enc, dec, CallbackValue, fnName);
    var q := DecodeQuery(url[|apiUrl| + 1..], dec);
    assert q[i] == StringPairs(d)[i];
  }

  // ---------------------------------------------------------------------------
  // the answer to a submit

  const SubmittedMessage: string := "✅ 已送出！"
  const FailedPrefix: string := "❌ 送出失敗："
  const UnknownError: string := "未知錯誤"
  const NetworkErrorMessage: string := "❌ 網路錯誤"

  /** The alert shown, and whether the form was reset (with the defaults set again and the charts
      reloaded). */
  datatype SubmitOutcome = SubmitOutcome(alert: string, reset: bool)

  /** The `.then`/`.catch` of a submit. `response` is the JSONP payload or the rejection; a `null` or
      `undefined` payload throws when `.success` is read, and the `.catch` reports it as a network error. */
  function OnSubmitResponse(response: Result<Value, Value>): SubmitOutcome {
    match response
    case Failure(_) => SubmitOutcome(NetworkErrorMessage, false)
    case Success(v) =>
      if v.Null? || v.Undefined? then SubmitOutcome(NetworkErrorMessage, false)
      else if Truthy(Property(v, "success")) then SubmitOutcome(SubmittedMessage, true)
      else
        var err := Property(v, "error");
        SubmitOutcome(FailedPrefix + (if Truthy(err) then DisplayString(err) else UnknownError), false)
  }

  /** The payload reports success. */
  predicate Succeeded(response: Result<Value, Value>) {
    response.Success? && !response.value.Null? && !response.value.Undefined?
    && Truthy(Property(response.value, "success"))
  }

  /** The form is reset exactly when the payload's `success` is truthy, and the confirmation is shown
      exactly then; a payload that does not report success shows its `error` (or "unknown error") after
      the failure prefix, and a rejection or unreadable payload shows the network error. */
  lemma ResetOnlyOnSuccess(response: Result<Value, Value>)
    ensures OnSubmitResponse(response).reset <==> Succeeded(response)
    ensures OnSubmitResponse(response).alert == SubmittedMessage <==> Succeeded(response)
    ensures response.Success? && !response.value.Null? && !response.value.Undefined? && !Succeeded(response) ==>
      var err := Property(response.value, "error");
      OnSubmitResponse(response).alert == FailedPrefix + (if Truthy(err) then DisplayString(err) else UnknownError)
    ensures (response.Failure? || response.value.Null? || response.value.Undefined?) ==>
      OnSubmitResponse(response).alert == NetworkErrorMessage
  {
    var r := OnSubmitResponse(response);
    assert SubmittedMessage[0] == '✅' && FailedPrefix[0] == '❌' && NetworkErrorMessage[0] == '❌';
    if !Succeeded(response) {
      assert r.alert[0] == '❌';
    }
  }

  // ---------------------------------------------------------------------------
  // the weight chart

  /** The labels and raw `weight` values of the legacy weight line; reading the first `null` or
      `undefined` record throws. */
  function WeightSeries(data: seq<Value>): (r: Result<(seq<string>, seq<Value>), string>)
    ensures r.Success? <==> Charts.Readable(data)
    ensures r.Failure? ==> r == Failure(Charts.FirstUnreadable(data, "date").value)
  {
    match Charts.FirstUnreadable(data, "date")
    case Some(e) => Failure(e)
    case None =>
      Success((seq(|data|, i requires 0 <= i < |data| => Charts.Label(data[i])),
               seq(|data|, i requires 0 <= i < |data| => Property(data[i], "weight"))))
  }

  /** On a non-empty history of at most the chart's window, the legacy labels are the modular chart's
      labels; the legacy line plots the raw `weight` where the modular one plots `parseFloat(weight)`. */
  lemma WeightSeriesAgrees(data: seq<Value>)
    requires 0 < |data| <= 50 && Charts.Readable(data)
    ensures var legacy := WeightSeries(data).value;
      var modular := Charts.CreateWeightChart(Some(data));
      && modular.Success? && modular.value.WeightLines?
      && legacy.0 == modular.value.labels
      && |legacy.1| == |modular.value.weights| == |data|
      && forall i :: 0 <= i < |data| ==> modular.value.weights[i] == NumberValue(ParseFloatOf(legacy.1[i]))
  {
    Charts.WindowKeepsLatest(data);
    assert Charts.Window(data) == data;
  }

  // ---------------------------------------------------------------------------
  // the blood-pressure chart

  /** The labels and the four parallel series of the legacy blood-pressure chart. */
  datatype BpSeries = BpSeries(labels: seq<string>, morningSys: seq<Value>, morningDia: seq<Value>,
                               eveningSys: seq<Value>, eveningDia: seq<Value>)

  /** `hour < 12`; a `NaN` hour compares false and so counts as evening. */
  predicate IsMorning(h: Option<int>) {
    h.Some? && h.value < 12
  }

  predicate Aligned(s: BpSeries, n: nat) {
    |s.labels| == n && |s.morningSys| == n && |s.morningDia| == n && |s.eveningSys| == n && |s.eveningDia| == n
  }

  /** Index `i` of the series is what the loop pushed for `row` with hour `h`: the label, and the
      readings on the record's side with `null` on the other. */
  predicate RowAt(s: BpSeries, i: nat, row: Value, h: Option<int>)
    requires Aligned(s, |s.labels|) && i < |s.labels|
    requires !row.Null? && !row.Undefined?
  {
    && s.labels[i] == Charts.Label(row)
    && (if IsMorning(h) then
          && s.morningSys[i] == Property(row, "systolic") && s.morningDia[i] == Property(row, "diastolic")
          && s.eveningSys[i] == Null && s.eveningDia[i] == Null
        else
          && s.eveningSys[i] == Property(row, "systolic") && s.eveningDia[i] == Property(row, "diastolic")
          && s.morningSys[i] == Null && s.morningDia[i] == Null)
  }

  /** The series hold, index by index, what the loop pushes for each record with its hour. */
  predicate SeriesOf(s: BpSeries, rows: seq<Value>, hours: seq<Option<int>>) {
    && Aligned(s, |rows|) && |hours| == |rows| && Charts.Readable(rows)
    && forall i :: 0 <= i < |rows| ==> RowAt(s, i, rows[i], hours[i])
  }

  /** The series with one more record in front. */
  function Prepend(row: Value, h: Option<int>, s: BpSeries): BpSeries
    requires !row.Null? && !row.Undefined?
  {
    var sys := Property(row, "systolic");
    var dia := Property(row, "diastolic");
    if IsMorning(h) then
      BpSeries([Charts.Label(row)] + s.labels, [sys] + s.morningSys, [dia] + s.morningDia, [Null] + s.eveningSys, [Null] + s.eveningDia)
    else
      BpSeries([Charts.Label(row)] + s.labels, [Null] + s.morningSys, [Null] + s.morningDia, [sys] + s.eveningSys, [dia] + s.eveningDia)
  }

  lemma PrependSpec(row: Value, h: Option<int>, s: BpSeries, rows: seq<Value>, hours: seq<Option<int>>)
    requires !row.Null? && !row.Undefined? && SeriesOf(s, rows, hours)
    ensures SeriesOf(Prepend(row, h, s), [row] + rows, [h] + hours)
  {
    var t := Prepend(row, h, s);
    var rows' := [row] + rows;
    var hours' := [h] + hours;
    PrependHead(row, h, s);
    forall i | 0 <= i < |rows'| ensures !rows'[i].Null? && !rows'[i].Undefined? && RowAt(t, i, rows'[i], hours'[i]) {
      if i > 0 {
        assert rows'[i] == rows[i - 1] && hours'[i] == hours[i - 1];
        PrependRow(row, h, s, i, rows[i - 1], hours[i - 1]);
      }
    }
  }

  /** The record put in front is the first row. */
  lemma PrependHead(row: Value, h: Option<int>, s: BpSeries)
    requires !row.Null? && !row.Undefined? && Aligned(s, |s.labels|)
    ensures Aligned(Prepend(row, h, s), |s.labels| + 1) && RowAt(Prepend(row, h, s), 0, row, h)
  {
  }

  /** A row of the shorter series stays a row, one index later, of the longer. */
  lemma PrependRow(row: Value, h: Option<int>, s: BpSeries, i: nat, r: Value, hr: Option<int>)
    requires !row.Null? && !row.Undefined? && !r.Null? && !r.Undefined?
    requires Aligned(s, |s.labels|) && 0 < i <= |s.labels| && RowAt(s, i - 1, r, hr)
    ensures Aligned(Prepend(row, h, s), |s.labels| + 1) && RowAt(Prepend(row, h, s), i, r, hr)
  {
    PrependShifts(row, h, s, i);
  }

  /** Index `i > 0` of the longer series is index `i - 1` of the shorter. */
  lemma PrependShifts(row: Value, h: Option<int>, s: BpSeries, i: nat)
    requires !row.Null? && !row.Undefined? && Aligned(s, |s.labels|) && 0 < i <= |s.labels|
    ensures var t := Prepend(row, h, s);
      && t.labels[i] == s.labels[i - 1]
      && t.morningSys[i] == s.morningSys[i - 1] && t.morningDia[i] == s.morningDia[i - 1]
      && t.eveningSys[i] == s.eveningSys[i - 1] && t.eveningDia[i] == s.eveningDia[i - 1]
  {
  }

  /** The `data.forEach` of the legacy chart, record by record: the label is read first, so a `null` or
      `undefined` record fails on `date`; then `time.split` fails as in the modular chart. The series are
      built exactly when the modular chart can read every record's hour, and then hold each record at its
      own index. */
  function BpSeriesOf(data: seq<Value>): (r: Result<BpSeries, string>)
    ensures r.Success? <==> Charts.Hours(data).Success?
    ensures r.Success? ==> SeriesOf(r.value, data, Charts.Hours(data).value)
    decreases |data|
  {
    if |data| == 0 then Success(BpSeries([], [], [], [], []))
    else
      var row := data[0];
      if row.Null? then Failure(ReadErrorMessage("null", "date"))
      else if row.Undefined? then Failure(ReadErrorMessage("undefined", "date"))
      else
        match Charts.HourOf(row)
        case Failure(e) => Failure(e)
        case Success(h) =>
          match BpSeriesOf(data[1..])
          case Failure(e) => Failure(e)
          case Success(s) =>
            PrependSpec(row, h, s, data[1..], Charts.Hours(data[1..]).value);
            assert [row] + data[1..] == data;
            Success(Prepend(row, h, s))
  }

  /** At every index exactly one of the morning and evening systolic entries holds the record's reading
      (the other is `null`), and likewise for the diastolic pair; the morning side is taken exactly when
      the hour is below 12. A record whose hour does not parse lands in the evening series, where the
      modular chart's filters leave it out of both. */
  lemma OneSidePerRecord(data: seq<Value>, i: nat)
    requires BpSeriesOf(data).Success? && i < |data|
    ensures var s := BpSeriesOf(data).value;
      var h := Charts.Hours(data).value[i];
      var sys := Property(data[i], "systolic");
      var dia := Property(data[i], "diastolic");
      && |s.labels| == |s.morningSys| == |s.morningDia| == |s.eveningSys| == |s.eveningDia| == |data|
      && Charts.HourOf(data[i]) == Success(h)
      && s.labels[i] == Charts.Label(data[i])
      && (sys != Null ==> ((s.morningSys[i] != Null) != (s.eveningSys[i] != Null)))
      && (dia != Null ==> ((s.morningDia[i] != Null) != (s.eveningDia[i] != Null)))
      && (sys != Null ==> (s.morningSys[i] != Null <==> IsMorning(h)))
      && (IsMorning(h) ==> s.morningSys[i] == sys && s.morningDia[i] == dia && s.eveningSys[i] == Null && s.eveningDia[i] == Null)
      && (!IsMorning(h) ==> s.eveningSys[i] == sys && s.eveningDia[i] == dia && s.morningSys[i] == Null && s.morningDia[i] == Null)
      && (IsMorning(h) <==> Charts.OnSide(h, true))
      && (!IsMorning(h) <==> Charts.OnSide(h, false) || h.None?)
  {
    var s := BpSeriesOf(data).value;
    assert RowAt(s, i, data[i], Charts.Hours(data).value[i]);
  }
}

=== FILE: numbers.dfy ===
/** Number parsing and rendering as the client uses them, over exact reals:
    `parseInt(s, 10)`, `parseFloat(s)`, `Number(s)`, `Math.round(x * 10) / 10`
    and `String(x)` for finite decimals. `None` stands for `NaN`.
 */
module Numbers {
  import opened Wrappers
  import opened Text

  function Pow10(k: nat): (r: nat)
    ensures r >= 1
  {
    if k == 0 then 1 else 10 * Pow10(k - 1)
  }

  /** Length of the longest prefix of decimal digits. */
  function DigitPrefix(s: string): (n: nat)
    ensures n <= |s| && AllDigits(s[..n])
    ensures n < |s| ==> !IsDigit(s[n])
  {
    if |s| > 0 && IsDigit(s[0]) then
      var m := DigitPrefix(s[1..]);
      assert s[..1 + m] == [s[0]] + s[1..][..m];
      1 + m
    else 0
  }

  lemma {:induction false} DigitPrefixOfDigits(d: string, rest: string)
    requires AllDigits(d)
    requires |rest| > 0 ==> !IsDigit(rest[0])
    ensures DigitPrefix(d + rest) == |d|
  {
    if |d| > 0 {
      assert (d + rest)[1..] == d[1..] + rest;
      DigitPrefixOfDigits(d[1..], rest);
    } else {
      assert d + rest == rest;
    }
  }

  /** Drops a leading `+` or `-`. */
  function Unsigned(t: string): string {
    if |t| > 0 && (t[0] == '-' || t[0] == '+') then t[1..] else t
  }

  predicate Negative(t: string) {
    |t| > 0 && t[0] == '-'
  }

  /** `parseInt(s, 10)`: leading white space, an optional sign, then the longest run of digits. */
  function ParseInt(s: string): Option<int> {
    var t := TrimStart(s);
    var u := Unsigned(t);
    var n := DigitPrefix(u);
    if n == 0 then None
    else
      var m: int := DigitsValue(u[..n]);
      Some(if Negative(t) then -m else m)
  }

  /** A run of digits followed by a non-digit (or nothing) parses to the digits' value, leading zeros included. */
  lemma ParseIntDigits(d: string, rest: string)
    requires |d| > 0 && AllDigits(d)
    requires |rest| > 0 ==> !IsDigit(rest[0])
    ensures ParseInt(d + rest) == Some(DigitsValue(d))
  {
    var s := d + rest;
    assert s[0] == d[0] && IsDigit(s[0]);
    assert !IsJsSpace(s[0]);
    assert TrimStart(s) == s;
    assert Unsigned(s) == s && !Negative(s);
    DigitPrefixOfDigits(d, rest);
    assert s[..|d|] == d;
  }

  /** `parseInt` reads back what `String` renders for any integer. */
  lemma ParseIntRoundTrip(i: int)
    ensures ParseInt(IntToString(i)) == Some(i)
  {
    var r := IntToString(i);
    if i >= 0 {
      ParseIntDigits(r, "");
      assert r + "" == r;
    } else {
      var m := r[1..];
      assert TrimStart(r) == r;
      assert Unsigned(r) == m;
      DigitPrefixOfDigits(m, "");
      assert m + "" == m;
      assert m[..|m|] == m;
    }
  }

  /** A StrDecimalLiteral prefix (without exponent or `Infinity`): its value and how many characters it used. */
  datatype Scan = Scan(value: real, used: nat)

  function ScanDecimal(t: string): (r: Option<Scan>)
    ensures r.Some? ==> 0 < r.value.used <= |t|
  {
    var signLen := if |t| > 0 && (t[0] == '-' || t[0] == '+') then 1 else 0;
    var u := t[signLen..];
    var n := DigitPrefix(u);
    var rest := u[n..];
    var hasDot := |rest| > 0 && rest[0] == '.';
    var f := if hasDot then DigitPrefix(rest[1..]) else 0;
    if n == 0 && f == 0 then None
    else
      var fracDigits := if hasDot then rest[1..][..f] else "";
      var magnitude := DigitsValue(u[..n]) as real + DigitsValue(fracDigits) as real / Pow10(f) as real;
      Some(Scan(if Negative(t) then -magnitude else magnitude,
                signLen + n + (if hasDot then 1 + f else 0)))
  }

  /** `parseFloat(s)`: leading white space, then the longest decimal-literal prefix. */
  function ParseFloat(s: string): Option<real> {
    match ScanDecimal(TrimStart(s))
    case Some(sc) => Some(sc.value)
    case None => None
  }

  /** `Number(s)`: the whole trimmed string must be a decimal literal; the empty string is 0. */
  function StringToNumber(s: string): Option<real> {
    var t := Trim(s);
    if |t| == 0 then Some(0.0)
    else match ScanDecimal(t)
      case Some(sc) => if sc.used == |t| then Some(sc.value) else None
      case None => None
  }

  /** `Math.round(x * 10) / 10` on exact reals: the nearest tenth, halves rounded up. */
  function RoundTenth(x: real): (r: real)
    ensures x - 1.0 / 20.0 < r <= x + 1.0 / 20.0
    ensures (r * 10.0).Floor as real == r * 10.0
  {
    var k := (x * 10.0 + 0.5).Floor;
    k as real / 10.0
  }

  /** Fractional digits of `f` in [0, 1), at most `k` of them, without trailing zeros. */
  function FractionDigits(f: real, k: nat): (r: string)
    requires 0.0 <= f < 1.0
    ensures AllDigits(r) && |r| <= k
    decreases k
  {
    if k == 0 || f == 0.0 then ""
    else
      var d := (f * 10.0).Floor;
      var tail := FractionDigits(f * 10.0 - d as real, k - 1);
      if d == 0 && tail == "" then "" else [DigitChar(d)] + tail
  }

  /** `String(x)` for a finite number in positional notation (at most 20 fractional digits). */
  function DisplayNumber(x: real): (r: string)
    ensures |r| >= 1
    ensures x.Floor as real == x ==> r == IntToString(x.Floor)
  {
    if x.Floor as real == x then IntToString(x.Floor)
    else
      var m := if x < 0.0 then -x else x;
      var ip := m.Floor;
      var frac := FractionDigits(m - ip as real, 20);
      var body := NatToString(ip) + (if frac == "" then "" else "." + frac);
      if x < 0.0 then "-" + body else body
  }
}

=== FILE: query.dfy ===
/** Plain JavaScript objects seen as ordered entry lists, the way
    `Object.entries`, object spread and property assignment treat them, and the
    `k=v&k=v` query strings built from them.

    `encodeURIComponent` is not modelled character by character: it is a
    parameter `enc` assumed to have the properties the query format relies on
    (its output never holds `&` or `=`, and a decoder `dec` undoes it).
 */
module Query {
  import opened Wrappers
  import opened Text
  import opened JsValue

  /** Own enumerable properties in insertion order. */
  type Entries = seq<(string, Value)>

  predicate DistinctKeys(e: Entries) {
    forall i, j :: 0 <= i < j < |e| ==> e[i].0 != e[j].0
  }

  function KeysOf(e: Entries): (r: seq<string>)
    ensures |r| == |e| && forall i :: 0 <= i < |e| ==> r[i] == e[i].0
  {
    if |e| == 0 then [] else [e[0].0] + KeysOf(e[1..])
  }

  /** Position of the first entry named `k`. */
  function IndexOf(e: Entries, k: string): (r: Option<nat>)
    ensures r.Some? ==> r.value < |e| && e[r.value].0 == k && forall j :: 0 <= j < r.value ==> e[j].0 != k
    ensures r.None? ==> forall j :: 0 <= j < |e| ==> e[j].0 != k
  {
    if |e| == 0 then None
    else if e[0].0 == k then Some(0)
    else match IndexOf(e[1..], k)
      case Some(i) => Some(i + 1)
      case None => None
  }

  /** `obj[k]` when `obj` has own property `k`. */
  function Lookup(e: Entries, k: string): Option<Value> {
    match IndexOf(e, k)
    case Some(i) => Some(e[i].1)
    case None => None
  }

  /** `obj[k]`: `undefined` when there is no such property. */
  function Read(e: Entries, k: string): Value {
    match Lookup(e, k)
    case Some(v) => v
    case None => Undefined
  }

  /** `obj[k] = v`: an existing property keeps its position, a new one goes last. */
  function SetEntry(e: Entries, k: string, v: Value): Entries {
    match IndexOf(e, k)
    case Some(i) => e[i := (k, v)]
    case None => e + [(k, v)]
  }

  /** `{...base, ...extra}`: the properties of `extra` assigned one by one onto a copy of `base`. */
  function Merge(base: Entries, extra: Entries): Entries
    decreases |extra|
  {
    if |extra| == 0 then base
    else Merge(SetEntry(base, extra[0].0, extra[0].1), extra[1..])
  }

  /** In an object without repeated names, `Lookup` finds exactly the entry with that name. */
  lemma LookupDistinct(e: Entries, i: nat)
    requires DistinctKeys(e) && i < |e|
    ensures Lookup(e, e[i].0) == Some(e[i].1)
  {
  }

  /** The first position holding name `k` is where `IndexOf` points. */
  lemma IndexOfFirst(e: Entries, k: string, i: nat)
    requires i < |e| && e[i].0 == k && forall j :: 0 <= j < i ==> e[j].0 != k
    ensures IndexOf(e, k) == Some(i)
  {
  }

  /** Reading through a first entry. */
  lemma LookupCons(p: (string, Value), r: Entries, k: string)
    ensures Lookup([p] + r, k) == if p.0 == k then Some(p.1) else Lookup(r, k)
  {
    assert ([p] + r)[1..] == r;
  }

  /** After `obj[k] = v`, `k` reads `v`. */
  lemma SetEntryReadsNew(e: Entries, k: string, v: Value)
    ensures Lookup(SetEntry(e, k, v), k) == Some(v)
  {
    var r := SetEntry(e, k, v);
    match IndexOf(e, k)
    case Some(i) => IndexOfFirst(r, k, i);
    case None => IndexOfFirst(r, k, |e|);
  }

  /** After `obj[k] = v`, every other name reads as before. */
  lemma SetEntryFrame(e: Entries, k: string, v: Value, k': string)
    requires k' != k
    ensures Lookup(SetEntry(e, k, v), k') == Lookup(e, k')
  {
    var r := SetEntry(e, k, v);
    assert |e| <= |r|;
    assert forall j :: 0 <= j < |e| ==> r[j].0 == e[j].0;
    assert |r| > |e| ==> r[|e|].0 == k;
    match IndexOf(e, k')
    case Some(j) =>
      IndexOfFirst(r, k', j);
    case None =>
      assert forall j :: 0 <= j < |r| ==> r[j].0 != k';
  }

  /** `obj[k] = v` never repeats a name, and the key order is the old one with `k` appended only if new. */
  lemma SetEntryKeys(e: Entries, k: string, v: Value)
    ensures DistinctKeys(e) ==> DistinctKeys(SetEntry(e, k, v))
    ensures KeysOf(SetEntry(e, k, v)) == if Lookup(e, k).Some? then KeysOf(e) else KeysOf(e) + [k]
  {
    var r := SetEntry(e, k, v);
    match IndexOf(e, k)
    case Some(i) =>
      assert forall j :: 0 <= j < |e| ==> r[j].0 == e[j].0;
      assert KeysOf(r) == KeysOf(e);
    case None =>
      assert KeysOf(r) == KeysOf(e) + [k];
  }

  /** All of the above at once. */
  lemma SetEntrySpec(e: Entries, k: string, v: Value)
    ensures Lookup(SetEntry(e, k, v), k) == Some(v)
    ensures forall k' :: k' != k ==> Lookup(SetEntry(e, k, v), k') == Lookup(e, k')
    ensures DistinctKeys(e) ==> DistinctKeys(SetEntry(e, k, v))
  {
    SetEntryReadsNew(e, k, v);
    forall k' | k' != k ensures Lookup(SetEntry(e, k, v), k') == Lookup(e, k') {
      SetEntryFrame(e, k, v, k');
    }
    SetEntryKeys(e, k, v);
  }

  /** A spread reads each name from `extra` when `extra` has it, and from `base` otherwise;
      the merged object never repeats a name. */
  lemma {:induction false} MergeSpec(base: Entries, extra: Entries, k: string)
    requires DistinctKeys(base)
    ensures DistinctKeys(Merge(base, extra))
    ensures Lookup(Merge(base, extra), k) == match LastLookup(extra, k) case Some(v) => Some(v) case None => Lookup(base, k)
    decreases |extra|
  {
    if |extra| > 0 {
      var (k0, v0) := extra[0];
      SetEntrySpec(base, k0, v0);
      MergeSpec(SetEntry(base, k0, v0), extra[1..], k);
    }
  }

  /** The value the last entry named `k` carries: what a property-by-property copy leaves behind. */
  function LastLookup(e: Entries, k: string): Option<Value>
    decreases |e|
  {
    if |e| == 0 then None
    else match LastLookup(e[1..], k)
      case Some(v) => Some(v)
      case None => if e[0].0 == k then Some(e[0].1) else None
  }

  /** For distinct names the last entry named `k` is the only one. */
  lemma {:induction false} LastLookupDistinct(e: Entries, k: string)
    requires DistinctKeys(e)
    ensures LastLookup(e, k) == Lookup(e, k)
    decreases |e|
  {
    if |e| > 0 {
      LastLookupDistinct(e[1..], k);
      if e[0].0 == k {
        assert IndexOf(e[1..], k) == None;
      }
    }
  }

  /** Copying an object's properties onto `{}` gives the same object back. */
  lemma {:induction false} MergeIntoEmpty(acc: Entries, extra: Entries)
    requires DistinctKeys(acc + extra)
    ensures Merge(acc, extra) == acc + extra
    decreases |extra|
  {
    if |extra| > 0 {
      var (k0, v0) := extra[0];
      assert IndexOf(acc, k0) == None by {
        forall j | 0 <= j < |acc| ensures acc[j].0 != k0 {
          assert (acc + extra)[j] == acc[j];
          assert (acc + extra)[|acc|] == extra[0];
        }
      }
      assert SetEntry(acc, k0, v0) == acc + [extra[0]];
      assert (acc + [extra[0]]) + extra[1..] == acc + extra;
      MergeIntoEmpty(acc + [extra[0]], extra[1..]);
    }
  }

  // ---------------------------------------------------------------------------
  // query strings

  /** What the query format needs from `encodeURIComponent` and its decoder. */
  ghost predicate UriCodec(enc: string -> string, dec: string -> string) {
    (forall s :: '&' !in enc(s) && '=' !in enc(s)) && (forall s :: dec(enc(s)) == s)
  }

  /** The `k=v` pairs, each name and `String(value)` encoded. */
  function EncodePairs(e: Entries, enc: string -> string): (r: seq<string>)
    ensures |r| == |e|
    ensures forall i :: 0 <= i < |e| ==> r[i] == enc(e[i].0) + "=" + enc(DisplayString(e[i].1))
  {
    if |e| == 0 then [] else [enc(e[0].0) + "=" + enc(DisplayString(e[0].1))] + EncodePairs(e[1..], enc)
  }

  /** `Object.entries(obj).map(([k, v]) => enc(k) + '=' + enc(v)).join('&')`. */
  function EncodeQuery(e: Entries, enc: string -> string): string {
    JoinWith(EncodePairs(e, enc), '&')
  }

  /** Reads one `k=v` pair back; a pair without `=` has an empty value. */
  function DecodePair(p: string, dec: string -> string): (string, string) {
    var kv := SplitOn(p, '=');
    (dec(kv[0]), if |kv| > 1 then dec(kv[1]) else "")
  }

  /** Reads a query string back into its name/value pairs, in order. */
  function DecodeQuery(q: string, dec: string -> string): seq<(string, string)> {
    var parts := SplitOn(q, '&');
    seq(|parts|, i requires 0 <= i < |parts| => DecodePair(parts[i], dec))
  }

  /** The names and `String(value)`s of the entries. */
  function StringPairs(e: Entries): (r: seq<(string, string)>)
    ensures |r| == |e| && forall i :: 0 <= i < |e| ==> r[i] == (e[i].0, DisplayString(e[i].1))
  {
    seq(|e|, i requires 0 <= i < |e| => (e[i].0, DisplayString(e[i].1)))
  }

  /** A non-empty query string decodes to exactly the pairs it was built from: one pair per entry,
      in entry order. */
  lemma QueryRoundTrip(e: Entries, enc: string -> string, dec: string -> string)
    requires UriCodec(enc, dec) && |e| >= 1
    ensures DecodeQuery(EncodeQuery(e, enc), dec) == StringPairs(e)
  {
    var pairs := EncodePairs(e, enc);
    forall i | 0 <= i < |pairs| ensures '&' !in pairs[i] {
      assert pairs[i] == enc(e[i].0) + "=" + enc(DisplayString(e[i].1));
    }
    SplitJoin(pairs, '&');
    forall i | 0 <= i < |pairs| ensures DecodePair(pairs[i], dec) == StringPairs(e)[i] {
      var a := enc(e[i].0);
      var b := enc(DisplayString(e[i].1));
      assert pairs[i] == a + ['='] + b;
      SplitTwo(a, b, '=');
    }
  }
}

=== FILE: storage.dfy ===
/** `Utils.storage`: `localStorage` behind `JSON.stringify` / `JSON.parse`.

    A stored item is kept as the value its JSON text parses back to; text that
    `JSON.parse` rejects (what `setItem(k, JSON.stringify(undefined))` leaves,
    the string `"undefined"`) and the empty string are their own cases.
    Storage exceptions (quota, privacy mode) are swallowed by the source and
    are not modelled.
 */
module Storage {
  import opened JsValue

  datatype Item =
    | Parsed(json: Value)   // text that JSON.parse reads back as `json`
    | Unparsable            // text JSON.parse throws on
    | EmptyText             // the empty string, which `get` treats as missing

  type Store = map<string, Item>

  /** What `JSON.parse(JSON.stringify(v))` gives for a value that has a JSON text:
      `NaN` becomes `null`, `undefined` properties disappear, `undefined` array elements become `null`. */
  function Normalize(v: Value): Value {
    match v
    case Undefined => Null
    case NaN => Null
    case Obj(f) => Obj(map k | k in f && !f[k].Undefined? :: Normalize(f[k]))
    case Arr(items) => Arr(seq(|items|, i requires 0 <= i < |items| => Normalize(items[i])))
    case _ => v
  }

  /** A value JSON can carry unchanged: no `undefined` and no `NaN` anywhere. */
  predicate JsonClean(v: Value) {
    match v
    case Undefined => false
    case NaN => false
    case Obj(f) => forall k :: k in f ==> JsonClean(f[k])
    case Arr(items) => forall i :: 0 <= i < |items| ==> JsonClean(items[i])
    case _ => true
  }

  lemma {:induction false} NormalizeIsClean(v: Value)
    ensures JsonClean(Normalize(v))
  {
    match v
    case Obj(f) =>
      forall k | k in f && !f[k].Undefined? { NormalizeIsClean(f[k]); }
    case Arr(items) =>
      forall i | 0 <= i < |items| { NormalizeIsClean(items[i]); }
    case _ =>
  }

  /** JSON carries a clean value through unchanged. */
  lemma {:induction false} NormalizeKeepsClean(v: Value)
    requires JsonClean(v)
    ensures Normalize(v) == v
  {
    match v
    case Obj(f) =>
      forall k | k in f { NormalizeKeepsClean(f[k]); }
      assert Normalize(v).fields == f;
    case Arr(items) =>
      forall i | 0 <= i < |items| { NormalizeKeepsClean(items[i]); }
      assert Normalize(v).items == items;
    case _ =>
  }

  /** A second JSON round trip changes nothing. */
  lemma NormalizeIdempotent(v: Value)
    ensures Normalize(Normalize(v)) == Normalize(v)
  {
    NormalizeIsClean(v);
    NormalizeKeepsClean(Normalize(v));
  }

  /** `storage.set(key, value)`. */
  function Set(s: Store, key: string, value: Value): (r: Store)
    ensures r.Keys == s.Keys + {key}
  {
    s[key := if value.Undefined? then Unparsable else Parsed(Normalize(value))]
  }

  /** `storage.get(key, defaultValue)`: a missing, empty or unparsable item gives the default. */
  function Get(s: Store, key: string, default: Value): Value {
    if key !in s then default
    else match s[key]
      case Parsed(v) => v
      case Unparsable => default
      case EmptyText => default
  }

  /** `storage.remove(key)`. */
  function Remove(s: Store, key: string): (r: Store)
    ensures key !in r
  {
    s - {key}
  }

  /** `get` after `set(k, v)` returns `v` as JSON carries it, and exactly `v` for a clean value;
      `set(k, undefined)` makes `get` fall back to the default. */
  lemma GetAfterSet(s: Store, key: string, value: Value, default: Value)
    ensures value.Undefined? ==> Get(Set(s, key, value), key, default) == default
    ensures !value.Undefined? ==> Get(Set(s, key, value), key, default) == Normalize(value)
    ensures JsonClean(value) ==> Get(Set(s, key, value), key, default) == value
  {
    if JsonClean(value) { NormalizeKeepsClean(value); }
  }

  /** `get` after `remove(k)` returns the default. */
  lemma GetAfterRemove(s: Store, key: string, default: Value)
    ensures Get(Remove(s, key), key, default) == default
  {
  }

  /** `set` and `remove` on one key leave every other key as it reads. */
  lemma OtherKeysUnaffected(s: Store, key: string, other: string, value: Value, default: Value)
    requires other != key
    ensures Get(Set(s, key, value), other, default) == Get(s, other, default)
    ensures Get(Remove(s, key), other, default) == Get(s, other, default)
  {
  }
}

=== FILE: tabs.dfy ===
/** `TabManager`: the active tab, its persistence under `activeTab`, the
    `tabChanged` notifications, the keyboard shortcuts, disabling and
    enabling tab buttons and the notification badges.

    The page is seen through the tab buttons (by their `data-tab` value) and
    the ids of the tab content elements. The chart loads a switch starts and
    the events it dispatches are recorded in the state, in order.
 */
module Tabs {
  import opened Wrappers
  import opened Text
  import opened JsValue
  import Storage

  const ExpenseTab: string := "expenseTab"
  const WeightTab: string := "weightTab"
  const BpTab: string := "bpTab"

  /** The storage key the active tab is kept under. */
  const ActiveTabKey: string := "activeTab"

  /** The title a disabled button gets when no reason is given. */
  const DefaultDisabledTitle: string := "此頁籤暫時無法使用"

  /** The chart load `loadTabData` starts for a tab. */
  datatype ChartLoad = ExpenseCharts | WeightChart | BpChart

  /** The `detail` of a `tabChanged` event (the timestamp is not modelled). */
  datatype TabChanged = TabChanged(previousTab: string, currentTab: string)

  datatype Badge = Badge(text: string, visible: bool)

  datatype Button = Button(disabled: bool, title: string, badge: Option<Badge>)

  /** The tab buttons by `data-tab`, and the ids of the tab contents. */
  datatype Page = Page(buttons: map<string, Button>, contents: set<string>)

  /** `activeTab`, the tab whose button and content carry `active` (if any), the storage, and the chart
      loads and events started so far. */
  datatype TabState = TabState(
    activeTab: string,
    highlighted: Option<string>,
    store: Storage.Store,
    loads: seq<ChartLoad>,
    events: seq<TabChanged>)

  /** The manager as the page creates it: on the expense tab, nothing loaded yet. */
  function Initial(store: Storage.Store): (r: TabState)
    ensures r.activeTab == ExpenseTab && r.loads == [] && r.events == []
  {
    TabState(ExpenseTab, None, store, [], [])
  }

  /** `loadTabData(tabId)`: an unknown tab loads nothing. */
  function LoadFor(tabId: string): (r: seq<ChartLoad>)
    ensures |r| <= 1
    ensures |r| == 1 <==> tabId in {ExpenseTab, WeightTab, BpTab}
  {
    if tabId == ExpenseTab then [ExpenseCharts]
    else if tabId == WeightTab then [WeightChart]
    else if tabId == BpTab then [BpChart]
    else []
  }

  /** `switchTab(tabId)`. The event is built after `activeTab` is reassigned, so its `previousTab` is the
      new tab as well. */
  function SwitchTab(s: TabState, page: Page, tabId: string): TabState {
    if s.activeTab == tabId then s
    else
      TabState(
        tabId,
        if tabId in page.buttons && tabId in page.contents then Some(tabId) else None,
        Storage.Set(s.store, ActiveTabKey, Str(tabId)),
        s.loads + LoadFor(tabId),
        s.events + [TabChanged(tabId, tabId)])
  }

  /** `isTabActive(tabId)`. */
  predicate IsTabActive(s: TabState, tabId: string) {
    s.activeTab == tabId
  }

  /** Switching to the active tab changes nothing: no storage write, no load, no event. */
  lemma SwitchToActiveIsNoop(s: TabState, page: Page)
    ensures SwitchTab(s, page, s.activeTab) == s
  {
  }

  /** Switching to another tab makes it the only active tab and persists it; what is read back from storage
      is the tab id; every other stored key is untouched; exactly one event is added and the loads grow by
      that tab's load. */
  lemma SwitchTabEffects(s: TabState, page: Page, tabId: string, other: string)
    requires s.activeTab != tabId
    ensures var r := SwitchTab(s, page, tabId);
      && (forall u :: IsTabActive(r, u) <==> u == tabId)
      && Storage.Get(r.store, ActiveTabKey, Null) == Str(tabId)
      && (other != ActiveTabKey ==> Storage.Get(r.store, other, Null) == Storage.Get(s.store, other, Null))
      && |r.events| == |s.events| + 1 && r.events[..|s.events|] == s.events
      && r.loads == s.loads + LoadFor(tabId)
      && (r.highlighted.Some? <==> tabId in page.buttons && tabId in page.contents)
  {
    Storage.GetAfterSet(s.store, ActiveTabKey, Str(tabId), Null);
    if other != ActiveTabKey {
      Storage.OtherKeysUnaffected(s.store, ActiveTabKey, other, Str(tabId), Null);
    }
  }

  /** Every `tabChanged` event a run of switches dispatches names the same tab as previous and current,
      and that tab is the one switched to. */
  predicate EventsRepeatTarget(events: seq<TabChanged>) {
    forall i :: 0 <= i < |events| ==> events[i].previousTab == events[i].currentTab
  }

  /** Switches the user asks for, in order. */
  function SwitchAll(s: TabState, page: Page, targets: seq<string>): TabState
    decreases |targets|
  {
    if |targets| == 0 then s else SwitchAll(SwitchTab(s, page, targets[0]), page, targets[1..])
  }

  /** However many switches happen, each event carries `previousTab == currentTab`, and every event
      names one of the targets. */
  lemma {:induction false} SwitchEventsRepeatTarget(s: TabState, page: Page, targets: seq<string>)
    requires EventsRepeatTarget(s.events)
    ensures var r := SwitchAll(s, page, targets);
      && EventsRepeatTarget(r.events)
      && |s.events| <= |r.events| && r.events[..|s.events|] == s.events
      && forall i :: |s.events| <= i < |r.events| ==> r.events[i].currentTab in targets
    decreases |targets|
  {
    if |targets| > 0 {
      var s1 := SwitchTab(s, page, targets[0]);
      assert EventsRepeatTarget(s1.events);
      assert |s.events| <= |s1.events| && s1.events[..|s.events|] == s.events;
      assert forall i :: |s.events| <= i < |s1.events| ==> s1.events[i].currentTab == targets[0];
      SwitchEventsRepeatTarget(s1, page, targets[1..]);
      var r := SwitchAll(s1, page, targets[1..]);
      assert r == SwitchAll(s, page, targets);
      assert r.events[..|s1.events|] == s1.events;
      assert r.events[..|s.events|] == s.events by {
        assert r.events[..|s.events|] == r.events[..|s1.events|][..|s.events|];
      }
      forall i | |s.events| <= i < |r.events| ensures r.events[i].currentTab in targets {
        if i < |s1.events| {
          assert r.events[i] == s1.events[i];
        } else {
          assert r.events[i].currentTab in targets[1..];
        }
      }
    }
  }

  /** After a run of switches the active tab is the last target that was asked for, or the starting tab
      when there were none. */
  lemma {:induction false} SwitchAllEndsOnLast(s: TabState, page: Page, targets: seq<string>)
    ensures SwitchAll(s, page, targets).activeTab == if |targets| == 0 then s.activeTab else targets[|targets| - 1]
    decreases |targets|
  {
    if |targets| > 0 {
      SwitchAllEndsOnLast(SwitchTab(s, page, targets[0]), page, targets[1..]);
    }
  }

  // ---------------------------------------------------------------------------
  // loadSavedTab

  /** `loadSavedTab()`: the stored tab (`expenseTab` when none is stored) is switched to when it is truthy and
      the page has a content element with that id. A stored non-string is looked up by its `String` form. */
  function LoadSavedTab(s: TabState, page: Page): TabState {
    var saved := Storage.Get(s.store, ActiveTabKey, Str(ExpenseTab));
    var id := DisplayString(saved);
    if Truthy(saved) && id in page.contents then SwitchTab(s, page, id) else s
  }

  /** `init()` on a page: start on the expense tab, then restore the saved one. */
  function Init(store: Storage.Store, page: Page): TabState {
    LoadSavedTab(Initial(store), page)
  }

  /** With nothing stored, or with `expenseTab` stored, the manager stays on the expense tab and does nothing
      else; a stored tab that the page has is restored. */
  lemma InitRestoresSavedTab(store: Storage.Store, page: Page, t: string)
    ensures ActiveTabKey !in store ==> Init(store, page) == Initial(store)
    ensures Storage.Get(store, ActiveTabKey, Str(ExpenseTab)) == Str(ExpenseTab) ==> Init(store, page) == Initial(store)
    ensures Storage.Get(store, ActiveTabKey, Str(ExpenseTab)) == Str(t) && t != "" && t in page.contents ==>
      Init(store, page).activeTab == t
    ensures Storage.Get(store, ActiveTabKey, Str(ExpenseTab)) == Str(t) && t !in page.contents ==>
      Init(store, page) == Initial(store)
  {
  }

  // ---------------------------------------------------------------------------
  // keyboard navigation

  /** The tab Ctrl/Cmd with `key` switches to. */
  function ShortcutTab(ctrl: bool, meta: bool, key: string): Option<string> {
    if !(ctrl || meta) then None
    else if key == "1" then Some(ExpenseTab)
    else if key == "2" then Some(WeightTab)
    else if key == "3" then Some(BpTab)
    else None
  }

  /** `keydown` on the document. */
  function OnKeyDown(s: TabState, page: Page, ctrl: bool, meta: bool, key: string): TabState {
    match ShortcutTab(ctrl, meta, key)
    case Some(t) => SwitchTab(s, page, t)
    case None => s
  }

  /** Exactly Ctrl or Cmd with 1, 2 or 3 is a shortcut, to the expense, weight and blood-pressure tab in
      that order; everything else leaves the state alone. */
  lemma ShortcutMap(s: TabState, page: Page, ctrl: bool, meta: bool, key: string)
    ensures ShortcutTab(ctrl, meta, key).Some? <==> (ctrl || meta) && key in {"1", "2", "3"}
    ensures (ctrl || meta) ==> (ShortcutTab(ctrl, meta, key) == Some(ExpenseTab) <==> key == "1")
    ensures (ctrl || meta) ==> (ShortcutTab(ctrl, meta, key) == Some(WeightTab) <==> key == "2")
    ensures (ctrl || meta) ==> (ShortcutTab(ctrl, meta, key) == Some(BpTab) <==> key == "3")
    ensures ShortcutTab(ctrl, meta, key).None? ==> OnKeyDown(s, page, ctrl, meta, key) == s
  {
  }

  // ---------------------------------------------------------------------------
  // notification badges

  /** The badge text for `count`. */
  function BadgeText(count: int): string {
    if count > 99 then "99+" else IntToString(count)
  }

  /** `showNotificationBadge(tabId, count)`: a tab without a button is ignored. */
  function ShowNotificationBadge(page: Page, tabId: string, count: int): (r: Page)
    ensures r.contents == page.contents && r.buttons.Keys == page.buttons.Keys
  {
    if tabId in page.buttons then
      var b := page.buttons[tabId];
      page.(buttons := page.buttons[tabId := b.(badge := Some(Badge(BadgeText(count), count > 0)))])
    else page
  }

  /** `hideNotificationBadge(tabId)`: only an existing badge is hidden. */
  function HideNotificationBadge(page: Page, tabId: string): (r: Page)
    ensures r.contents == page.contents && r.buttons.Keys == page.buttons.Keys
  {
    if tabId in page.buttons && page.buttons[tabId].badge.Some? then
      var b := page.buttons[tabId];
      page.(buttons := page.buttons[tabId := b.(badge := Some(b.badge.value.(visible := false)))])
    else page
  }

  /** The text is `99+` exactly when the count exceeds 99, and otherwise the count in decimal; the badge is
      visible exactly when the count is positive. */
  lemma BadgeSpec(page: Page, tabId: string, count: int)
    requires tabId in page.buttons
    ensures var badge := ShowNotificationBadge(page, tabId, count).buttons[tabId].badge;
      && badge.Some?
      && (badge.value.text == "99+" <==> count > 99)
      && (0 <= count <= 99 ==> AllDigits(badge.value.text) && DigitsValue(badge.value.text) == count)
      && (count < 0 ==> badge.value.text == "-" + NatToString(-count))
      && (badge.value.visible <==> count > 0)
  {
    if count <= 99 {
      if count >= 0 {
        NatToStringRoundTrip(count);
        assert '+' !in NatToString(count) by {
          forall i | 0 <= i < |NatToString(count)| ensures NatToString(count)[i] != '+' {
            assert IsDigit(NatToString(count)[i]);
          }
        }
        assert "99+"[2] == '+';
      } else {
        assert IntToString(count)[0] == '-';
      }
    }
  }

  /** Hiding leaves the text and hides the badge. */
  lemma HideAfterShow(page: Page, tabId: string, count: int)
    requires tabId in page.buttons
    ensures var b := HideNotificationBadge(ShowNotificationBadge(page, tabId, count), tabId).buttons[tabId].badge;
      b == Some(Badge(BadgeText(count), false))
  {
  }

  // ---------------------------------------------------------------------------
  // disabling and enabling

  /** `getAllTabs()`, by id. */
  const AllTabs: seq<string> := [ExpenseTab, WeightTab, BpTab]

  /** The tabs of `getAllTabs()` whose button is not disabled, in that order. */
  function Available(buttons: map<string, Button>, ids: seq<string>): (r: seq<string>)
    requires forall i :: 0 <= i < |ids| ==> ids[i] in buttons
    ensures |r| <= |ids|
    ensures forall t :: t in r <==> t in ids && !buttons[t].disabled
  {
    if |ids| == 0 then []
    else (if buttons[ids[0]].disabled then [] else [ids[0]]) + Available(buttons, ids[1..])
  }

  /** The first available tab is the earliest in `ids` that is not disabled. */
  lemma {:induction false} AvailableFirst(buttons: map<string, Button>, ids: seq<string>)
    requires forall i :: 0 <= i < |ids| ==> ids[i] in buttons
    ensures var r := Available(buttons, ids);
      |r| > 0 ==> (exists k :: 0 <= k < |ids| && r[0] == ids[k] && !buttons[ids[k]].disabled &&
                    forall j :: 0 <= j < k ==> buttons[ids[j]].disabled)
    decreases |ids|
  {
    if |ids| > 0 && buttons[ids[0]].disabled {
      AvailableFirst(buttons, ids[1..]);
      var r := Available(buttons, ids);
      if |r| > 0 {
        var k :| 0 <= k < |ids[1..]| && r[0] == ids[1..][k] && !buttons[ids[1..][k]].disabled &&
          forall j :: 0 <= j < k ==> buttons[ids[1..][j]].disabled;
        assert r[0] == ids[k + 1];
        forall j | 0 <= j < k + 1 ensures buttons[ids[j]].disabled {
          if j > 0 { assert ids[j] == ids[1..][j - 1]; }
        }
      }
    } else if |ids| > 0 {
      assert Available(buttons, ids)[0] == ids[0];
    }
  }

  /** What `disableTab` leaves behind: the manager, the page, and the TypeError it threw, if any. The
      button is marked before the throw, so the page carries that change either way. */
  datatype Disabled = Disabled(state: TabState, page: Page, thrown: Option<string>)

  /** `disableTab(tabId, reason)`. A tab without a button is ignored. When the active tab is disabled the
      manager moves to the first tab that is still enabled; reading `.disabled` of a tab that has no button
      throws, after the disabled tab's button has been marked. */
  function DisableTab(s: TabState, page: Page, tabId: string, reason: string): (r: Disabled)
    ensures r.thrown.Some? ==> s.activeTab == tabId && tabId in page.buttons && r.state == s
    ensures r.page.contents == page.contents && r.page.buttons.Keys == page.buttons.Keys
  {
    if tabId !in page.buttons then Disabled(s, page, None)
    else
      var b := page.buttons[tabId];
      var page' := page.(buttons := page.buttons[tabId := b.(disabled := true,
        title := if reason != "" then reason else DefaultDisabledTitle)]);
      if s.activeTab != tabId then Disabled(s, page', None)
      else if !(ExpenseTab in page'.buttons && WeightTab in page'.buttons && BpTab in page'.buttons) then
        Disabled(s, page', Some(ReadErrorMessage("null", "disabled")))
      else
        var available := Available(page'.buttons, AllTabs);
        if |available| > 0 then Disabled(SwitchTab(s, page', available[0]), page', None)
        else Disabled(s, page', None)
  }

  /** `enableTab(tabId)`. */
  function EnableTab(page: Page, tabId: string): (r: Page)
    ensures r.contents == page.contents && r.buttons.Keys == page.buttons.Keys
  {
    if tabId in page.buttons then
      var b := page.buttons[tabId];
      page.(buttons := page.buttons[tabId := b.(disabled := false, title := "")])
    else page
  }

  /** Disabling marks the button, with the reason or the default title, whether or not it then throws,
      and leaves every other button as it was; disabling a tab that is not active never moves the manager. */
  lemma DisableMarksButton(s: TabState, page: Page, tabId: string, reason: string)
    requires tabId in page.buttons
    ensures var r := DisableTab(s, page, tabId, reason);
      && r.page.buttons[tabId].disabled
      && r.page.buttons[tabId].title == (if reason == "" then DefaultDisabledTitle else reason)
      && r.page.buttons[tabId].badge == page.buttons[tabId].badge
      && (forall t :: t in page.buttons && t != tabId ==> r.page.buttons[t] == page.buttons[t])
    ensures s.activeTab != tabId ==>
      DisableTab(s, page, tabId, reason).thrown.None? && DisableTab(s, page, tabId, reason).state == s
  {
  }

  /** When the disabled tab was active and every tab has a button, the manager moves to the first tab in
      the order expense, weight, blood pressure whose button is enabled, which is never the disabled one;
      when none is enabled it stays. */
  lemma DisableActiveFallsBack(s: TabState, page: Page, tabId: string, reason: string)
    requires s.activeTab == tabId && tabId in page.buttons
    requires forall i :: 0 <= i < |AllTabs| ==> AllTabs[i] in page.buttons
    ensures var r := DisableTab(s, page, tabId, reason);
      && r.thrown.None?
      && var page' := r.page;
         var active := r.state.activeTab;
         (exists i :: 0 <= i < |AllTabs| && !page'.buttons[AllTabs[i]].disabled) ==>
           && active != tabId
           && exists k :: 0 <= k < |AllTabs| && active == AllTabs[k] && !page'.buttons[AllTabs[k]].disabled &&
                forall j :: 0 <= j < k ==> page'.buttons[AllTabs[j]].disabled
    ensures var r := DisableTab(s, page, tabId, reason);
      (forall i :: 0 <= i < |AllTabs| ==> r.page.buttons[AllTabs[i]].disabled) ==> r.state == s
  {
    assert ExpenseTab in page.buttons && WeightTab in page.buttons && BpTab in page.buttons by {
      assert AllTabs[0] == ExpenseTab && AllTabs[1] == WeightTab && AllTabs[2] == BpTab;
    }
    var b := page.buttons[tabId];
    var buttons' := page.buttons[tabId := b.(disabled := true,
      title := if reason != "" then reason else DefaultDisabledTitle)];
    var page' := page.(buttons := buttons');
    assert buttons'[tabId].disabled;
    assert forall i :: 0 <= i < |AllTabs| ==> AllTabs[i] in buttons';
    AvailableFirst(buttons', AllTabs);
    var available := Available(buttons', AllTabs);
    if exists i :: 0 <= i < |AllTabs| && !buttons'[AllTabs[i]].disabled {
      var i :| 0 <= i < |AllTabs| && !buttons'[AllTabs[i]].disabled;
      assert AllTabs[i] in available;
      assert available[0] in available;
      assert available[0] != tabId;
      var s' := SwitchTab(s, page', available[0]);
      assert s'.activeTab == available[0];
      assert DisableTab(s, page, tabId, reason) == Disabled(s', page', None);
    } else {
      assert forall t :: t !in available;
      assert DisableTab(s, page, tabId, reason) == Disabled(s, page', None);
    }
  }

  /** A disabled active tab with a tab lacking its button throws, keeping the manager where it was and the
      button it has already marked. */
  lemma DisableActiveWithMissingButtonThrows(s: TabState, page: Page, tabId: string, reason: string, missing: string)
    requires s.activeTab == tabId && tabId in page.buttons
    requires missing in AllTabs && missing !in page.buttons
    ensures var r := DisableTab(s, page, tabId, reason);
      && r.thrown == Some(ReadErrorMessage("null", "disabled"))
      && r.state == s && r.page.buttons[tabId].disabled
  {
  }

  /** Enabling undoes disabling on the button, except that the title is cleared. */
  lemma EnableAfterDisable(s: TabState, page: Page, tabId: string, reason: string)
    requires tabId in page.buttons
    ensures var p := EnableTab(DisableTab(s, page, tabId, reason).page, tabId);
      && !p.buttons[tabId].disabled && p.buttons[tabId].title == ""
      && p.buttons[tabId].badge == page.buttons[tabId].badge
  {
  }
}

=== FILE: text.dfy ===
/** String primitives the JavaScript client relies on, stated over `seq<char>`:
    decimal rendering of integers (`String(n)`), `padStart(2, "0")`,
    `includes`, `split`/`join` on one separator character, `trim`, and the
    code-unit ordering used by `<` and by `Array.prototype.sort()` on strings.
 */
module Text {

  predicate IsDigit(c: char) {
    '0' <= c <= '9'
  }

  function DigitChar(d: nat): (c: char)
    requires d < 10
    ensures IsDigit(c) && c as int - '0' as int == d
  {
    ('0' as int + d) as char
  }

  predicate AllDigits(s: string) {
    forall i :: 0 <= i < |s| ==> IsDigit(s[i])
  }

  /** The number a string of decimal digits denotes (most significant digit first). */
  function DigitsValue(s: string): nat
    requires AllDigits(s)
  {
    if |s| == 0 then 0
    else DigitsValue(s[..|s| - 1]) * 10 + (s[|s| - 1] as int - '0' as int)
  }

  /** `String(n)` for a non-negative integer: shortest decimal form, no leading zero. */
  function NatToString(n: nat): (r: string)
    ensures |r| >= 1 && AllDigits(r)
    ensures |r| > 1 ==> r[0] != '0'
    ensures |r| == 1 <==> n < 10
  {
    if n < 10 then [DigitChar(n)] else NatToString(n / 10) + [DigitChar(n % 10)]
  }

  /** Reading the rendered digits back gives the number: `NatToString` is injective. */
  lemma {:induction false} NatToStringRoundTrip(n: nat)
    ensures DigitsValue(NatToString(n)) == n
  {
    if n >= 10 {
      var s := NatToString(n);
      assert s[..|s| - 1] == NatToString(n / 10);
      NatToStringRoundTrip(n / 10);
    }
  }

  /** `String(i)` for any integer: a minus sign before the magnitude when negative. */
  function IntToString(i: int): (r: string)
    ensures |r| >= 1
    ensures i >= 0 ==> AllDigits(r) && DigitsValue(r) == i
    ensures i < 0 ==> r[0] == '-' && AllDigits(r[1..]) && DigitsValue(r[1..]) == -i
  {
    if i < 0 then
      var m := NatToString(-i);
      NatToStringRoundTrip(-i);
      assert ("-" + m)[1..] == m;
      "-" + m
    else
      NatToStringRoundTrip(i);
      NatToString(i)
  }

  /** `s.padStart(2, "0")`. */
  function PadStart2(s: string): (r: string)
    ensures |s| >= 2 ==> r == s
    ensures |s| < 2 ==> |r| == 2 && r[2 - |s|..] == s
    ensures forall i :: 0 <= i < 2 - |s| ==> r[i] == '0'
  {
    if |s| >= 2 then s else seq(2 - |s|, _ => '0') + s
  }

  /** `String(n).padStart(2, "0")`: for n below 100 exactly two digits that read back as n. */
  function TwoDigits(n: nat): (r: string)
    ensures n < 100 ==> |r| == 2 && AllDigits(r) && DigitsValue(r) == n
    ensures n >= 100 ==> r == NatToString(n)
  {
    var s := NatToString(n);
    NatToStringRoundTrip(n);
    if n < 10 then
      var r := PadStart2(s);
      assert r == ['0', s[0]];
      assert r[..1] == "0";
      r
    else
      PadStart2(s)
  }

  // ---------------------------------------------------------------------------
  // includes

  predicate OccursAt(s: string, sub: string, i: int) {
    0 <= i && i + |sub| <= |s| && s[i..i + |sub|] == sub
  }

  /** `s.includes(sub)`. */
  predicate Contains(s: string, sub: string) {
    exists i :: 0 <= i <= |s| - |sub| && OccursAt(s, sub, i)
  }

  lemma ContainsWitness(s: string, sub: string, i: int)
    requires OccursAt(s, sub, i)
    ensures Contains(s, sub)
  {
  }

  /** A string without the first character of `sub` cannot contain `sub`. */
  lemma NotContainsWithoutHead(s: string, sub: string)
    requires |sub| > 0 && sub[0] !in s
    ensures !Contains(s, sub)
  {
  }

  // ---------------------------------------------------------------------------
  // split / join on one separator character

  /** `s.split(sep)` for a one-character separator: always at least one part, none containing `sep`. */
  function SplitOn(s: string, sep: char): (parts: seq<string>)
    ensures |parts| >= 1
    ensures forall i :: 0 <= i < |parts| ==> sep !in parts[i]
  {
    if |s| == 0 then [""]
    else
      var rest := SplitOn(s[1..], sep);
      if s[0] == sep then [""] + rest
      else [[s[0]] + rest[0]] + rest[1..]
  }

  /** `parts.join(sep)`. */
  function JoinWith(parts: seq<string>, sep: char): string {
    if |parts| == 0 then ""
    else if |parts| == 1 then parts[0]
    else parts[0] + [sep] + JoinWith(parts[1..], sep)
  }

  /** Joining the parts of a split restores the string. */
  lemma {:induction false} JoinSplit(s: string, sep: char)
    ensures JoinWith(SplitOn(s, sep), sep) == s
  {
    if |s| > 0 {
      var rest := SplitOn(s[1..], sep);
      JoinSplit(s[1..], sep);
      if s[0] == sep {
        assert ([""] + rest)[1..] == rest;
      } else {
        var parts := [[s[0]] + rest[0]] + rest[1..];
        if |rest| == 1 {
          assert parts == [[s[0]] + rest[0]];
        } else {
          assert parts[1..] == rest[1..];
          assert JoinWith(rest, sep) == rest[0] + [sep] + JoinWith(rest[1..], sep);
        }
      }
    }
  }

  /** Splitting a string whose prefix `p` is separator-free extends the first part of the suffix's split. */
  lemma {:induction false} SplitSeparatorFreePrefix(p: string, t: string, sep: char)
    requires sep !in p
    ensures SplitOn(p + t, sep) == [p + SplitOn(t, sep)[0]] + SplitOn(t, sep)[1..]
  {
    if |p| > 0 {
      SplitSeparatorFreePrefix(p[1..], t, sep);
      assert (p + t)[1..] == p[1..] + t;
      assert (p + t)[0] == p[0];
      assert [p[0]] + (p[1..] + SplitOn(t, sep)[0]) == p + SplitOn(t, sep)[0];
    } else {
      var q := SplitOn(t, sep);
      assert q == [q[0]] + q[1..];
      assert p == [];
      assert p + q[0] == q[0];
      assert p + t == t;
    }
  }

  /** Splitting a join of separator-free parts gives back the parts. */
  lemma {:induction false} SplitJoin(parts: seq<string>, sep: char)
    requires |parts| >= 1
    requires forall i :: 0 <= i < |parts| ==> sep !in parts[i]
    ensures SplitOn(JoinWith(parts, sep), sep) == parts
  {
    if |parts| == 1 {
      SplitSeparatorFreePrefix(parts[0], "", sep);
      assert parts[0] + "" == parts[0];
    } else {
      var tail := JoinWith(parts[1..], sep);
      SplitJoin(parts[1..], sep);
      var t := [sep] + tail;
      assert t[1..] == tail;
      assert SplitOn(t, sep) == [""] + parts[1..];
      SplitSeparatorFreePrefix(parts[0], t, sep);
      assert parts[0] + [sep] + tail == parts[0] + t;
      assert parts[0] + "" == parts[0];
    }
  }

  /** `(a + sep + b).split(sep)` is `[a, b]` when neither part holds the separator. */
  lemma SplitTwo(a: string, b: string, sep: char)
    requires sep !in a && sep !in b
    ensures SplitOn(a + [sep] + b, sep) == [a, b]
  {
    assert [a, b][1..] == [b];
    assert JoinWith([a, b], sep) == a + [sep] + b;
    SplitJoin([a, b], sep);
  }

  // ---------------------------------------------------------------------------
  // code-unit ordering

  /** `a < b` on JavaScript strings: a proper prefix is smaller, otherwise the first differing unit decides. */
  predicate LexLess(a: string, b: string) {
    if |b| == 0 then false
    else if |a| == 0 then true
    else if a[0] != b[0] then a[0] < b[0]
    else LexLess(a[1..], b[1..])
  }

  predicate LexLessEq(a: string, b: string) {
    a == b || LexLess(a, b)
  }

  lemma {:induction false} LexLessIrreflexive(a: string)
    ensures !LexLess(a, a)
  {
    if |a| > 0 {
      LexLessIrreflexive(a[1..]);
    }
  }

  lemma {:induction false} LexLessTransitive(a: string, b: string, c: string)
    requires LexLess(a, b) && LexLess(b, c)
    ensures LexLess(a, c)
  {
    if |a| > 0 && a[0] == b[0] && b[0] == c[0] {
      LexLessTransitive(a[1..], b[1..], c[1..]);
    }
  }

  lemma {:induction false} LexLessTotal(a: string, b: string)
    requires a != b
    ensures LexLess(a, b) || LexLess(b, a)
  {
    if |a| > 0 && |b| > 0 && a[0] == b[0] {
      assert a == [a[0]] + a[1..] && b == [b[0]] + b[1..];
      LexLessTotal(a[1..], b[1..]);
    }
  }

  lemma LexLessEqTotal(a: string, b: string)
    ensures LexLessEq(a, b) || LexLessEq(b, a)
  {
    if a != b {
      LexLessTotal(a, b);
    }
  }

  lemma LexLessEqTransitive(a: string, b: string, c: string)
    requires LexLessEq(a, b) && LexLessEq(b, c)
    ensures LexLessEq(a, c)
  {
    if a != b && b != c {
      LexLessTransitive(a, b, c);
    }
  }

  predicate SortedAscending(s: seq<string>) {
    forall i, j :: 0 <= i < j < |s| ==> LexLessEq(s[i], s[j])
  }

  /** Inserts `x` before the first element it does not exceed. */
  function InsertAscending(x: string, s: seq<string>): seq<string> {
    if |s| == 0 then [x]
    else if LexLessEq(x, s[0]) then [x] + s
    else [s[0]] + InsertAscending(x, s[1..])
  }

  lemma {:induction false} InsertAscendingPermutes(x: string, s: seq<string>)
    ensures multiset(InsertAscending(x, s)) == multiset(s) + multiset{x}
  {
    if |s| > 0 && !LexLessEq(x, s[0]) {
      InsertAscendingPermutes(x, s[1..]);
      assert s == [s[0]] + s[1..];
    }
  }

  lemma {:induction false} InsertAscendingSorted(x: string, s: seq<string>)
    requires SortedAscending(s)
    ensures SortedAscending(InsertAscending(x, s))
  {
    if |s| == 0 {
    } else if LexLessEq(x, s[0]) {
      forall j | 0 < j < |s| ensures LexLessEq(x, s[j]) {
        LexLessEqTransitive(x, s[0], s[j]);
      }
    } else {
      LexLessEqTotal(x, s[0]);
      var t := InsertAscending(x, s[1..]);
      InsertAscendingSorted(x, s[1..]);
      InsertAscendingPermutes(x, s[1..]);
      forall j | 0 <= j < |t| ensures LexLessEq(s[0], t[j]) {
        assert t[j] in multiset(t);
        if t[j] != x {
          assert t[j] in multiset(s[1..]);
          var k :| 0 <= k < |s[1..]| && s[1..][k] == t[j];
          assert s[k + 1] == t[j];
        }
      }
    }
  }

  /** `keys.sort()` with the default comparator: an ascending permutation of `keys`. */
  function SortAscending(keys: seq<string>): (r: seq<string>)
    ensures SortedAscending(r)
    ensures multiset(r) == multiset(keys)
  {
    if |keys| == 0 then []
    else
      var init := keys[..|keys| - 1];
      var last := keys[|keys| - 1];
      assert keys == init + [last];
      var sorted := SortAscending(init);
      InsertAscendingSorted(last, sorted);
      InsertAscendingPermutes(last, sorted);
      InsertAscending(last, sorted)
  }

  // ---------------------------------------------------------------------------
  // trim

  /** The WhiteSpace and LineTerminator code points of ECMA-262 that `String.prototype.trim` removes. */
  predicate IsJsSpace(c: char) {
    || c == '\t' || c == '\n' || c == '\U{000B}' || c == '\U{000C}' || c == '\r' || c == ' '
    || c == '\U{00A0}' || c == '\U{1680}' || ('\U{2000}' <= c <= '\U{200A}')
    || c == '\U{2028}' || c == '\U{2029}' || c == '\U{202F}' || c == '\U{205F}'
    || c == '\U{3000}' || c == '\U{FEFF}'
  }

  predicate AllSpace(s: string) {
    forall i :: 0 <= i < |s| ==> IsJsSpace(s[i])
  }

  lemma AllSpaceConcat(a: string, b: string)
    requires AllSpace(a) && AllSpace(b)
    ensures AllSpace(a + b)
  {
    forall i | 0 <= i < |a + b| ensures IsJsSpace((a + b)[i]) {
      if i < |a| { assert (a + b)[i] == a[i]; } else { assert (a + b)[i] == b[i - |a|]; }
    }
  }

  /** Drops leading white space: a suffix of `s` preceded only by white space. */
  function TrimStart(s: string): (r: string)
    ensures |r| <= |s| && r == s[|s| - |r|..]
    ensures AllSpace(s[..|s| - |r|])
    ensures |r| > 0 ==> !IsJsSpace(r[0])
  {
    if |s| > 0 && IsJsSpace(s[0]) then
      var r := TrimStart(s[1..]);
      var dropped := s[1..][..|s[1..]| - |r|];
      assert s[..|s| - |r|] == [s[0]] + dropped;
      AllSpaceConcat([s[0]], dropped);
      r
    else s
  }

  /** Drops trailing white space: a prefix of `s` followed only by white space. */
  function TrimEnd(s: string): (r: string)
    ensures |r| <= |s| && r == s[..|r|]
    ensures AllSpace(s[|r|..])
    ensures |r| > 0 ==> !IsJsSpace(r[|r| - 1])
  {
    if |s| > 0 && IsJsSpace(s[|s| - 1]) then
      var r := TrimEnd(s[..|s| - 1]);
      var dropped := s[..|s| - 1][|r|..];
      assert s[|r|..] == dropped + [s[|s| - 1]];
      AllSpaceConcat(dropped, [s[|s| - 1]]);
      r
    else s
  }

  /** `s.trim()`. */
  function Trim(s: string): string {
    TrimEnd(TrimStart(s))
  }

  /** `trim` leaves a contiguous piece of `s` with only white space around it and none at its ends;
      it is empty exactly when `s` is all white space. */
  lemma TrimSpec(s: string)
    ensures var r := Trim(s);
      && (exists i :: 0 <= i <= |s| - |r| && r == s[i..i + |r|] && AllSpace(s[..i]) && AllSpace(s[i + |r|..]))
      && (|r| > 0 ==> !IsJsSpace(r[0]) && !IsJsSpace(r[|r| - 1]))
      && (|r| == 0 <==> AllSpace(s))
  {
    var a := TrimStart(s);
    var r := TrimEnd(a);
    var i := |s| - |a|;
    assert r == s[i..i + |r|];
    assert s[i + |r|..] == a[|r|..];
    TrimEmptyIff(s);
    if |r| > 0 {
      assert r[0] == a[0];
    }
  }

  lemma TrimEmptyIff(s: string)
    ensures |Trim(s)| == 0 <==> AllSpace(s)
  {
    var a := TrimStart(s);
    var r := TrimEnd(a);
    var i := |s| - |a|;
    if |r| == 0 {
      assert a[|r|..] == a;
      assert s == s[..i] + a;
      AllSpaceConcat(s[..i], a);
    }
  }
}

=== FILE: utils.dfy ===
/** `Utils`: date and time formatting, the inclusive range check, the JSONP
    callback URL, `throttle` and `generateId`. The clock and `Math.random` are
    parameters.
 */
module Utils {
  import opened Text
  import opened Numbers
  import opened JsValue
  import opened Wrappers

  /** The local calendar fields a `Date` reports; `month` is zero-based as `getMonth()` returns it. */
  datatype LocalDateTime = LocalDateTime(year: int, month: nat, day: nat, hours: nat, minutes: nat)

  predicate ValidDateTime(d: LocalDateTime) {
    d.month < 12 && 1 <= d.day <= 31 && d.hours < 24 && d.minutes < 60
  }

  /** `formatDate(date)`: the year unpadded, month and day padded to two digits. */
  function FormatDate(d: LocalDateTime): string {
    IntToString(d.year) + "-" + TwoDigits(d.month + 1) + "-" + TwoDigits(d.day)
  }

  /** `formatTime(date)`: `HH:MM`. */
  function FormatTime(d: LocalDateTime): string {
    TwoDigits(d.hours) + ":" + TwoDigits(d.minutes)
  }

  /** A formatted date splits on `-` into the year, the 1-based month and the day, each read back exactly;
      month and day always take two digits. */
  lemma FormatDateFields(d: LocalDateTime)
    requires ValidDateTime(d) && d.year >= 0
    ensures var parts := SplitOn(FormatDate(d), '-');
      && |parts| == 3
      && parts[0] == NatToString(d.year) && DigitsValue(parts[0]) == d.year
      && |parts[1]| == 2 && AllDigits(parts[1]) && DigitsValue(parts[1]) == d.month + 1
      && |parts[2]| == 2 && AllDigits(parts[2]) && DigitsValue(parts[2]) == d.day
  {
    var y := IntToString(d.year);
    var m := TwoDigits(d.month + 1);
    var dd := TwoDigits(d.day);
    NatToStringRoundTrip(d.year);
    NoDashInDigits(y);
    NoDashInDigits(m);
    NoDashInDigits(dd);
    assert [y, m, dd][1..] == [m, dd];
    assert [m, dd][1..] == [dd];
    assert JoinWith([m, dd], '-') == m + "-" + dd;
    assert JoinWith([y, m, dd], '-') == y + "-" + (m + "-" + dd);
    assert y + "-" + (m + "-" + dd) == FormatDate(d);
    SplitJoin([y, m, dd], '-');
  }

  lemma NoDashInDigits(s: string)
    requires AllDigits(s)
    ensures '-' !in s
  {
    forall i | 0 <= i < |s| ensures s[i] != '-' {
      assert IsDigit(s[i]);
    }
  }

  /** For a four-digit year the result is the ISO 8601 extended calendar date `YYYY-MM-DD`
      (section 5.2.1.1 of ISO 8601:2004): ten characters, dashes at positions 4 and 7, digits elsewhere. */
  lemma FormatDateIsIso(d: LocalDateTime)
    requires ValidDateTime(d) && 1000 <= d.year <= 9999
    ensures var r := FormatDate(d);
      && |r| == 10 && r[4] == '-' && r[7] == '-'
      && AllDigits(r[..4]) && AllDigits(r[5..7]) && AllDigits(r[8..])
      && DigitsValue(r[..4]) == d.year && DigitsValue(r[5..7]) == d.month + 1 && DigitsValue(r[8..]) == d.day
  {
    var y := IntToString(d.year);
    NatToStringRoundTrip(d.year);
    assert d.year >= 1000;
    FourDigitYear(d.year);
    var r := FormatDate(d);
    assert r[..4] == y;
    assert r[5..7] == TwoDigits(d.month + 1);
    assert r[8..] == TwoDigits(d.day);
  }

  /** A year in [1000, 9999] renders with four digits. */
  lemma FourDigitYear(n: nat)
    requires 1000 <= n <= 9999
    ensures |NatToString(n)| == 4
  {
    assert n / 10 >= 100 && n / 10 / 10 >= 10 && n / 10 / 10 / 10 >= 1;
    assert n / 10 / 10 / 10 < 10;
  }

  /** A formatted time is `HH:MM` with the hours and minutes read back exactly. */
  lemma FormatTimeFields(d: LocalDateTime)
    requires ValidDateTime(d)
    ensures var r := FormatTime(d);
      && |r| == 5 && r[2] == ':'
      && AllDigits(r[..2]) && AllDigits(r[3..])
      && DigitsValue(r[..2]) == d.hours && DigitsValue(r[3..]) == d.minutes
  {
    var r := FormatTime(d);
    assert r[..2] == TwoDigits(d.hours);
    assert r[3..] == TwoDigits(d.minutes);
  }

  /** `isNumberInRange(value, min, max)`: `parseFloat(value)` is a number in [min, max]. */
  function IsNumberInRange(value: Value, min: real, max: real): bool {
    match ParseFloatOf(value)
    case Some(n) => min <= n && n <= max
    case None => false
  }

  /** Both ends of the range are accepted and anything outside is rejected. */
  lemma NumberInRangeInclusive(x: real, min: real, max: real)
    ensures IsNumberInRange(Num(x), min, max) <==> min <= x <= max
    ensures min <= max ==> IsNumberInRange(Num(min), min, max) && IsNumberInRange(Num(max), min, max)
  {
  }

  /** `parseFloat` of a text that starts with a letter is `NaN`. */
  lemma ParseFloatOfWord(s: string)
    requires |s| > 0 && ('A' <= s[0] <= 'Z' || 'a' <= s[0] <= 'z')
    ensures ParseFloat(s) == None
  {
    assert !IsJsSpace(s[0]) && !IsDigit(s[0]);
    assert TrimStart(s) == s;
    assert DigitPrefix(s) == 0;
  }

  /** A value that is not a number and whose `String` starts with a letter never passes the range check;
      `NaN` and `undefined` are such values. */
  lemma NumberInRangeRejectsWords(v: Value, min: real, max: real)
    requires !v.Num?
    requires var t := DisplayString(v); |t| > 0 && ('A' <= t[0] <= 'Z' || 'a' <= t[0] <= 'z')
    ensures !IsNumberInRange(v, min, max)
  {
    ParseFloatOfWord(DisplayString(v));
  }

  /** `NaN` and `undefined` never pass the range check. */
  lemma NumberInRangeRejectsNaN(min: real, max: real)
    ensures !IsNumberInRange(NaN, min, max) && !IsNumberInRange(Undefined, min, max)
  {
    NumberInRangeRejectsWords(NaN, min, max);
    NumberInRangeRejectsWords(Undefined, min, max);
  }

  // ---------------------------------------------------------------------------
  // JSONP

  const CallbackParameter: string := "callback="

  /** The script URL `jsonp` loads: the callback joins with `&` when the URL already has a query, with `?` otherwise. */
  function JsonpUrl(url: string, fnName: string): (r: string)
    ensures |r| == |url| + 1 + |CallbackParameter| + |fnName|
    ensures r[..|url|] == url
    ensures r[|url| + 1..] == CallbackParameter + fnName
  {
    var joiner := if Contains(url, "?") then "&" else "?";
    url + joiner + CallbackParameter + fnName
  }

  /** The joining character is `&` exactly when the URL has a `?`, so the result always has one. */
  lemma JsonpUrlJoiner(url: string, fnName: string)
    ensures JsonpUrl(url, fnName)[|url|] == (if Contains(url, "?") then '&' else '?')
    ensures Contains(JsonpUrl(url, fnName), "?")
  {
    var r := JsonpUrl(url, fnName);
    if Contains(url, "?") {
      var i :| 0 <= i <= |url| - 1 && OccursAt(url, "?", i);
      assert r[i..i + 1] == url[i..i + 1];
      ContainsWitness(r, "?", i);
    } else {
      assert r[|url|..|url| + 1] == "?";
      ContainsWitness(r, "?", |url|);
    }
  }

  // ---------------------------------------------------------------------------
  // throttle

  /** One call of a throttled function at time `now`: it runs iff `now - lastTime >= delay`,
      and only then does `lastTime` move. */
  datatype ThrottleStep = ThrottleStep(invoked: bool, lastTime: int)

  function ThrottleCall(lastTime: int, now: int, delay: int): ThrottleStep {
    if now - lastTime >= delay then ThrottleStep(true, now) else ThrottleStep(false, lastTime)
  }

  /** The times at which a throttled function (created with `lastTime = 0`) actually runs,
      for calls at `times`. */
  function ThrottleRun(lastTime: int, times: seq<int>, delay: int): seq<int>
    decreases |times|
  {
    if |times| == 0 then []
    else
      var step := ThrottleCall(lastTime, times[0], delay);
      (if step.invoked then [times[0]] else []) + ThrottleRun(step.lastTime, times[1..], delay)
  }

  /** Every run happens at one of the call times, the first at least `delay` after the start, and
      consecutive runs are at least `delay` apart. */
  lemma {:induction false} ThrottleSpacing(lastTime: int, times: seq<int>, delay: int)
    ensures var runs := ThrottleRun(lastTime, times, delay);
      && |runs| <= |times|
      && (forall j :: 0 <= j < |runs| ==> runs[j] in times)
      && (|runs| > 0 ==> runs[0] - lastTime >= delay)
      && (forall j :: 0 <= j < |runs| - 1 ==> runs[j + 1] - runs[j] >= delay)
    decreases |times|
  {
    if |times| > 0 {
      var step := ThrottleCall(lastTime, times[0], delay);
      ThrottleSpacing(step.lastTime, times[1..], delay);
      var rest := ThrottleRun(step.lastTime, times[1..], delay);
      var runs := ThrottleRun(lastTime, times, delay);
      forall j | 0 <= j < |rest| ensures rest[j] in times {
        assert rest[j] in times[1..];
      }
      if step.invoked {
        assert runs == [times[0]] + rest;
        forall j | 0 <= j < |runs| - 1 ensures runs[j + 1] - runs[j] >= delay {
          if j > 0 { assert runs[j] == rest[j - 1] && runs[j + 1] == rest[j]; }
        }
      } else {
        assert runs == rest;
      }
    }
  }

  /** The time the throttled function last ran, or the starting `lastTime` when it has not run yet. */
  function LastRun(lastTime: int, runs: seq<int>): int {
    if |runs| > 0 then runs[|runs| - 1] else lastTime
  }

  /** One more call at `t` runs iff it comes at least `delay` after the last run (or the start), and then
      it is the only run added. */
  lemma {:induction false} ThrottleSnoc(lastTime: int, times: seq<int>, t: int, delay: int)
    ensures var runs := ThrottleRun(lastTime, times, delay);
      ThrottleRun(lastTime, times + [t], delay) ==
        runs + (if t - LastRun(lastTime, runs) >= delay then [t] else [])
    decreases |times|
  {
    if |times| == 0 {
      assert times + [t] == [t];
    } else {
      var step := ThrottleCall(lastTime, times[0], delay);
      var head := if step.invoked then [times[0]] else [];
      assert (times + [t])[0] == times[0] && (times + [t])[1..] == times[1..] + [t];
      ThrottleSnoc(step.lastTime, times[1..], t, delay);
      var rest := ThrottleRun(step.lastTime, times[1..], delay);
      assert ThrottleRun(lastTime, times, delay) == head + rest;
      assert LastRun(step.lastTime, rest) == LastRun(lastTime, head + rest);
    }
  }

  /** Call `i` runs iff `now - lastTime >= delay` holds for the time of the last earlier run (or the
      start): the runs of the first `i + 1` calls are those of the first `i`, plus call `i` exactly then. */
  lemma ThrottleDecides(lastTime: int, times: seq<int>, delay: int, i: nat)
    requires i < |times|
    ensures var runs := ThrottleRun(lastTime, times[..i], delay);
      ThrottleRun(lastTime, times[..i + 1], delay) ==
        runs + (if times[i] - LastRun(lastTime, runs) >= delay then [times[i]] else [])
  {
    assert times[..i + 1] == times[..i] + [times[i]];
    ThrottleSnoc(lastTime, times[..i], times[i], delay);
  }

  // ---------------------------------------------------------------------------
  // generateId

  const IdAlphabet: string := "ABCDEFGHIJKLMNOPQRSTUVWXYZabcdefghijklmnopqrstuvwxyz0123456789"

  /** `Math.random()` draws are in [0, 1). */
  predicate UnitDraws(draws: seq<real>) {
    forall i :: 0 <= i < |draws| ==> 0.0 <= draws[i] < 1.0
  }

  /** The character `chars.charAt(Math.floor(r * chars.length))` picks for a draw `r`. */
  function Pick(r: real): (c: char)
    requires 0.0 <= r < 1.0
    ensures c in IdAlphabet
  {
    var k := (r * |IdAlphabet| as real).Floor;
    IdAlphabet[k]
  }

  /** `generateId(length)` with the `Math.random()` draws given: exactly `length` characters,
      the `i`-th picked by the `i`-th draw, all from the 62-character alphabet. */
  method GenerateId(length: int, draws: seq<real>) returns (id: string)
    requires UnitDraws(draws) && |draws| >= length
    ensures |id| == (if length > 0 then length else 0)
    ensures forall i :: 0 <= i < |id| ==> id[i] in IdAlphabet && id[i] == Pick(draws[i])
  {
    id := "";
    var i := 0;
    while i < length
      invariant 0 <= i <= (if length > 0 then length else 0) && |id| == i
      invariant forall j :: 0 <= j < i ==> id[j] == Pick(draws[j])
    {
      id := id + [Pick(draws[i])];
      i := i + 1;
    }
  }
}

=== FILE: wrappers.dfy ===
/** Failure-compatible wrappers shared by every module of the model.

- Option<T>: a value that may be absent (JavaScript `null`/`undefined` results).
- Result<T, E>: a value or the error a JavaScript call would have thrown.
 */
module Wrappers {

  datatype Option<+T> = None | Some(value: T) {

    predicate IsFailure() {
      None?
    }

    function PropagateFailure<U>(): Option<U>
      requires None?
    {
      None
    }

    function Extract(): T
      requires Some?
    {
      value
    }

    /** The value, or `default` when absent. */
    function GetOr(default: T): T {
      match this
      case Some(v) => v
      case None => default
    }
  }

  datatype Result<+T, +E> = Success(value: T) | Failure(error: E) {

    predicate IsFailure() {
      Failure?
    }

    function PropagateFailure<U>(): Result<U, E>
      requires Failure?
    {
      Failure(error)
    }

    function Extract(): T
      requires Success?
    {
      value
    }

    function ToOption(): Option<T> {
      match this
      case Success(v) => Some(v)
      case Failure(_) => None
    }
  }
}
